=== FILE: README.md ===
# Aura explorer API: block ingestion, validator reconciliation and listings

This project is a Dafny model of the core of the Aura explorer back end, a NestJS service that
mirrors a Cosmos chain into SQL tables. It has four parts.

- **The block ingestion tick** (`handleInterval`). The tick reads the persisted sync cursor and
  fetches the block one above it when the node is ahead. It classifies each transaction as
  its message action (success) or its first message's type URL (failure). It stores one row
  per transaction and saves the block row at the last transaction, with the summed gas. The
  cursor moves by one only when all of that succeeded.
- **The validator reconciliation loop** (`syncValidator` / `syncUpdateValidator`). For each
  validator the loop builds a fresh row from the staking, pool, slashing and signing-info
  answers. It inserts the row unless one exists, then diffs the stored row field by field
  against the fresh one. It stores the validator's delegations.
- **The CW20 token listings** (`getCw20Tokens`, `getCw20TokensByOwner`, `getPriceById`). These
  are the market overview with `||` defaults, and the per-owner holdings: the native coin, the
  IBC balances, then a page of CW20 holdings whose window is shifted by the assets placed in
  front.
- **Two read paths.** `getTransactionsByAddress` relabels staking transactions with their
  event type and a six-decimal amount. The two proposal-vote SQL builders append clauses and
  push placeholder values.

Modules, one file each:

| module | what it holds |
|---|---|
| `Results` | `Option` and `Result` |
| `Lists` | `find`, `filter` and the "last match wins" scan |
| `Text` | character replace, first-occurrence removal, `String(n)`, `parseInt`, and the exact `toFixed(6)` of micro-units with its reader |
| `JsValues` | JavaScript values, `===`, `parseInt` of a value, and `count + n` |
| `Constants` | the values of `common.ts` that are read |
| `Chain` | the node's records |
| `BlockSync` | the tick |
| `ValidatorSync` | the validator cycle |
| `Cw20Tokens` | the token listings |
| `StakingTxs` | the staking transaction listing |
| `ProposalVotes` | the SQL builders |

Everything the services read from the network, the database or the clock is a parameter:

- `Node` and `StakingApi` hold the upstream answers.
- `Ledger` and `Store` are the tables, keyed by their unique columns.
- `Hashes` and `Codec` are the SHA-256, tmhash and bech32 functions.
- `Formats` and `Numbers` are the floating-point formatting steps.
- `render` is the SQL driver's value rendering.

Behaviour of the code worth knowing:

- A *successful* transaction whose first log entry has no `message` event makes the tick throw
  (`txAttr.attributes` of `undefined`), so that height is retried forever
  (`BlockSync.UnclassifiableTxBlocksHeight`, `BlockSync.BlockedHeightStallsCursor`). Only
  *failed* transactions fall back to the message type.
- Per-validator failures are not fully isolated. The delegation request (line 323) sits
  outside the per-validator `try`, so its rejection ends the whole cycle (`Interrupted`).
- `up_time` gets no `toFixed`: it is the raw number followed by `%`. It is a `Formats`
  parameter.
- `CONST_CHAR.CREATE_VALIDATOR` is not declared. The staking listing's fourth alternative
  therefore matches an event without a `type`.
- The market rows for a CW20 page come from an `In(...)` query on the contract address, and SQL
  `IN` never matches `NULL`. A holding without a text address is therefore priced at 0 even
  when a market row has no address either (`Cw20Tokens.PageAssetsUseStoredRows`).

## Model

| member | source | states |
|---|---|---|
| Lists.FindLast | src/components/schedule/services/task.service.ts:163-170 | the index of the last element satisfying the test, no later element satisfying it, `None` exactly when none does |
| Lists.Find | src/components/schedule/services/task.service.ts:189-194 | the first index satisfying the test with no earlier one satisfying it, `None` exactly when none does |
| Lists.Filter | src/components/schedule/services/task.service.ts:353 | keeps only elements of the input that satisfy the test, keeps every one that does, is no longer than the input, and keeps a single element exactly when it satisfies the test |
| Lists.FilterAppend | src/components/schedule/services/task.service.ts:353 | filtering distributes over concatenation, so the kept elements stay in input order with their repetitions |
| Lists.FilterHeadIsFind | src/components/schedule/services/task.service.ts:353-361 | `filter(p)[0]` is the element `find(p)` selects, and the filter is empty exactly when `find` finds nothing |
| Lists.FirstMatchThroughFilter | src/components/cw20-token/services/cw20-token.service.ts:192-198 | searching the rows a coarser `In(...)` query kept finds the same row as searching all rows |
| Lists.FirstMatchFiltersAgree | src/components/cw20-token/services/cw20-token.service.ts:191-198 | two queries that keep the same rows among those the search accepts give the search the same result |
| Text.ReplaceChar | src/components/schedule/services/task.service.ts:195-196 | every `_` becomes a space, position by position, none is left, length is kept |
| Text.ParseInt | src/components/transaction/services/transaction.service.ts:97 | a negative result comes only from text whose first non-blank character is `-` |
| Text.FormatMicro | src/components/transaction/services/transaction.service.ts:97 | the text has six digits after the point and starts with `-` exactly for a negative amount |
| Text.RemoveFirst | src/components/transaction/services/transaction.service.ts:96 | `String.replace` with a text pattern cuts out exactly the first occurrence, leaves text without one unchanged, and adds no characters |
| Text.RemoveFirstOfSuffix | src/components/transaction/services/transaction.service.ts:96 | removing the denom from `digits + denom` leaves exactly the digits |
| Text.ParseIntOfRendered | src/components/transaction/services/transaction.service.ts:97 | `parseInt` reads back any rendered integer followed by a character that cannot continue it |
| Text.MicroRoundTrip | src/components/transaction/services/transaction.service.ts:97 | `(x / 1000000).toFixed(6)` computed exactly denotes `x` micro-units: its reader returns `x` |
| Text.DecimalValueDigits | src/components/schedule/services/task.service.ts:217 | the modelled `Number(text)` succeeds exactly on digit texts, with their decimal value |
| JsValues.StrictEquals | src/components/schedule/services/task.service.ts:426 | `===` holds exactly for equal values that are not `NaN` |
| JsValues.ParseIntValue | src/components/schedule/services/task.service.ts:438 | `parseInt(v)` is a whole number exactly when `v` is text that `parseInt` reads, with that value; `NaN` for `undefined`, `null` and booleans |
| JsValues.StringNeverEqualsParsed | src/components/schedule/services/task.service.ts:438-449 | stored text is never `===` to a parsed value |
| JsValues.AddCount | src/components/cw20-token/services/cw20-token.service.ts:217 | `count + n` adds numbers, appends digits to text, counts `null` as 0, and is `NaN` for `undefined` |
| BlockSync.Proposer | src/components/schedule/services/task.service.ts:158-170 | the validator whose derived consensus address is the proposer's; the last such validator wins; `None` exactly when no validator matches |
| BlockSync.NewBlock | src/components/schedule/services/task.service.ts:150-170 | the block row carries the fetched block's hash (its other fields: BlockSync.NewBlockFields) |
| BlockSync.NewBlockFields | src/components/schedule/services/task.service.ts:150-170 | the block row keeps hash, chain id, height, time and round, counts the transactions, leaves gas unset, and takes proposer name and operator address from the selected validator (both unset without one) |
| BlockSync.MessageActionFound | src/components/schedule/services/task.service.ts:186-196 | the action found is an `action` attribute of a `message` event of the first log entry; a first entry without a `message` event yields none |
| BlockSync.MessageActionAt | src/components/schedule/services/task.service.ts:186-194 | given the first `message` event of the first log entry, an action is found exactly when that event has an `action` attribute, and it is the value of the first such attribute |
| BlockSync.MessageAction | src/components/schedule/services/task.service.ts:186-194 | an action is only ever read from a log with a first entry |
| BlockSync.ClassifyTx | src/components/schedule/services/task.service.ts:185-200 | a failed transaction is typed exactly when it has a message; a successful one's type has no `_` |
| BlockSync.ClassifyTxCases | src/components/schedule/services/task.service.ts:185-200 | a failed transaction is typed by its first message's type URL when it has a message; a successful one, exactly when its log yields an action, by that action with every `_` turned into a space, character by character |
| BlockSync.ClassifyTwoWordAction | src/components/schedule/services/task.service.ts:195-196 | `a_b` is stored as `a b` |
| BlockSync.ClassifyFailedDelegate | src/components/schedule/services/task.service.ts:197-199 | a failed delegation keeps the raw `/cosmos.staking.v1beta1.MsgDelegate` |
| BlockSync.SaveBlockOrFind | src/components/schedule/services/task.service.ts:204-214 | after save-or-find the block row for the hash exists, is the one returned, and an existing row is not overwritten |
| BlockSync.SaveTx | src/components/schedule/services/task.service.ts:234-238 | the transaction row exists afterwards; a stored one is kept and nothing changes; otherwise the record is added under its hash and every other row is kept; blocks are untouched |
| BlockSync.NewTxRecord | src/components/schedule/services/task.service.ts:215-233 | the row carries the response's hash, code and gas, the classified type and fee text, the response's `data` only for a successful transaction, and the height, block time and block reference it is given |
| BlockSync.DetailsAt | src/components/schedule/services/task.service.ts:174-183 | the detail at each position is the node's answer for the transaction at that position |
| BlockSync.SyncTxs | src/components/schedule/services/task.service.ts:172-246 | a loop that completes found every remaining transaction and classified it |
| BlockSync.FeeTextValue | src/components/schedule/services/task.service.ts:216-217 | the stored fee denotes exactly the micro-units of a digit amount and is `NaN` for any other amount |
| BlockSync.FeeOfRendered | src/components/schedule/services/task.service.ts:217 | a fee of `n` micro-units is stored as `n / 10^6` with six decimals |
| BlockSync.FeeText | src/components/schedule/services/task.service.ts:216-217 | the stored fee is `NaN` or a number with six decimals; an empty amount is `0.000000`, as `Number('')` is 0 |
| BlockSync.SyncTxsExtends | src/components/schedule/services/task.service.ts:172-246 | the transaction loop never removes or rewrites a row, and a completed loop has stored the block |
| BlockSync.SyncTxsStops | src/components/schedule/services/task.service.ts:183-217 | a missing, unclassifiable or feeless transaction stops the loop unsuccessfully, with no further transaction row saved |
| BlockSync.SyncTxsGas | src/components/schedule/services/task.service.ts:201-206 | a completed loop classified every remaining transaction and stored the block with the running totals plus their gas used and wanted |
| BlockSync.SyncTxsHeights | src/components/schedule/services/task.service.ts:225 | every transaction row the loop adds carries the block height |
| BlockSync.SyncTxsBlockReference | src/components/schedule/services/task.service.ts:203-218 | only the last transaction's row references a block, and it references the stored block row |
| BlockSync.SyncTxsRows | src/components/schedule/services/task.service.ts:172-238 | every transaction row the loop adds is the row of one of the remaining details: its hash, type, fee, code, gas and (success-only) `data` |
| BlockSync.SyncTxsReplay | src/components/schedule/services/task.service.ts:207-238 | replaying over a stored block whose transactions are stored writes nothing |
| BlockSync.UnstorableFailsLoop | src/components/schedule/services/task.service.ts:174-246 | a missing, unclassifiable or feeless detail anywhere ahead makes the loop fail |
| BlockSync.SyncBlock | src/components/schedule/services/task.service.ts:144-261 | the guarded body only adds rows; success means the block was fetched and its row is stored; a failed block fetch changes nothing |
| BlockSync.SyncBlockHeights | src/components/schedule/services/task.service.ts:225 | every transaction row ingesting height `h` adds carries `h` |
| BlockSync.SyncBlockReference | src/components/schedule/services/task.service.ts:203-218 | of the added rows only the block's last transaction references a block, and that is the stored block row |
| BlockSync.SyncBlockRows | src/components/schedule/services/task.service.ts:172-238 | every transaction row that ingesting a block adds belongs to one of the block's raw transactions, which the node returned, classified and priced: the stored type is the classification, the fee the `toFixed(6)` text of the first fee amount, `data` empty for a failed transaction |
| BlockSync.SyncBlockGas | src/components/schedule/services/task.service.ts:159-214 | a block ingested for the first time is stored with its header fields and the sums of its transactions' gas used and wanted (unset for an empty block), every transaction having been classified |
| BlockSync.ReplayIsIdempotent | src/components/schedule/services/task.service.ts:207-252 | re-ingesting a stored block whose transactions are stored changes nothing |
| BlockSync.LatestHeight | src/components/schedule/services/task.service.ts:123-126 | a status reply without a result reads as height 0, a failed status call as no height |
| BlockSync.Tick | src/components/schedule/services/task.service.ts:50-276 | a tick in flight is skipped; the cursor is the stored row or the start height when none exists; a tick advances exactly when status and validators were read, the node is ahead and block `cursor + 1` was ingested, and then the cursor is `cursor + 1`; otherwise it stays; rows are only added |
| BlockSync.Run | src/components/schedule/services/task.service.ts:103-276 | a run of ticks leaves the in-flight flag as it found it: a tick that sets it clears it on success and on failure |
| BlockSync.RunCursorBounds | src/components/schedule/services/task.service.ts:138-275 | over any run of ticks the cursor never decreases and advances at most one per tick, and rows are only added |
| BlockSync.BlockedHeightStallsCursor | src/components/schedule/services/task.service.ts:270-274 | a height that cannot be ingested holds the cursor below it forever |
| BlockSync.FeelessTxBlocksHeight | src/components/schedule/services/task.service.ts:216-217 | a transaction with an empty fee list blocks its height |
| BlockSync.UnclassifiableTxBlocksHeight | src/components/schedule/services/task.service.ts:187-196 | a successful transaction without a `message` event or `action` attribute blocks its height |
| BlockSync.MissingTxBlocksHeight | src/components/schedule/services/task.service.ts:183-186 | a transaction the node does not return blocks its height |
| BlockSync.GasAsWrittenIsNotTheSum | src/components/schedule/services/task.service.ts:159-160 | the gas total accumulated from string gas values is never the decimal of the sum when gas was used |
| BlockSync.GasAsWrittenExample | src/components/schedule/services/task.service.ts:201-206 | gas 5 and 7 accumulate to `057`, not 12 |
| ValidatorSync.BuildValidator | src/components/schedule/services/task.service.ts:326-364 | building fails exactly when the operator address does not decode; a built row keeps the operator address and the raw jailed flag |
| ValidatorSync.BuildValidatorFields | src/components/schedule/services/task.service.ts:326-364 | building fails exactly when the operator address does not decode; the row holds the node's addresses, jailing and tokens; uptime comes from the first matching signing info and self bond from the first own-account delegation, each `undefined` exactly without one |
| ValidatorSync.NormalizeJailed | src/components/schedule/services/task.service.ts:421-425 | the fresh `jailed` becomes `'1'` exactly when truthy, else `'0'`, and nothing else changes |
| ValidatorSync.ApplyFacts | src/components/schedule/services/task.service.ts:426-473 | the conditional copies touch only the listed fields, settle each one, and issue one save per field that compared unequal |
| ValidatorSync.UpdateValidator | src/components/schedule/services/task.service.ts:420-474 | the ten directly compared fields end with the fresh values; power and self bond keep the stored value exactly when it `===` the parsed fresh value; nothing else changes; one save per unequal field; no save means no change |
| ValidatorSync.UpdateIsIdempotent | src/components/schedule/services/task.service.ts:420-474 | reconciling a reconciled row with the same fresh row leaves it as it is |
| ValidatorSync.TextPowerAlwaysSaved | src/components/schedule/services/task.service.ts:438-449 | a power stored as text, or a fresh row without self bond, causes a save on every reconciliation |
| ValidatorSync.NumericRowIsQuiet | src/components/schedule/services/task.service.ts:426-473 | a stored row already holding the fresh values, with numeric power and self bond, issues no save |
| ValidatorSync.Stored | src/components/schedule/services/task.service.ts:367-384 | a validator not stored before ends as the fresh row with `jailed` rewritten to `'1'`/`'0'`; a stored one ends as the stored row reconciled with the fresh one |
| ValidatorSync.InsertedRowIsNormalized | src/components/schedule/services/task.service.ts:420-474 | reconciling a fresh row with itself changes only `jailed`, to `'1'` or `'0'` |
| ValidatorSync.Reconcile | src/components/schedule/services/task.service.ts:380-384 | writing the row under its operator address changes no other validator and no delegation |
| ValidatorSync.SaveDelegations | src/components/schedule/services/task.service.ts:386-409 | every delegation pair is present afterwards, an existing one is not rewritten, validators are untouched, no other pair appears |
| ValidatorSync.SaveDelegationsValues | src/components/schedule/services/task.service.ts:386-409 | each newly inserted delegation row holds the addresses, shares and formatted amount of the first response for its (delegator, validator) pair |
| ValidatorSync.SyncValidator | src/components/schedule/services/task.service.ts:325-415 | no validator or delegation is removed, no stored delegation is rewritten, and no other validator's row changes |
| ValidatorSync.SyncValidatorStores | src/components/schedule/services/task.service.ts:325-415 | an unbuildable row leaves the store as it was; a buildable one is stored, reconciled, with all its delegations |
| ValidatorSync.SyncFrom | src/components/schedule/services/task.service.ts:318-416 | the loop completes exactly when every remaining delegation request is answered, and never removes a row or rewrites a stored delegation |
| ValidatorSync.SyncFromKeepsGoodValidators | src/components/schedule/services/task.service.ts:318-416 | every buildable validator before the first rejected delegation request is stored with all its delegations, whatever happens to the others |
| ValidatorSync.SyncValidators | src/components/schedule/services/task.service.ts:288-418 | the cycle is skipped during a tick, aborts before writing on a rejected shared request, never removes a row or rewrites a stored delegation, and completes exactly when every request was answered |
| Cw20Tokens.Summarize | src/components/cw20-token/services/cw20-token.service.ts:61-80 | each overview field is its column when truthy, else `''` or 0 |
| Cw20Tokens.ListTokens | src/components/cw20-token/services/cw20-token.service.ts:58-82 | one summary per market row, in order, and the repository's count |
| Cw20Tokens.ListedTokensAreComplete | src/components/cw20-token/services/cw20-token.service.ts:61-80 | every overview entry has all its fields present, and defaulting it again changes nothing |
| Cw20Tokens.MarketById | src/components/cw20-token/services/cw20-token.service.ts:104-106 | the row found has the coin id, `None` exactly when no row has it |
| Cw20Tokens.PriceById | src/components/cw20-token/services/cw20-token.service.ts:220-227 | the coin's current price when truthy, else 0; never missing or `NaN` |
| Cw20Tokens.NativeAsset | src/components/cw20-token/services/cw20-token.service.ts:92-123 | configured name, denom and image, the account total or 0 as balance, price, change and supply only with a market row, and value from balance and price |
| Cw20Tokens.IbcAsset | src/components/cw20-token/services/cw20-token.service.ts:145-160 | the scaled balance, plus the configured coin's name, display, logo and denom when known, and nothing else |
| Cw20Tokens.IbcAssets | src/components/cw20-token/services/cw20-token.service.ts:145-160 | one entry per IBC balance, in order, each built from its own balance |
| Cw20Tokens.Prepended | src/components/cw20-token/services/cw20-token.service.ts:90-161 | the native entry first, then one entry per IBC balance in order |
| Cw20Tokens.AdjustWindow | src/components/cw20-token/services/cw20-token.service.ts:163-171 | the first page shrinks the limit by the prepended count; later pages shift the offset back by it |
| Cw20Tokens.Cw20Asset | src/components/cw20-token/services/cw20-token.service.ts:195-210 | `'-'`, `''` and 0 defaults, and the market row's price and change, 0 without a row |
| Cw20Tokens.Cw20Assets | src/components/cw20-token/services/cw20-token.service.ts:194-210 | one entry per CW20 holding, in order, each priced from the given market rows |
| Cw20Tokens.PageAssets | src/components/cw20-token/services/cw20-token.service.ts:186-211 | one entry per holding of the page, none for an empty page, priced only from rows whose stored address is one of the page's |
| Cw20Tokens.PriceableRows | src/components/cw20-token/services/cw20-token.service.ts:191-193 | an `In(...)` query on the contract address can return exactly the rows whose address is stored text, since SQL `IN` never matches `NULL` |
| Cw20Tokens.PageAssetsUseStoredRows | src/components/cw20-token/services/cw20-token.service.ts:190-211 | pricing from the rows of the page's contracts gives what the rows with a stored address would: a holding with a text address gets the row the whole table would give, one without (such as `null`) gets no row |
| Cw20Tokens.OwnerTokens | src/components/cw20-token/services/cw20-token.service.ts:85-218 | throws without balances or a CW20 list; otherwise prepended assets plus the page on the first page, the page alone later, each holding priced from the rows with a stored address, and count plus the prepended number |
| Cw20Tokens.NativeAssetLeads | src/components/cw20-token/services/cw20-token.service.ts:109-123 | on the first page the native coin is first, priced as `getPriceById` prices it |
| Cw20Tokens.PagesAreWindowsOfOneListing | src/components/cw20-token/services/cw20-token.service.ts:163-217 | with an indexer serving windows of one holding list, each page is the matching window of the single listing prepended assets + holdings |
| Cw20Tokens.CountIncludesPrepended | src/components/cw20-token/services/cw20-token.service.ts:217 | a numeric count grows by one for the native coin and one per IBC balance |
| StakingTxs.DisplayAmount | src/components/transaction/services/transaction.service.ts:91-97 | the shown amount denotes exactly the micro-units `parseInt` reads, and is `NaN` exactly when it reads none |
| StakingTxs.Cleaned | src/components/transaction/services/transaction.service.ts:95-96 | every `_` becomes a space, then the first occurrence of the denom is cut out, or the text is kept when it has none; no `_` is left and the text is no longer than the attribute value |
| StakingTxs.CleanedRemovesFirstDenom | src/components/transaction/services/transaction.service.ts:95-97 | in `<denom><n><denom>` only the leading denom is removed, so `parseInt` reads `n`, while removing the trailing one would leave text `parseInt` reads as `NaN` |
| StakingTxs.Relabel | src/components/transaction/services/transaction.service.ts:78-102 | failed and non-staking transactions pass through; a staking one takes the first staking event's type and amount; a missing log entry or amount throws |
| StakingTxs.ByAddress | src/components/transaction/services/transaction.service.ts:68-109 | every row relabelled in order, the total passed through, failing exactly when one row throws |
| StakingTxs.RelabelIsIdempotent | src/components/transaction/services/transaction.service.ts:81-99 | relabelling a relabelled row changes nothing |
| StakingTxs.RelabelledKindIsStaking | src/components/transaction/services/transaction.service.ts:84-98 | a changed row is typed delegate, unbond, redelegate or `undefined`, never `create_validator` |
| StakingTxs.CoinAmountDisplay | src/components/transaction/services/transaction.service.ts:95-97 | `<n><denom>` is shown as `n / 10^6` with six decimals |
| ProposalVotes.AssembleCounts | src/components/proposal/repositories/proposal-vote.repository.ts:14-27 | the appended text has exactly as many placeholders as pushed values |
| ProposalVotes.AssembleBinds | src/components/proposal/repositories/proposal-vote.repository.ts:14-29 | binding the built query puts every value in the placeholder appended with it |
| ProposalVotes.BindAppend | src/components/proposal/repositories/proposal-vote.repository.ts:21-27 | binding distributes over `sql +=` when each part carries its own values |
| ProposalVotes.VotesByOption | src/components/proposal/repositories/proposal-vote.repository.ts:13-30 | the query filters on the proposal, on the option unless empty, orders by update time, and pages by `limit` and `offset * limit`, one placeholder per value |
| ProposalVotes.VotesByOptionBinds | src/components/proposal/repositories/proposal-vote.repository.ts:13-30 | bound by the driver, each by-option value lands in its own slot |
| ProposalVotes.VotesByValidator | src/components/proposal/repositories/proposal-vote.repository.ts:32-60 | the query filters on the proposal, adds a null test for `'null'`, an equality for any other non-empty option, and pages exactly when `isLimit` |
| ProposalVotes.VotesByValidatorBinds | src/components/proposal/repositories/proposal-vote.repository.ts:32-60 | bound by the driver, each by-validator value lands in its own slot |

## Left out

- Networking, the database driver, logging and the InfluxDB writes (`writeTx`, `writeBlock`, `writeValidator`, `writeDelegation`): the upstream answers and tables are parameters, and the InfluxDB calls have no effect the services read back.
- Concurrency: the two `@Interval(500)` timers and `Promise.all` are not interleaved. Each call is one atomic step over a snapshot of the node. `isSyncing` is a parameter of the validator cycle.
- Hashes and address codecs: SHA-256 of a transaction, tmhash of a key and bech32 encoding are function parameters.
- Floating point: `toFixed(2)` of commission and percentages, the uptime ratio, `parseInt((amount / 1e6).toFixed(5))` of delegations, IBC balance scaling, and `Number(balance) * Number(price)` are parameters (`Formats`, `Numbers`). The micro-unit `toFixed(6)` of fees and staking amounts is computed exactly on integers, so the rounding of doubles is not modelled: it agrees with JavaScript below about 2^52 micro-units (4.5·10^15), and above that JavaScript can differ in the last digit (8649938351386676 micro-units print as `8649938351.386677`).
- Text.DecimalValueDigits: `Number(text)` is characterised on decimal digit texts only, the only form a fee amount takes; `Number` of signed, exponent, padded or hexadecimal text is not modelled.
- BlockSync.FeeText: `Number(text)` is modelled for decimal digit texts only, with any other text giving `NaN`. Signs, exponents, white space and hexadecimal are not modelled.
- JSON decoding and `JSON.stringify` of `tx`/`messages`: records arrive decoded. `raw_log` that is not a JSON array is `None`.
- BlockSync.Details: each transaction's detail is fetched before the loop rather than inside it. Fetching only reads the node, so the loop's writes are the same.
- `plainToClass(LiteTransactionOutput, …, excludeExtraneousValues)`: the projection of the listed rows onto the output class is not modelled. Rows are returned whole.
- The controller (`cw20-token.controller.ts`), `getTotalAssetByAccountAddress`, `getTxs`, `getTxByHash`, `getTransactionsByDelegatorAddress` and `countVoteByAddress` are not part of this model.
- ProposalVotes.Bind: the driver's `?` substitution is modelled with `render` as a parameter. Escaping is not modelled.
- The `'null'` option of the by-validator query is compared as text, as the code does. A JSON `null` option is not modelled.
- `getDataRPC`/`postDataRPC` returning `''` for a reply with no `result`: the status case is modelled (`RpcEmpty`, latest height 0). A block reply without `result` is a failed fetch.

## Findings

| source | as written | input that shows it | evidently intended | confidence | as-written member | corrected member |
|---|---|---|---|---|---|---|
| src/components/schedule/services/task.service.ts:159-160 | `let blockGasUsed = 0; blockGasUsed += gas_used`, where the Cosmos REST API sends the 64-bit `gas_used` and `gas_wanted` as JSON strings, so `+=` concatenates text | two transactions with `gas_used` `"5"` and `"7"` store `"057"` | the block's gas is the integer sum, 12 | medium, not executed (the string encoding of the node's gas fields is not visible in this repository) | BlockSync.GasAsWritten, BlockSync.GasAsWrittenIsNotTheSum, BlockSync.GasAsWrittenExample | BlockSync.SyncBlockGas, BlockSync.SyncTxsGas |

=== FILE: block_sync.dfy ===
/** The block ingestion tick of the schedule task service: a guarded step that reads the
    persisted cursor, fetches the block one above it when the node is ahead, classifies and
    stores its transactions, stores the block at the last transaction, and advances the
    cursor by one only when all of that succeeded. */
module BlockSync {
  import opened Results
  import opened Lists
  import opened Text
  import opened Chain
  import Constants

  /** The `sync_info` of the RPC `status` call; `latestBlockHeight` is `None` when
      `Number(latest_block_height)` is NaN. */
  datatype StatusInfo = StatusInfo(latestBlockHeight: Option<int>)

  /** The RPC `block?height=H` result: header fields and the raw base64 transactions. */
  datatype BlockData = BlockData(
    blockHash: string,
    chainId: string,
    height: int,
    time: string,
    round: int,
    proposerAddress: string,
    txs: seq<string>)

  /** The upstream node as one tick sees it. `validators` is `None` when the REST call
      fails; `block` and `tx` answer by request path. */
  datatype Node = Node(
    status: RpcReply<StatusInfo>,
    validators: Option<seq<ValidatorData>>,
    block: string -> RpcReply<BlockData>,
    tx: string -> Option<TxResponse>)

  /** The library hashes the tick calls: the upper-case hex SHA-256 of a base64 transaction,
      and the upper-case hex first 20 bytes of the tmhash of a base64 consensus key. */
  datatype Hashes = Hashes(txHash: string -> string, consAddress: string -> string)

  /** A stored block; the gas totals stay unset for a block without transactions. */
  datatype Block = Block(
    blockHash: string,
    chainId: string,
    height: int,
    numTxs: nat,
    timestamp: string,
    round: int,
    proposer: Option<string>,
    operatorAddress: Option<string>,
    gasUsed: Option<int>,
    gasWanted: Option<int>)

  /** A stored transaction; `block` is the saved block, set on the last one only. */
  datatype TxRecord = TxRecord(
    txHash: string,
    height: int,
    block: Option<Block>,
    code: int,
    codespace: string,
    data: string,
    gasUsed: int,
    gasWanted: int,
    info: string,
    rawLog: string,
    timestamp: string,
    txType: string,
    fee: string,
    messages: seq<Message>)

  /** The block and transaction tables, keyed by their unique hashes. */
  datatype Ledger = Ledger(blocks: map<string, Block>, txs: map<string, TxRecord>)

  /** The persisted sync status row (`None` before the first read) and the in-flight flag. */
  datatype SyncState = SyncState(cursor: Option<int>, isSyncing: bool)

  datatype Outcome =
    | Skipped   // a tick was already in flight
    | Aborted   // a request before the guarded body threw
    | UpToDate  // the node is not ahead of the cursor
    | Failed    // the guarded body threw; the cursor stays for a retry
    | Advanced  // the block above the cursor was stored and the cursor moved onto it

  datatype TickResult = TickResult(state: SyncState, ledger: Ledger, outcome: Outcome)

  /** The ledger after a partial or complete body, and whether the body completed. */
  datatype Step = Step(ledger: Ledger, ok: bool)

  function BlockPath(height: int): string {
    "block?height=" + IntToString(height)
  }

  function TxPath(hash: string): string {
    "/cosmos/tx/v1beta1/txs/" + hash
  }

  /** Nothing stored is removed or rewritten: rows are only ever added. */
  ghost predicate Extends(before: Ledger, after: Ledger) {
    && (forall h :: h in before.blocks ==> h in after.blocks && after.blocks[h] == before.blocks[h])
    && (forall h :: h in before.txs ==> h in after.txs && after.txs[h] == before.txs[h])
  }

  // ---------------------------------------------------------------------------
  // Proposer lookup

  /** `vals[i]` derives the proposer address and no later validator does. */
  ghost predicate IsLastProposer(vals: seq<ValidatorData>, i: int, proposerAddress: string, hashes: Hashes) {
    && 0 <= i < |vals|
    && hashes.consAddress(vals[i].consensusKey) == proposerAddress
    && forall j :: i < j < |vals| ==> hashes.consAddress(vals[j].consensusKey) != proposerAddress
  }

  /** The validator whose derived consensus address equals the header's proposer address;
      the scan overwrites on every match, so the last matching validator wins. */
  function Proposer(vals: seq<ValidatorData>, proposerAddress: string, hashes: Hashes): (r: Option<ValidatorData>)
    ensures r.None? <==> forall i :: 0 <= i < |vals| ==> hashes.consAddress(vals[i].consensusKey) != proposerAddress
    ensures r.Some? ==> exists i :: IsLastProposer(vals, i, proposerAddress, hashes) && vals[i] == r.value
  {
    match FindLast(vals, (v: ValidatorData) => hashes.consAddress(v.consensusKey) == proposerAddress)
    case None => None
    case Some(i) => Some(vals[i])
  }

  // ---------------------------------------------------------------------------
  // Transaction classification

  predicate IsMessageEvent(e: Event) {
    e.kind == Some(Constants.MESSAGE)
  }

  predicate IsActionAttribute(a: Attribute) {
    a.key == Constants.ACTION
  }

  /** `a` is an `action` attribute of a `message` event `e` of the log entry. */
  predicate ActionOf(entry: LogEntry, e: Event, a: Attribute) {
    e in entry.events && IsMessageEvent(e) && a in e.attributes && IsActionAttribute(a)
  }

  /** The `action` value of the first `message` event of the first log entry; `None` where
      the source dereferences `undefined` (no entry, no such event, no such attribute). */
  function MessageAction(log: Option<seq<LogEntry>>): (r: Option<string>)
    ensures r.Some? ==> log.Some? && |log.value| > 0
  {
    if log.None? || |log.value| == 0 then None
    else
      var events := log.value[0].events;
      match Find(events, IsMessageEvent)
      case None => None
      case Some(i) =>
        match Find(events[i].attributes, IsActionAttribute)
        case None => None
        case Some(j) => Some(events[i].attributes[j].value)
  }

  /** The action found is the value of an `action` attribute of a `message` event of the
      first log entry, and a first entry without a `message` event yields none. */
  lemma MessageActionFound(log: Option<seq<LogEntry>>)
    ensures var r := MessageAction(log);
      && (r.Some? ==> log.Some? && |log.value| > 0)
      && (r.Some? ==> exists e, a :: ActionOf(log.value[0], e, a) && a.value == r.value)
      && (log.Some? && |log.value| > 0 && (forall e :: e in log.value[0].events ==> !IsMessageEvent(e)) ==> r.None?)
  {
    if MessageAction(log).Some? {
      var events := log.value[0].events;
      var i := Find(events, IsMessageEvent).value;
      var j := Find(events[i].attributes, IsActionAttribute).value;
      assert ActionOf(log.value[0], events[i], events[i].attributes[j]);
    }
  }

  /** By indices: once `i` is the first `message` event of the first log entry, an action is
      found exactly when that event has an `action` attribute, and it is the value of the first
      one. */
  lemma MessageActionAt(log: Option<seq<LogEntry>>, i: int)
    requires log.Some? && |log.value| > 0 && IsFirst(log.value[0].events, IsMessageEvent, i)
    ensures var attrs := log.value[0].events[i].attributes;
      && (MessageAction(log).None? <==> forall j :: 0 <= j < |attrs| ==> !IsActionAttribute(attrs[j]))
      && forall j :: IsFirst(attrs, IsActionAttribute, j) ==> MessageAction(log) == Some(attrs[j].value)
  {
    var events := log.value[0].events;
    FindIsFirst(events, IsMessageEvent, i);
    var attrs := events[i].attributes;
    forall j | IsFirst(attrs, IsActionAttribute, j)
      ensures MessageAction(log) == Some(attrs[j].value)
    {
      FindIsFirst(attrs, IsActionAttribute, j);
    }
  }

  /** The stored `type` of a transaction: for a successful one, its message action with every
      `_` turned into a space; otherwise the `@type` of its first message. `None` stands for
      the exception thrown when the needed field is missing. */
  function ClassifyTx(resp: TxResponse): (r: Option<string>)
    ensures resp.code != 0 ==> (r.Some? <==> |resp.messages| > 0)
    ensures resp.code == 0 && r.Some? ==> '_' !in r.value
  {
    if resp.code == 0 then
      match MessageAction(resp.parsedLog)
      case None => None
      case Some(action) => Some(ReplaceChar(action, '_', ' '))
    else if |resp.messages| == 0 then None
    else Some(resp.messages[0].typeUrl)
  }

  /** A failed transaction is classified exactly when it has a message, by that message's type
      URL; a successful one exactly when its log names an action, by that action with no `_`
      spelled character by character, with every `_` turned into a space. */
  lemma ClassifyTxCases(resp: TxResponse)
    ensures var r := ClassifyTx(resp);
      && (resp.code != 0 ==> (r.Some? <==> |resp.messages| > 0))
      && (resp.code != 0 && r.Some? ==> r.value == resp.messages[0].typeUrl)
      && (resp.code == 0 ==> (r.Some? <==> MessageAction(resp.parsedLog).Some?))
      && (resp.code == 0 && r.Some? ==> '_' !in r.value)
      && (resp.code == 0 && r.Some? ==>
            var a := MessageAction(resp.parsedLog).value;
            |r.value| == |a| && forall k :: 0 <= k < |a| ==> r.value[k] == (if a[k] == '_' then ' ' else a[k]))
  {
  }

  /** A successful `delegate` stays `delegate`. */
  lemma ClassifyDelegate(base: TxResponse)
    ensures var ok := base.(code := 0, parsedLog := Some([LogEntry([Event(Some("message"), [Attribute("action", "delegate")])])]));
      ClassifyTx(ok) == Some("delegate")
  {
    var e := Event(Some("message"), [Attribute("action", "delegate")]);
    assert IsMessageEvent(e) && IsActionAttribute(e.attributes[0]);
  }

  /** A successful two-word action such as `begin_redelegate` is stored with the words
      separated by a space (`begin redelegate`). */
  lemma ClassifyTwoWordAction(base: TxResponse, first: string, second: string)
    requires '_' !in first && '_' !in second
    ensures var ok := base.(code := 0, parsedLog := Some([LogEntry([Event(Some("message"), [Attribute("action", first + "_" + second)])])]));
      ClassifyTx(ok) == Some(first + " " + second)
  {
    var e := Event(Some("message"), [Attribute("action", first + "_" + second)]);
    assert IsMessageEvent(e) && IsActionAttribute(e.attributes[0]);
    var ok := base.(code := 0, parsedLog := Some([LogEntry([e])]));
    assert MessageAction(ok.parsedLog) == Some(first + "_" + second);
    assert ReplaceChar("_", '_', ' ') == " ";
    assert ReplaceChar(first + "_", '_', ' ') == first + " " by { ReplaceCharAppend(first, "_", '_', ' '); }
    assert ReplaceChar(first + "_" + second, '_', ' ') == first + " " + second by {
      ReplaceCharAppend(first + "_", second, '_', ' ');
    }
  }

  /** A failed delegation keeps the raw type URL of its first message. */
  lemma ClassifyFailedDelegate(base: TxResponse)
    ensures var failed := base.(code := 5, messages := [Message("/cosmos.staking.v1beta1.MsgDelegate")]);
      ClassifyTx(failed) == Some("/cosmos.staking.v1beta1.MsgDelegate")
  {
  }

  // ---------------------------------------------------------------------------
  // Persistence

  /** `blockRepository.save`, and on a unique-key conflict `findOne` by hash: either way the
      block row for that hash exists afterwards and is the one returned. */
  function SaveBlockOrFind(ledger: Ledger, b: Block): (r: (Ledger, Block))
    ensures b.blockHash in r.0.blocks && r.1 == r.0.blocks[b.blockHash]
    ensures b.blockHash in ledger.blocks ==> r.0 == ledger
    ensures b.blockHash !in ledger.blocks ==> r.0 == ledger.(blocks := ledger.blocks[b.blockHash := b])
  {
    if b.blockHash in ledger.blocks then (ledger, ledger.blocks[b.blockHash])
    else (ledger.(blocks := ledger.blocks[b.blockHash := b]), b)
  }

  /** `txRepository.save` whose conflict is logged and ignored. */
  function SaveTx(ledger: Ledger, t: TxRecord): (r: Ledger)
    ensures t.txHash in r.txs
    ensures t.txHash in ledger.txs ==> r == ledger
    ensures t.txHash !in ledger.txs ==> r.txs == ledger.txs[t.txHash := t]
    ensures r.blocks == ledger.blocks
  {
    if t.txHash in ledger.txs then ledger
    else ledger.(txs := ledger.txs[t.txHash := t])
  }

  /** The transaction detail the node returns for a raw transaction. */
  function Fetched(node: Node, hashes: Hashes, raw: string): Option<TxResponse> {
    node.tx(TxPath(hashes.txHash(raw)))
  }

  /** What the loop learns about one raw transaction before it touches the tables: whether
      the node returned its detail, the stored type when the detail can be classified, and
      the stored fee text when the detail lists a fee coin. */
  datatype Detail = Missing | Unclassified | Classified(resp: TxResponse, txType: string, fee: Option<string>)

  function DetailOf(node: Node, hashes: Hashes, raw: string): Detail {
    match Fetched(node, hashes, raw)
    case None => Missing
    case Some(resp) =>
      match ClassifyTx(resp)
      case None => Unclassified
      case Some(txType) => Classified(resp, txType, if |resp.fee| == 0 then None else Some(FeeText(resp.fee[0].amount)))
  }

  /** The details of a block's transactions, in order. Fetching only reads the node, so
      determining them before the loop runs changes nothing the loop does. */
  function Details(node: Node, hashes: Hashes, raws: seq<string>): (ds: seq<Detail>)
    ensures |ds| == |raws|
    decreases |raws|
  {
    if |raws| == 0 then [] else [DetailOf(node, hashes, raws[0])] + Details(node, hashes, raws[1..])
  }

  /** The detail at each position is the one for the raw transaction at that position. */
  lemma {:induction false} DetailsAt(node: Node, hashes: Hashes, raws: seq<string>, k: nat)
    requires k < |raws|
    ensures Details(node, hashes, raws)[k] == DetailOf(node, hashes, raws[k])
    decreases |raws|
  {
    if k > 0 {
      DetailsAt(node, hashes, raws[1..], k - 1);
    }
  }

  /** Every detail was fetched and classified. */
  predicate AllClassified(ds: seq<Detail>) {
    forall k :: 0 <= k < |ds| ==> ds[k].Classified?
  }

  /** The node's answers for fully classified details. */
  function Responses(ds: seq<Detail>): (rs: seq<TxResponse>)
    requires AllClassified(ds)
    ensures |rs| == |ds| && forall k :: 0 <= k < |ds| ==> rs[k] == ds[k].resp
  {
    seq(|ds|, k requires 0 <= k < |ds| => ds[k].resp)
  }

  /** The gas used and wanted over the node's answers. */
  function SumGasUsed(rs: seq<TxResponse>): int
    decreases |rs|
  {
    if |rs| == 0 then 0 else rs[0].gasUsed + SumGasUsed(rs[1..])
  }

  function SumGasWanted(rs: seq<TxResponse>): int
    decreases |rs|
  {
    if |rs| == 0 then 0 else rs[0].gasWanted + SumGasWanted(rs[1..])
  }

  /** The block gas total as the loop accumulates it when the node sends each transaction's
      gas as a decimal string, the JSON encoding of a 64-bit integer: `let total = 0` followed
      by `total += gas_used` concatenates text onto the initial `0`. */
  function GasAsWritten(rs: seq<TxResponse>): (r: string)
    ensures |r| >= 1 && r[0] == '0'
    decreases |rs|
  {
    if |rs| == 0 then "0" else GasAsWritten(rs[..|rs| - 1]) + IntToString(rs[|rs| - 1].gasUsed)
  }

  /** Whenever the block used any gas, the concatenated total is not the decimal text of the
      sum that the stored block is meant to carry: it starts with a `0` the sum never has. */
  lemma GasAsWrittenIsNotTheSum(rs: seq<TxResponse>)
    requires SumGasUsed(rs) > 0
    ensures GasAsWritten(rs) != IntToString(SumGasUsed(rs))
  {
    assert IntToString(SumGasUsed(rs))[0] != '0';
  }

  /** Two transactions of 5 and 7 gas give the total `057` where 12 is meant. */
  lemma GasAsWrittenExample()
    ensures var rs := [GasTx(5), GasTx(7)];
      GasAsWritten(rs) == "057" && SumGasUsed(rs) == 12
  {
    var rs := [GasTx(5), GasTx(7)];
    assert rs[..1] == [GasTx(5)] && [GasTx(5)][..0] == [];
    assert NatToString(5) == "5" && NatToString(7) == "7";
  }

  function GasTx(gas: int): TxResponse {
    TxResponse("", 0, "", "", "", "", None, gas, 0, [], [])
  }

  /** `(fee.amount / 1000000).toFixed(6)`: the fee amount, a decimal text of micro-units, is
      coerced to a number and shown in whole units with six decimals; the empty text counts as
      0 and any other text as `NaN`. */
  function FeeText(amount: string): (r: string)
    ensures r == "NaN" || (|r| >= 8 && r[|r| - 7] == '.')
    ensures amount == "" ==> r == "0.000000"
  {
    match DecimalValue(amount)
    case None => "NaN"
    case Some(n) => FormatMicro(n)
  }

  /** The stored fee denotes exactly the micro-units of a decimal amount, and is `NaN` for
      any other amount. */
  lemma FeeTextValue(amount: string)
    ensures AllDigitsIn(amount, 10) ==> MicroValue(FeeText(amount)) == Some(DigitsValue(amount, 10))
    ensures !AllDigitsIn(amount, 10) <==> FeeText(amount) == "NaN"
  {
    DecimalValueDigits(amount);
    if AllDigitsIn(amount, 10) {
      MicroRoundTrip(DigitsValue(amount, 10));
    }
  }

  /** A fee of `n` micro-units is stored as `n / 10^6` with six decimals: `5000` as `0.005000`. */
  lemma FeeOfRendered(n: nat)
    ensures FeeText(NatToString(n)) == FormatMicro(n)
  {
    DecimalValueDigits(NatToString(n));
    NatToStringValue(n);
  }

  /** `t` is the row the loop stores for the storable detail `d`: keyed by the response's
      hash, typed and priced as classified, with the response's code and gas, and with the
      response's `data` only when the transaction succeeded. */
  ghost predicate RowOf(t: TxRecord, d: Detail) {
    && Storable(d)
    && t.txHash == d.resp.txHash
    && t.txType == d.txType
    && t.fee == d.fee.value
    && t.code == d.resp.code
    && t.data == (if d.resp.code == 0 then d.resp.data else "")
    && t.gasUsed == d.resp.gasUsed && t.gasWanted == d.resp.gasWanted
  }

  /** The record stored for one transaction of the block being ingested. */
  function NewTxRecord(resp: TxResponse, height: int, time: string, savedBlock: Option<Block>, txType: string, fee: string): (r: TxRecord)
    ensures RowOf(r, Classified(resp, txType, Some(fee)))
    ensures r.height == height && r.timestamp == time && r.block == savedBlock
  {
    TxRecord(resp.txHash, height, savedBlock, resp.code, resp.codespace,
             if resp.code == 0 then resp.data else "",
             resp.gasUsed, resp.gasWanted, resp.info, resp.rawLog, time, txType,
             fee, resp.messages)
  }

  /** A detail the loop can store: fetched, classified, and with a fee coin. */
  predicate Storable(d: Detail) {
    d.Classified? && d.fee.Some?
  }

  /** The transaction loop from index `i` on, with the gas totals `used`/`wanted` of the
      transactions before `i`. Each transaction must be fetched and classified; at the last
      index the block is saved with the running totals; the fee is read; the record is saved.
      A missing detail, an unclassifiable transaction or an empty fee list stops the loop with
      the rows saved so far. */
  function SyncTxs(ds: seq<Detail>, height: int, time: string, header: Block, i: nat, used: int, wanted: int,
                   ledger: Ledger): (r: Step)
    requires i < |ds|
    ensures r.ok ==> forall k :: i <= k < |ds| ==> ds[k].Classified?
    decreases |ds| - i
  {
    match ds[i]
    case Missing => Step(ledger, false)
    case Unclassified => Step(ledger, false)
    case Classified(resp, txType, fee) =>
      var used', wanted' := used + resp.gasUsed, wanted + resp.gasWanted;
      if i < |ds| - 1 then
        if fee.None? then Step(ledger, false)
        else SyncTxs(ds, height, time, header, i + 1, used', wanted', SaveTx(ledger, NewTxRecord(resp, height, time, None, txType, fee.value)))
      else
        var saved := SaveBlockOrFind(ledger, header.(gasUsed := Some(used'), gasWanted := Some(wanted')));
        if fee.None? then Step(saved.0, false)
        else Step(SaveTx(saved.0, NewTxRecord(resp, height, time, Some(saved.1), txType, fee.value)), true)
  }

  /** The loop only adds rows, and when it completes the block row is stored. */
  lemma {:induction false} SyncTxsExtends(ds: seq<Detail>, height: int, time: string, header: Block, i: nat,
                                          used: int, wanted: int, ledger: Ledger)
    requires i < |ds|
    ensures var r := SyncTxs(ds, height, time, header, i, used, wanted, ledger);
      Extends(ledger, r.ledger) && (r.ok ==> header.blockHash in r.ledger.blocks)
    decreases |ds| - i
  {
    var r := SyncTxs(ds, height, time, header, i, used, wanted, ledger);
    match ds[i]
    case Missing =>
      ExtendsItself(ledger);
    case Unclassified =>
      ExtendsItself(ledger);
    case Classified(resp, txType, fee) =>
      var used', wanted' := used + resp.gasUsed, wanted + resp.gasWanted;
      if i < |ds| - 1 {
        if fee.None? {
          ExtendsItself(ledger);
        } else {
          var ledger' := SaveTx(ledger, NewTxRecord(resp, height, time, None, txType, fee.value));
          assert r == SyncTxs(ds, height, time, header, i + 1, used', wanted', ledger');
          SaveTxExtends(ledger, NewTxRecord(resp, height, time, None, txType, fee.value));
          SyncTxsExtends(ds, height, time, header, i + 1, used', wanted', ledger');
          ExtendsTransitive(ledger, ledger', r.ledger);
        }
      } else {
        var saved := SaveBlockOrFind(ledger, header.(gasUsed := Some(used'), gasWanted := Some(wanted')));
        SaveBlockExtends(ledger, header.(gasUsed := Some(used'), gasWanted := Some(wanted')));
        if fee.Some? {
          var record := NewTxRecord(resp, height, time, Some(saved.1), txType, fee.value);
          assert r.ledger == SaveTx(saved.0, record);
          SaveTxExtends(saved.0, record);
          ExtendsTransitive(ledger, saved.0, r.ledger);
        } else {
          assert r.ledger == saved.0;
        }
      }
  }

  // Growth of the tables, step by step.
  lemma ExtendsItself(ledger: Ledger)
    ensures Extends(ledger, ledger)
  {
  }

  lemma ExtendsTransitive(a: Ledger, b: Ledger, c: Ledger)
    requires Extends(a, b) && Extends(b, c)
    ensures Extends(a, c)
  {
  }

  lemma SaveTxExtends(ledger: Ledger, t: TxRecord)
    ensures Extends(ledger, SaveTx(ledger, t))
  {
  }

  lemma SaveBlockExtends(ledger: Ledger, b: Block)
    ensures Extends(ledger, SaveBlockOrFind(ledger, b).0)
  {
  }

  /** A detail the loop cannot store stops it unsuccessfully, having saved nothing more than
      possibly the block row. */
  lemma SyncTxsStops(ds: seq<Detail>, height: int, time: string, header: Block, i: nat, used: int, wanted: int,
                     ledger: Ledger)
    requires i < |ds| && !Storable(ds[i])
    ensures var r := SyncTxs(ds, height, time, header, i, used, wanted, ledger);
      !r.ok && r.ledger.txs == ledger.txs && (header.blockHash in ledger.blocks ==> r.ledger == ledger)
  {
  }

  /** The gas of the details from index `i` on is the gas of detail `i` plus that of the rest. */
  lemma SumsStep(ds: seq<Detail>, i: nat)
    requires i < |ds|
    ensures AllClassified(ds[i..]) <==> ds[i].Classified? && AllClassified(ds[i + 1..])
    ensures AllClassified(ds[i..]) ==>
      && SumGasUsed(Responses(ds[i..])) == ds[i].resp.gasUsed + SumGasUsed(Responses(ds[i + 1..]))
      && SumGasWanted(Responses(ds[i..])) == ds[i].resp.gasWanted + SumGasWanted(Responses(ds[i + 1..]))
  {
    assert ds[i..] == [ds[i]] + ds[i + 1..];
    if AllClassified(ds[i..]) {
      var rest := Responses(ds[i + 1..]);
      assert Responses(ds[i..]) == [ds[i].resp] + rest;
      assert ([ds[i].resp] + rest)[1..] == rest;
    }
  }

  /** When the loop completes on a block not stored before, every remaining transaction was
      fetched and classified, and the stored block carries the running totals plus the gas of
      all of them. */
  lemma {:induction false} SyncTxsGas(ds: seq<Detail>, height: int, time: string, header: Block, i: nat, used: int, wanted: int,
                                      ledger: Ledger)
    requires i < |ds| && header.blockHash !in ledger.blocks
    ensures var r := SyncTxs(ds, height, time, header, i, used, wanted, ledger);
      r.ok ==> AllClassified(ds[i..]) && header.blockHash in r.ledger.blocks
    ensures var r := SyncTxs(ds, height, time, header, i, used, wanted, ledger);
      r.ok && AllClassified(ds[i..]) && header.blockHash in r.ledger.blocks ==>
        var rs := Responses(ds[i..]);
        r.ledger.blocks[header.blockHash]
          == header.(gasUsed := Some(used + SumGasUsed(rs)), gasWanted := Some(wanted + SumGasWanted(rs)))
    decreases |ds| - i
  {
    var d := ds[i];
    SumsStep(ds, i);
    if Storable(d) && i < |ds| - 1 {
      var ledger' := SaveTx(ledger, NewTxRecord(d.resp, height, time, None, d.txType, d.fee.value));
      SyncTxsGas(ds, height, time, header, i + 1, used + d.resp.gasUsed, wanted + d.resp.gasWanted, ledger');
    }
  }

  /** Every transaction row the loop adds is stamped with the block height. */
  lemma {:induction false} SyncTxsHeights(ds: seq<Detail>, height: int, time: string, header: Block, i: nat, used: int, wanted: int,
                                          ledger: Ledger)
    requires i < |ds|
    ensures var r := SyncTxs(ds, height, time, header, i, used, wanted, ledger);
      forall h :: h in r.ledger.txs && h !in ledger.txs ==> r.ledger.txs[h].height == height
    decreases |ds| - i
  {
    var d := ds[i];
    if Storable(d) && i < |ds| - 1 {
      var ledger' := SaveTx(ledger, NewTxRecord(d.resp, height, time, None, d.txType, d.fee.value));
      SyncTxsExtends(ds, height, time, header, i + 1, used + d.resp.gasUsed, wanted + d.resp.gasWanted, ledger');
      SyncTxsHeights(ds, height, time, header, i + 1, used + d.resp.gasUsed, wanted + d.resp.gasWanted, ledger');
    }
  }

  /** Only the last transaction of the block carries a reference to the block row, and the
      block it references is the stored one. */
  lemma {:induction false} SyncTxsBlockReference(ds: seq<Detail>, height: int, time: string, header: Block, i: nat,
                                                 used: int, wanted: int, ledger: Ledger)
    requires i < |ds|
    ensures var r := SyncTxs(ds, height, time, header, i, used, wanted, ledger);
      forall h :: h in r.ledger.txs && h !in ledger.txs && r.ledger.txs[h].block.Some? ==>
        && header.blockHash in r.ledger.blocks
        && r.ledger.txs[h].block.value == r.ledger.blocks[header.blockHash]
        && ds[|ds| - 1].Classified?
        && h == ds[|ds| - 1].resp.txHash
    decreases |ds| - i
  {
    var r := SyncTxs(ds, height, time, header, i, used, wanted, ledger);
    var d := ds[i];
    if Storable(d) {
      var used', wanted' := used + d.resp.gasUsed, wanted + d.resp.gasWanted;
      if i < |ds| - 1 {
        var record := NewTxRecord(d.resp, height, time, None, d.txType, d.fee.value);
        var ledger' := SaveTx(ledger, record);
        assert r == SyncTxs(ds, height, time, header, i + 1, used', wanted', ledger');
        SyncTxsExtends(ds, height, time, header, i + 1, used', wanted', ledger');
        SyncTxsBlockReference(ds, height, time, header, i + 1, used', wanted', ledger');
        forall h | h in ledger'.txs && h !in ledger.txs
          ensures r.ledger.txs[h].block.None?
        {
          assert h == record.txHash;
        }
      } else {
        var saved := SaveBlockOrFind(ledger, header.(gasUsed := Some(used'), gasWanted := Some(wanted')));
        var record := NewTxRecord(d.resp, height, time, Some(saved.1), d.txType, d.fee.value);
        assert r.ledger == SaveTx(saved.0, record);
        assert saved.0.txs == ledger.txs;
      }
    } else {
      SyncTxsStops(ds, height, time, header, i, used, wanted, ledger);
    }
  }

  /** Every transaction row the loop adds is the row of one of the details from index `i` on. */
  lemma {:induction false} SyncTxsRows(ds: seq<Detail>, height: int, time: string, header: Block, i: nat,
                                       used: int, wanted: int, ledger: Ledger)
    requires i < |ds|
    ensures var r := SyncTxs(ds, height, time, header, i, used, wanted, ledger);
      forall h :: h in r.ledger.txs && h !in ledger.txs ==>
        exists k :: i <= k < |ds| && RowOf(r.ledger.txs[h], ds[k])
    decreases |ds| - i
  {
    var r := SyncTxs(ds, height, time, header, i, used, wanted, ledger);
    var d := ds[i];
    if Storable(d) {
      var used', wanted' := used + d.resp.gasUsed, wanted + d.resp.gasWanted;
      if i < |ds| - 1 {
        var record := NewTxRecord(d.resp, height, time, None, d.txType, d.fee.value);
        var ledger' := SaveTx(ledger, record);
        assert r == SyncTxs(ds, height, time, header, i + 1, used', wanted', ledger');
        SyncTxsExtends(ds, height, time, header, i + 1, used', wanted', ledger');
        SyncTxsRows(ds, height, time, header, i + 1, used', wanted', ledger');
        forall h | h in r.ledger.txs && h !in ledger.txs
          ensures exists k :: i <= k < |ds| && RowOf(r.ledger.txs[h], ds[k])
        {
          if h in ledger'.txs {
            assert h == record.txHash && r.ledger.txs[h] == record;
            assert RowOf(r.ledger.txs[h], ds[i]);
          }
        }
      } else {
        var saved := SaveBlockOrFind(ledger, header.(gasUsed := Some(used'), gasWanted := Some(wanted')));
        var record := NewTxRecord(d.resp, height, time, Some(saved.1), d.txType, d.fee.value);
        assert r.ledger == SaveTx(saved.0, record);
        assert saved.0.txs == ledger.txs;
        assert RowOf(record, ds[i]);
      }
    } else {
      SyncTxsStops(ds, height, time, header, i, used, wanted, ledger);
    }
  }

  /** Every detail from index `i` on that the node returns is already stored under its hash. */
  ghost predicate TxsStored(ledger: Ledger, ds: seq<Detail>, i: nat) {
    forall k :: i <= k < |ds| && ds[k].Classified? ==> ds[k].resp.txHash in ledger.txs
  }

  /** Replaying the loop over a block whose row and remaining transactions are all stored
      writes nothing. */
  lemma {:induction false} SyncTxsReplay(ds: seq<Detail>, height: int, time: string, header: Block, i: nat,
                                         used: int, wanted: int, ledger: Ledger)
    requires i < |ds| && header.blockHash in ledger.blocks && TxsStored(ledger, ds, i)
    ensures SyncTxs(ds, height, time, header, i, used, wanted, ledger).ledger == ledger
    decreases |ds| - i
  {
    var d := ds[i];
    if Storable(d) && i < |ds| - 1 {
      assert SaveTx(ledger, NewTxRecord(d.resp, height, time, None, d.txType, d.fee.value)) == ledger;
      SyncTxsReplay(ds, height, time, header, i + 1, used + d.resp.gasUsed, wanted + d.resp.gasWanted, ledger);
    }
  }

  /** A transaction the loop cannot store, at or after index `i`, makes the loop fail. */
  lemma {:induction false} UnstorableFailsLoop(ds: seq<Detail>, height: int, time: string, header: Block, i: nat,
                                               used: int, wanted: int, ledger: Ledger, k: nat)
    requires i <= k < |ds| && !Storable(ds[k])
    ensures !SyncTxs(ds, height, time, header, i, used, wanted, ledger).ok
    decreases |ds| - i
  {
    var d := ds[i];
    if Storable(d) && i < |ds| - 1 {
      var ledger' := SaveTx(ledger, NewTxRecord(d.resp, height, time, None, d.txType, d.fee.value));
      UnstorableFailsLoop(ds, height, time, header, i + 1, used + d.resp.gasUsed, wanted + d.resp.gasWanted, ledger', k);
    }
  }

  /** The block stored for the fetched payload, before its gas totals are known. */
  function NewBlock(b: BlockData, vals: seq<ValidatorData>, hashes: Hashes): (r: Block)
    ensures r.blockHash == b.blockHash
  {
    var p := Proposer(vals, b.proposerAddress, hashes);
    Block(b.blockHash, b.chainId, b.height, |b.txs|, b.time, b.round,
          if p.Some? then Some(p.value.moniker) else None,
          if p.Some? then Some(p.value.operatorAddress) else None,
          None, None)
  }

  /** The stored block keeps the payload's hash, chain id, height, time and round and counts
      its transactions; its gas totals are unset, and its proposer name and operator address
      are those of the validator the proposer lookup selects, both unset when none matches. */
  lemma NewBlockFields(b: BlockData, vals: seq<ValidatorData>, hashes: Hashes)
    ensures var r := NewBlock(b, vals, hashes);
      r.blockHash == b.blockHash && r.height == b.height && r.numTxs == |b.txs|
    ensures var r := NewBlock(b, vals, hashes);
      r.chainId == b.chainId && r.timestamp == b.time && r.round == b.round
    ensures var r := NewBlock(b, vals, hashes);
      r.gasUsed.None? && r.gasWanted.None?
    ensures var r := NewBlock(b, vals, hashes);
      r.proposer.Some? <==> Proposer(vals, b.proposerAddress, hashes).Some?
    ensures var r := NewBlock(b, vals, hashes);
      r.proposer.Some? ==> (var v := Proposer(vals, b.proposerAddress, hashes).value;
        r.proposer == Some(v.moniker) && r.operatorAddress == Some(v.operatorAddress))
    ensures var r := NewBlock(b, vals, hashes);
      r.proposer.None? ==> r.operatorAddress.None?
  {
  }

  /** The guarded body for block `height`: fetch it, build the block row, then either save
      it at once (no transactions, a conflict only logged) or run the transaction loop. */
  function SyncBlock(height: int, vals: seq<ValidatorData>, ledger: Ledger, node: Node, hashes: Hashes): (r: Step)
    ensures Extends(ledger, r.ledger)
    ensures r.ok ==> node.block(BlockPath(height)).RpcResult?
    ensures r.ok ==> node.block(BlockPath(height)).result.blockHash in r.ledger.blocks
    ensures !node.block(BlockPath(height)).RpcResult? ==> r == Step(ledger, false)
  {
    match node.block(BlockPath(height))
    case RpcError => Step(ledger, false)
    case RpcEmpty => Step(ledger, false)
    case RpcResult(b) =>
      var header := NewBlock(b, vals, hashes);
      if |b.txs| == 0 then Step(SaveBlockOrFind(ledger, header).0, true)
      else
        var ds := Details(node, hashes, b.txs);
        SyncTxsExtends(ds, height, b.time, header, 0, 0, 0, ledger);
        SyncTxs(ds, height, b.time, header, 0, 0, 0, ledger)
  }

  /** Every transaction row that ingesting block `height` adds carries that height. */
  lemma SyncBlockHeights(height: int, vals: seq<ValidatorData>, ledger: Ledger, node: Node, hashes: Hashes)
    ensures var r := SyncBlock(height, vals, ledger, node, hashes);
      forall h :: h in r.ledger.txs && h !in ledger.txs ==> r.ledger.txs[h].height == height
  {
    if node.block(BlockPath(height)).RpcResult? {
      var b := node.block(BlockPath(height)).result;
      if |b.txs| > 0 {
        SyncTxsHeights(Details(node, hashes, b.txs), height, b.time, NewBlock(b, vals, hashes), 0, 0, 0, ledger);
      }
    }
  }

  /** Of the rows that ingesting block `height` adds, only the one for the block's last
      transaction references a block, and that is the stored block row. */
  lemma SyncBlockReference(height: int, vals: seq<ValidatorData>, ledger: Ledger, node: Node, hashes: Hashes)
    ensures var r := SyncBlock(height, vals, ledger, node, hashes);
      forall h :: h in r.ledger.txs && h !in ledger.txs && r.ledger.txs[h].block.Some? ==>
        var b := node.block(BlockPath(height)).result;
        && |b.txs| > 0
        && Fetched(node, hashes, b.txs[|b.txs| - 1]).Some?
        && h == Fetched(node, hashes, b.txs[|b.txs| - 1]).value.txHash
        && b.blockHash in r.ledger.blocks
        && r.ledger.txs[h].block == Some(r.ledger.blocks[b.blockHash])
  {
    if node.block(BlockPath(height)).RpcResult? {
      var b := node.block(BlockPath(height)).result;
      if |b.txs| > 0 {
        var ds := Details(node, hashes, b.txs);
        SyncTxsBlockReference(ds, height, b.time, NewBlock(b, vals, hashes), 0, 0, 0, ledger);
        DetailsAt(node, hashes, b.txs, |b.txs| - 1);
        DetailFetched(node, hashes, b.txs[|b.txs| - 1]);
      }
    }
  }

  /** A classified detail is the node's answer for its transaction. */
  lemma DetailFetched(node: Node, hashes: Hashes, raw: string)
    ensures DetailOf(node, hashes, raw).Classified? ==> Fetched(node, hashes, raw) == Some(DetailOf(node, hashes, raw).resp)
  {
  }

  /** `t` is the row stored for the raw transaction `raw`: the node returned its detail, which
      could be classified and lists a fee coin; the row carries the response's hash, code and
      gas, the classified type, the `toFixed(6)` text of the first fee amount, and the
      response's `data` only when the transaction succeeded. */
  ghost predicate StoredFor(t: TxRecord, node: Node, hashes: Hashes, raw: string) {
    && Fetched(node, hashes, raw).Some?
    && var resp := Fetched(node, hashes, raw).value;
    && ClassifyTx(resp).Some? && |resp.fee| > 0
    && t.txHash == resp.txHash
    && t.txType == ClassifyTx(resp).value
    && t.fee == FeeText(resp.fee[0].amount)
    && t.code == resp.code
    && t.data == (if resp.code == 0 then resp.data else "")
    && t.gasUsed == resp.gasUsed && t.gasWanted == resp.gasWanted
  }

  /** Every transaction row that ingesting block `height` adds is the row stored for one of
      the block's raw transactions. */
  lemma SyncBlockRows(height: int, vals: seq<ValidatorData>, ledger: Ledger, node: Node, hashes: Hashes)
    ensures var r := SyncBlock(height, vals, ledger, node, hashes);
      forall h :: h in r.ledger.txs && h !in ledger.txs ==>
        && node.block(BlockPath(height)).RpcResult?
        && var b := node.block(BlockPath(height)).result;
           exists k :: 0 <= k < |b.txs| && StoredFor(r.ledger.txs[h], node, hashes, b.txs[k])
  {
    var r := SyncBlock(height, vals, ledger, node, hashes);
    if node.block(BlockPath(height)).RpcResult? {
      var b := node.block(BlockPath(height)).result;
      if |b.txs| > 0 {
        var ds := Details(node, hashes, b.txs);
        assert r == SyncTxs(ds, height, b.time, NewBlock(b, vals, hashes), 0, 0, 0, ledger);
        SyncTxsRows(ds, height, b.time, NewBlock(b, vals, hashes), 0, 0, 0, ledger);
        forall h | h in r.ledger.txs && h !in ledger.txs
          ensures exists k :: 0 <= k < |b.txs| && StoredFor(r.ledger.txs[h], node, hashes, b.txs[k])
        {
          var k :| 0 <= k < |ds| && RowOf(r.ledger.txs[h], ds[k]);
          DetailsAt(node, hashes, b.txs, k);
          DetailFetched(node, hashes, b.txs[k]);
          assert StoredFor(r.ledger.txs[h], node, hashes, b.txs[k]);
        }
      }
    }
  }

  /** A block ingested for the first time is stored with its header fields, its proposer, and
      gas totals that are the sums over all its transactions (unset when it has none), every
      one of which the node returned and could be classified. */
  lemma SyncBlockGas(height: int, vals: seq<ValidatorData>, ledger: Ledger, node: Node, hashes: Hashes)
    ensures var r := SyncBlock(height, vals, ledger, node, hashes);
      r.ok && node.block(BlockPath(height)).result.blockHash !in ledger.blocks ==>
        var b := node.block(BlockPath(height)).result;
        var ds := Details(node, hashes, b.txs);
        && AllClassified(ds)
        && r.ledger.blocks[b.blockHash] == NewBlock(b, vals, hashes).(
             gasUsed := if |b.txs| == 0 then None else Some(SumGasUsed(Responses(ds))),
             gasWanted := if |b.txs| == 0 then None else Some(SumGasWanted(Responses(ds))))
  {
    if node.block(BlockPath(height)).RpcResult? {
      var b := node.block(BlockPath(height)).result;
      var header := NewBlock(b, vals, hashes);
      if |b.txs| == 0 {
        assert header.(gasUsed := None, gasWanted := None) == header;
      } else if b.blockHash !in ledger.blocks {
        var ds := Details(node, hashes, b.txs);
        var r := SyncTxs(ds, height, b.time, header, 0, 0, 0, ledger);
        assert SyncBlock(height, vals, ledger, node, hashes) == r;
        assert ds[0..] == ds;
        SyncTxsGas(ds, height, b.time, header, 0, 0, 0, ledger);
        if r.ok {
          var rs := Responses(ds);
          assert AllClassified(ds[0..]) && Responses(ds[0..]) == rs;
          assert header.blockHash == b.blockHash;
          assert r.ledger.blocks[header.blockHash]
              == header.(gasUsed := Some(0 + SumGasUsed(rs)), gasWanted := Some(0 + SumGasWanted(rs)));
        }
      }
    }
  }

  /** Re-ingesting a block whose row is stored, and whose every transaction the node returns
      is stored too, changes nothing. */
  lemma ReplayIsIdempotent(height: int, vals: seq<ValidatorData>, ledger: Ledger, node: Node, hashes: Hashes)
    requires node.block(BlockPath(height)).RpcResult?
    requires var b := node.block(BlockPath(height)).result;
      && b.blockHash in ledger.blocks
      && forall k :: 0 <= k < |b.txs| && Fetched(node, hashes, b.txs[k]).Some? ==>
           Fetched(node, hashes, b.txs[k]).value.txHash in ledger.txs
    ensures SyncBlock(height, vals, ledger, node, hashes).ledger == ledger
  {
    var b := node.block(BlockPath(height)).result;
    if |b.txs| > 0 {
      var ds := Details(node, hashes, b.txs);
      forall k | 0 <= k < |ds| && ds[k].Classified?
        ensures ds[k].resp.txHash in ledger.txs
      {
        DetailsAt(node, hashes, b.txs, k);
        DetailFetched(node, hashes, b.txs[k]);
      }
      SyncTxsReplay(ds, height, b.time, NewBlock(b, vals, hashes), 0, 0, 0, ledger);
    }
  }
  // ---------------------------------------------------------------------------
  // The tick

  /** The height the node reports: `0` when the status call has no result, `None` for NaN. */
  function LatestHeight(status: RpcReply<StatusInfo>): (r: Option<int>)
    ensures status.RpcEmpty? ==> r == Some(0)
    ensures status.RpcError? ==> r.None?
  {
    match status
    case RpcEmpty => Some(0)
    case RpcResult(info) => info.latestBlockHeight
    case RpcError => None
  }

  /** One `handleInterval` tick. A tick in flight makes it a no-op. The status call and the
      validator list are requested outside the guarded body, so their failure ends the tick
      with nothing changed but the cursor row `getCurrentStatus` may have created. When the
      node is ahead, exactly block `cursor + 1` is ingested and, on success, becomes the
      cursor; any failure inside leaves the cursor for the next tick to retry. */
  function Tick(s: SyncState, ledger: Ledger, node: Node, hashes: Hashes, startHeight: int): (r: TickResult)
    ensures s.isSyncing ==> r == TickResult(s, ledger, Skipped)
    ensures !s.isSyncing ==> !r.state.isSyncing
    ensures Extends(ledger, r.ledger)
    ensures var c := s.cursor.GetOr(startHeight);
      r.state.cursor == s.cursor || r.state.cursor == Some(c) || r.state.cursor == Some(c + 1)
    ensures var c := s.cursor.GetOr(startHeight);
      r.outcome == Advanced <==>
        && !s.isSyncing && !node.status.RpcError? && node.validators.Some?
        && LatestHeight(node.status).Some? && LatestHeight(node.status).value > c
        && SyncBlock(c + 1, node.validators.value, ledger, node, hashes).ok
    ensures var c := s.cursor.GetOr(startHeight);
      r.outcome == Advanced ==> (r.state.cursor == Some(c + 1)
        && node.block(BlockPath(c + 1)).RpcResult?
        && node.block(BlockPath(c + 1)).result.blockHash in r.ledger.blocks)
    ensures var c := s.cursor.GetOr(startHeight);
      r.outcome == Failed || r.outcome == UpToDate ==> r.state.cursor == Some(c)
    ensures r.outcome != Advanced && r.outcome != Failed ==> r.ledger == ledger
    ensures node.status.RpcEmpty? && s.cursor.GetOr(startHeight) >= 0 && !s.isSyncing ==> r.outcome == UpToDate || r.outcome == Aborted
  {
    if s.isSyncing then TickResult(s, ledger, Skipped)
    else if node.status.RpcError? then TickResult(s, ledger, Aborted)
    else
      var c := s.cursor.GetOr(startHeight);
      var loaded := SyncState(Some(c), false);
      match node.validators
      case None => TickResult(loaded, ledger, Aborted)
      case Some(vals) =>
        var latest := LatestHeight(node.status);
        if !(latest.Some? && latest.value > c) then TickResult(loaded, ledger, UpToDate)
        else
          var step := SyncBlock(c + 1, vals, ledger, node, hashes);
          if step.ok then TickResult(SyncState(Some(c + 1), false), step.ledger, Advanced)
          else TickResult(loaded, step.ledger, Failed)
  }

  /** A sequence of ticks, one node view per tick. */
  function Run(s: SyncState, ledger: Ledger, nodes: seq<Node>, hashes: Hashes, startHeight: int): (r: TickResult)
    ensures r.state.isSyncing == s.isSyncing
    decreases |nodes|
  {
    if |nodes| == 0 then TickResult(s, ledger, Skipped)
    else
      var t := Tick(s, ledger, nodes[0], hashes, startHeight);
      Run(t.state, t.ledger, nodes[1..], hashes, startHeight)
  }

  /** Over any sequence of ticks from a stored cursor, the cursor never decreases and moves
      by at most one per tick. */
  lemma {:induction false} RunCursorBounds(s: SyncState, ledger: Ledger, nodes: seq<Node>, hashes: Hashes, startHeight: int)
    requires s.cursor.Some?
    ensures var r := Run(s, ledger, nodes, hashes, startHeight);
      r.state.cursor.Some? && s.cursor.value <= r.state.cursor.value <= s.cursor.value + |nodes|
    ensures Extends(ledger, Run(s, ledger, nodes, hashes, startHeight).ledger)
    decreases |nodes|
  {
    if |nodes| > 0 {
      var t := Tick(s, ledger, nodes[0], hashes, startHeight);
      RunCursorBounds(t.state, t.ledger, nodes[1..], hashes, startHeight);
    }
  }

  /** Block `height` cannot be ingested from this node view, whatever the ledger holds. */
  ghost predicate Blocked(height: int, node: Node, hashes: Hashes) {
    node.validators.Some? ==>
      forall l: Ledger :: !SyncBlock(height, node.validators.value, l, node, hashes).ok
  }

  /** When block `c + 1` cannot be ingested on any of the node views (a transaction with no
      fee coin, a successful transaction without a `message` event, …), no number of ticks
      moves the cursor past `c`. */
  lemma {:induction false} BlockedHeightStallsCursor(s: SyncState, ledger: Ledger, nodes: seq<Node>, hashes: Hashes, startHeight: int)
    requires s.cursor.Some? && !s.isSyncing
    requires forall k :: 0 <= k < |nodes| ==> Blocked(s.cursor.value + 1, nodes[k], hashes)
    ensures Run(s, ledger, nodes, hashes, startHeight).state == s
    decreases |nodes|
  {
    if |nodes| > 0 {
      var t := Tick(s, ledger, nodes[0], hashes, startHeight);
      assert Blocked(s.cursor.value + 1, nodes[0], hashes);
      assert t.state == s;
      assert forall k :: 0 <= k < |nodes[1..]| ==> nodes[1..][k] == nodes[k + 1];
      BlockedHeightStallsCursor(t.state, t.ledger, nodes[1..], hashes, startHeight);
    }
  }

  /** A transaction the node returns with an empty fee list blocks the height of its block. */
  lemma FeelessTxBlocksHeight(height: int, node: Node, hashes: Hashes, k: nat)
    requires node.block(BlockPath(height)).RpcResult?
    requires var b := node.block(BlockPath(height)).result;
      k < |b.txs| && Fetched(node, hashes, b.txs[k]).Some? && |Fetched(node, hashes, b.txs[k]).value.fee| == 0
    ensures Blocked(height, node, hashes)
  {
    UnstorableBlocksHeight(height, node, hashes, k);
  }

  /** A successful transaction whose first log entry has no `message` event blocks the
      height of its block. */
  lemma UnclassifiableTxBlocksHeight(height: int, node: Node, hashes: Hashes, k: nat)
    requires node.block(BlockPath(height)).RpcResult?
    requires var b := node.block(BlockPath(height)).result;
      k < |b.txs| && Fetched(node, hashes, b.txs[k]).Some? && ClassifyTx(Fetched(node, hashes, b.txs[k]).value).None?
    ensures Blocked(height, node, hashes)
  {
    UnstorableBlocksHeight(height, node, hashes, k);
  }

  /** A transaction the node does not return blocks the height of its block. */
  lemma MissingTxBlocksHeight(height: int, node: Node, hashes: Hashes, k: nat)
    requires node.block(BlockPath(height)).RpcResult?
    requires var b := node.block(BlockPath(height)).result;
      k < |b.txs| && Fetched(node, hashes, b.txs[k]).None?
    ensures Blocked(height, node, hashes)
  {
    UnstorableBlocksHeight(height, node, hashes, k);
  }

  /** A transaction the loop cannot store blocks the height of its block on every ledger. */
  lemma UnstorableBlocksHeight(height: int, node: Node, hashes: Hashes, k: nat)
    requires node.block(BlockPath(height)).RpcResult?
    requires var b := node.block(BlockPath(height)).result;
      k < |b.txs| && !Storable(DetailOf(node, hashes, b.txs[k]))
    ensures Blocked(height, node, hashes)
  {
    var b := node.block(BlockPath(height)).result;
    if node.validators.Some? {
      var vals := node.validators.value;
      var ds := Details(node, hashes, b.txs);
      DetailsAt(node, hashes, b.txs, k);
      forall l: Ledger
        ensures !SyncBlock(height, vals, l, node, hashes).ok
      {
        UnstorableFailsLoop(ds, height, b.time, NewBlock(b, vals, hashes), 0, 0, 0, l, k);
      }
    }
  }
}

=== FILE: chain.dfy ===
/** Records the upstream node returns, shared by the block ingestion tick, the validator
    reconciliation loop and the transaction listing. JSON decoding is not modelled: each
    record holds the fields the services read, already decoded. */
module Chain {
  import opened Results

  /** One `key`/`value` attribute of an ABCI event. */
  datatype Attribute = Attribute(key: string, value: string)

  /** An ABCI event; `kind` is its `type` field, `None` when the JSON object has none. */
  datatype Event = Event(kind: Option<string>, attributes: seq<Attribute>)

  /** One entry of a transaction's structured log (`raw_log` parsed as JSON). */
  datatype LogEntry = LogEntry(events: seq<Event>)

  datatype Coin = Coin(denom: string, amount: string)

  /** A message of a transaction body; `typeUrl` is its `@type` field. */
  datatype Message = Message(typeUrl: string)

  /** The `tx_response` of `GET /cosmos/tx/v1beta1/txs/{hash}`. `parsedLog` is what
      `JSON.parse(raw_log)` yields, `None` when `raw_log` is not a JSON array. */
  datatype TxResponse = TxResponse(
    txHash: string,
    code: int,
    codespace: string,
    data: string,
    info: string,
    rawLog: string,
    parsedLog: Option<seq<LogEntry>>,
    gasUsed: int,
    gasWanted: int,
    fee: seq<Coin>,
    messages: seq<Message>)

  /** One entry of `GET cosmos/staking/v1beta1/validators`. */
  datatype ValidatorData = ValidatorData(
    operatorAddress: string,
    consensusKey: string,
    jailed: bool,
    tokens: string,
    delegatorShares: string,
    moniker: string,
    website: string,
    details: string,
    identity: string,
    unbondingHeight: string,
    unbondingTime: string,
    rate: string,
    maxRate: string,
    maxChangeRate: string,
    updateTime: string,
    minSelfDelegation: string)

  /** The reply of a JSON-RPC call: an `error` member, no `result` member, or a result. */
  datatype RpcReply<T> = RpcError | RpcEmpty | RpcResult(result: T)
}

=== FILE: constants.dfy ===
/** The shared constants of src/shared/constants/common.ts that the modelled services read. */
module Constants {

  // CONST_CHAR: event kinds, attribute keys and the percent suffix.
  const PERCENT: string := "%"
  const DELEGATE: string := "delegate"
  const UNBOND: string := "unbond"
  const REDELEGATE: string := "redelegate"
  const AMOUNT: string := "amount"
  const MESSAGE: string := "message"
  const ACTION: string := "action"

  // LINK_API: the REST paths the tick and the validator cycle request. Each request is one
  // field of the `Node` and `StakingApi` records, which hold the answer for that path.
  const VALIDATOR_PATH: string := "cosmos/staking/v1beta1/validators"
  const STAKING_POOL_PATH: string := "cosmos/staking/v1beta1/pool"
  const SLASHING_PARAM_PATH: string := "cosmos/slashing/v1beta1/params"
  const SIGNING_INFOS_PATH: string := "cosmos/slashing/v1beta1/signing_infos"

  // CONST_NUM.PRECISION_DIV: micro-units per display unit.
  const PRECISION_DIV: nat := 1_000_000
}

=== FILE: cw20_tokens.dfy ===
/** The token listings of src/components/cw20-token/services/cw20-token.service.ts: the
    market overview with its defaults, the holdings of one account (the native coin and its
    IBC coins placed in front of the indexer's CW20 page, with the page window shifted by
    the number of assets placed in front), and the price lookup. Values the services
    compute in floating point (IBC balances, `balance * price`) are parameters. */
module Cw20Tokens {
  import opened Results
  import opened Lists
  import opened JsValues

  // ---------------------------------------------------------------------------
  // Market rows and their defaults

  /** A `token_markets` row; any column may be missing. */
  datatype MarketRow = MarketRow(
    coinId: JsValue,
    contractAddress: JsValue,
    name: JsValue,
    symbol: JsValue,
    image: JsValue,
    description: JsValue,
    currentPrice: JsValue,
    circulatingSupply: JsValue,
    totalVolume: JsValue,
    priceChange24h: JsValue,
    holderChange24h: JsValue,
    currentHolder: JsValue,
    maxSupply: JsValue)

  /** One entry of the market overview. */
  datatype TokenSummary = TokenSummary(
    coinId: JsValue,
    contractAddress: JsValue,
    name: JsValue,
    symbol: JsValue,
    image: JsValue,
    description: JsValue,
    circulatingMarketCap: JsValue,
    volume24h: JsValue,
    price: JsValue,
    priceChange24h: JsValue,
    holdersChange24h: JsValue,
    holders: JsValue,
    maxTotalSupply: JsValue)

  datatype TokenPage = TokenPage(tokens: seq<TokenSummary>, count: int)

  const NoText: JsValue := JStr("")
  const Zero: JsValue := JNum(0.0)

  /** `v || fallback`. */
  function Or(v: JsValue, fallback: JsValue): JsValue {
    if Truthy(v) then v else fallback
  }

  /** `out` is what `in || fallback` yields: the input when it is truthy, the fallback when
      it is missing, empty, zero or `NaN`. */
  predicate Defaulted(out: JsValue, input: JsValue, fallback: JsValue) {
    (Truthy(input) ==> out == input) && (!Truthy(input) ==> out == fallback)
  }

  /** The overview entry for one market row. */
  function Summarize(item: MarketRow): (t: TokenSummary)
    ensures Defaulted(t.coinId, item.coinId, NoText) && Defaulted(t.contractAddress, item.contractAddress, NoText)
    ensures Defaulted(t.name, item.name, NoText) && Defaulted(t.symbol, item.symbol, NoText)
    ensures Defaulted(t.image, item.image, NoText) && Defaulted(t.description, item.description, NoText)
    ensures Defaulted(t.circulatingMarketCap, item.circulatingSupply, Zero)
    ensures Defaulted(t.volume24h, item.totalVolume, Zero) && Defaulted(t.price, item.currentPrice, Zero)
    ensures Defaulted(t.priceChange24h, item.priceChange24h, Zero)
    ensures Defaulted(t.holdersChange24h, item.holderChange24h, Zero)
    ensures Defaulted(t.holders, item.currentHolder, Zero) && Defaulted(t.maxTotalSupply, item.maxSupply, Zero)
  {
    TokenSummary(
      Or(item.coinId, NoText),
      Or(item.contractAddress, NoText),
      Or(item.name, NoText),
      Or(item.symbol, NoText),
      Or(item.image, NoText),
      Or(item.description, NoText),
      Or(item.circulatingSupply, Zero),
      Or(item.totalVolume, Zero),
      Or(item.currentPrice, Zero),
      Or(item.priceChange24h, Zero),
      Or(item.holderChange24h, Zero),
      Or(item.currentHolder, Zero),
      Or(item.maxSupply, Zero))
  }

  /** `getCw20Tokens`: one summary per repository row, in order, and the repository's count. */
  function ListTokens(list: seq<MarketRow>, count: int): (r: TokenPage)
    ensures |r.tokens| == |list|
    ensures forall i :: 0 <= i < |list| ==> r.tokens[i] == Summarize(list[i])
    ensures r.count == count
  {
    TokenPage(seq(|list|, i requires 0 <= i < |list| => Summarize(list[i])), count)
  }

  /** A text field of the overview is a non-empty text or `''`, a numeric field is never
      `undefined`, `null` or `NaN`. */
  predicate TextOrBlank(v: JsValue) {
    Truthy(v) || v == NoText
  }

  predicate ValueOrZero(v: JsValue) {
    Truthy(v) || v == Zero
  }

  predicate Complete(t: TokenSummary) {
    && TextOrBlank(t.coinId) && TextOrBlank(t.contractAddress) && TextOrBlank(t.name)
    && TextOrBlank(t.symbol) && TextOrBlank(t.image) && TextOrBlank(t.description)
    && ValueOrZero(t.circulatingMarketCap) && ValueOrZero(t.volume24h) && ValueOrZero(t.price)
    && ValueOrZero(t.priceChange24h) && ValueOrZero(t.holdersChange24h) && ValueOrZero(t.holders)
    && ValueOrZero(t.maxTotalSupply)
  }

  /** The row a summary reads as when fed back to the overview. */
  function AsRow(t: TokenSummary): MarketRow {
    MarketRow(t.coinId, t.contractAddress, t.name, t.symbol, t.image, t.description, t.price,
              t.circulatingMarketCap, t.volume24h, t.priceChange24h, t.holdersChange24h, t.holders,
              t.maxTotalSupply)
  }

  /** Every entry of the overview has all its fields present, and defaulting it once more
      changes nothing. */
  lemma ListedTokensAreComplete(list: seq<MarketRow>, count: int, i: nat)
    requires i < |list|
    ensures Complete(ListTokens(list, count).tokens[i])
    ensures Summarize(AsRow(ListTokens(list, count).tokens[i])) == ListTokens(list, count).tokens[i]
  {
    var t := Summarize(list[i]);
    assert ListTokens(list, count).tokens[i] == t;
  }

  // ---------------------------------------------------------------------------
  // Price lookup

  /** `findOne({ where: { coin_id: id } })`: the first market row with that coin id. */
  function MarketById(markets: seq<MarketRow>, id: string): (r: Option<MarketRow>)
    ensures r.None? <==> forall i :: 0 <= i < |markets| ==> markets[i].coinId != JStr(id)
    ensures r.Some? ==> r.value in markets && r.value.coinId == JStr(id)
  {
    FirstMatch(markets, (m: MarketRow) => m.coinId == JStr(id))
  }

  /** `getPriceById`: the current price of the coin, 0 when no row or no price is stored. */
  function PriceById(markets: seq<MarketRow>, id: string): (r: JsValue)
    ensures MarketById(markets, id).None? ==> r == Zero
    ensures MarketById(markets, id).Some? ==> Defaulted(r, MarketById(markets, id).value.currentPrice, Zero)
    ensures ValueOrZero(r)
  {
    match MarketById(markets, id)
    case None => Zero
    case Some(m) => Or(m.currentPrice, Zero)
  }

  // ---------------------------------------------------------------------------
  // Holdings of one account

  /** An `AssetDto`; a field never assigned stays `undefined`. */
  datatype Asset = Asset(
    name: JsValue,
    symbol: JsValue,
    image: JsValue,
    denom: JsValue,
    contractAddress: JsValue,
    balance: JsValue,
    price: JsValue,
    priceChange24h: JsValue,
    maxTotalSupply: JsValue,
    value: JsValue)

  /** The native coin as configured: `AURA_INFO` and the chain info of the configuration. */
  datatype NativeCoin = NativeCoin(name: string, image: string, coinId: string, denom: string, minimalDenom: string)

  /** One entry of the indexer's `account_balances`. */
  datatype Balance = Balance(amount: JsValue, minimalDenom: JsValue)

  /** One coin of the configuration file's `coins`. */
  datatype CoinInfo = CoinInfo(denom: JsValue, name: JsValue, display: JsValue, logo: JsValue)

  /** One CW20 holding from the indexer; `name` and `symbol` are `asset_info.data.name` and
      `.symbol`, `undefined` when that path is missing. */
  datatype Cw20Holding = Cw20Holding(contractAddress: JsValue, image: JsValue, name: JsValue, symbol: JsValue, balance: JsValue)

  /** `data.assets.CW20` of the indexer's reply. */
  datatype Cw20Page = Cw20Page(assets: seq<Cw20Holding>, count: JsValue)

  /** The floating-point steps: an IBC balance scaled to display units, and
      `(Number(balance) * Number(price)).toString()`. */
  datatype Numbers = Numbers(ibcBalance: JsValue -> JsValue, value: (JsValue, JsValue) -> JsValue)

  /** What the holdings listing reads. `total` is the account service's total (`None` when it
      returns nothing), `balances` the indexer's `account_balances` (`None` when the reply has
      none), `coins` the configuration's coin list, and `cw20(limit, offset)` the indexer's
      CW20 page for that window (`None` when the reply has no asset list). */
  datatype Sources = Sources(
    total: Option<JsValue>,
    markets: seq<MarketRow>,
    balances: Option<seq<Balance>>,
    coins: Option<seq<CoinInfo>>,
    cw20: (int, int) -> Option<Cw20Page>)

  datatype OwnerRequest = OwnerRequest(account: string, limit: int, offset: int)

  datatype OwnerPage = OwnerPage(tokens: seq<Asset>, count: JsValue)

  const Unset: Asset := Asset(JUndefined, JUndefined, JUndefined, JUndefined, JUndefined,
                              JUndefined, JUndefined, JUndefined, JUndefined, JUndefined)

  /** The native coin's entry: configured name, symbol, image and denom, the account total
      as balance (0 without an account), and price, 24h change and supply only when the
      coin has a market row. */
  function NativeAsset(native: NativeCoin, total: Option<JsValue>, market: Option<MarketRow>, nums: Numbers): (a: Asset)
    ensures a.name == JStr(native.name) && a.symbol == JStr(native.denom)
    ensures a.image == JStr(native.image) && a.denom == JStr(native.minimalDenom)
    ensures a.contractAddress == JUndefined
    ensures total.None? ==> a.balance == Zero
    ensures total.Some? ==> a.balance == total.value
    ensures market.None? ==> a.price == JUndefined && a.priceChange24h == JUndefined && a.maxTotalSupply == JUndefined
    ensures market.Some? ==>
      && Defaulted(a.price, market.value.currentPrice, Zero)
      && Defaulted(a.priceChange24h, market.value.priceChange24h, Zero)
      && Defaulted(a.maxTotalSupply, market.value.maxSupply, Zero)
    ensures a.value == nums.value(a.balance, a.price)
  {
    var balance := if total.Some? then total.value else Zero;
    var priced := match market
      case None => Unset
      case Some(m) => Unset.(price := Or(m.currentPrice, Zero), priceChange24h := Or(m.priceChange24h, Zero),
                             maxTotalSupply := Or(m.maxSupply, Zero));
    priced.(name := JStr(native.name), symbol := JStr(native.denom), image := JStr(native.image),
            denom := JStr(native.minimalDenom), balance := balance,
            value := nums.value(balance, priced.price))
  }

  /** A balance is an IBC coin when it names a minimal denom. */
  predicate IsIbc(b: Balance) {
    Truthy(b.minimalDenom)
  }

  /** The configured coin whose denom is the balance's minimal denom. */
  function CoinFor(coins: Option<seq<CoinInfo>>, b: Balance): Option<CoinInfo> {
    if coins.None? then None else FirstMatch(coins.value, (c: CoinInfo) => StrictEquals(c.denom, b.minimalDenom))
  }

  /** The entry of one IBC balance: its scaled balance, and the configured coin's name,
      display symbol, logo and denom when the configuration knows the coin. */
  function IbcAsset(b: Balance, coins: Option<seq<CoinInfo>>, nums: Numbers): (a: Asset)
    ensures a.balance == nums.ibcBalance(b.amount)
    ensures a.price == JUndefined && a.value == JUndefined && a.contractAddress == JUndefined
    ensures CoinFor(coins, b).None? ==> a == Unset.(balance := a.balance)
    ensures CoinFor(coins, b).Some? ==>
      var c := CoinFor(coins, b).value;
      a.name == c.name && a.symbol == c.display && a.image == c.logo && a.denom == c.denom
  {
    var asset := Unset.(balance := nums.ibcBalance(b.amount));
    match CoinFor(coins, b)
    case None => asset
    case Some(c) => asset.(name := c.name, symbol := c.display, image := c.logo, denom := c.denom)
  }

  function IbcAssets(bs: seq<Balance>, coins: Option<seq<CoinInfo>>, nums: Numbers): (r: seq<Asset>)
    ensures |r| == |bs|
    ensures forall i :: 0 <= i < |bs| ==> r[i] == IbcAsset(bs[i], coins, nums)
  {
    seq(|bs|, i requires 0 <= i < |bs| => IbcAsset(bs[i], coins, nums))
  }

  /** The assets placed in front of the CW20 page: the native coin, then one entry per IBC
      balance in the indexer's order. */
  function Prepended(native: NativeCoin, src: Sources, balances: seq<Balance>, nums: Numbers): (r: seq<Asset>)
    ensures |r| == 1 + |Filter(balances, IsIbc)|
    ensures r[0] == NativeAsset(native, src.total, MarketById(src.markets, native.coinId), nums)
    ensures forall i :: 0 <= i < |Filter(balances, IsIbc)| ==> r[i + 1] == IbcAsset(Filter(balances, IsIbc)[i], src.coins, nums)
  {
    [NativeAsset(native, src.total, MarketById(src.markets, native.coinId), nums)]
      + IbcAssets(Filter(balances, IsIbc), src.coins, nums)
  }

  /** The window sent to the indexer: on the first page the assets placed in front take
      room from the limit, on later pages they shift the offset back. Neither is clamped. */
  function AdjustWindow(limit: int, offset: int, placed: nat): (w: (int, int))
    ensures offset == 0 ==> w == (limit - placed, 0)
    ensures offset != 0 ==> w == (limit, offset - placed)
  {
    if offset == 0 then (limit - placed, offset) else (limit, offset - placed)
  }

  /** The market row of a CW20 holding: the first row with the same contract address. */
  function MarketFor(rows: seq<MarketRow>, h: Cw20Holding): Option<MarketRow> {
    FirstMatch(rows, (m: MarketRow) => StrictEquals(m.contractAddress, h.contractAddress))
  }

  /** The entry of one CW20 holding: `'-'` for a missing contract address, `''` for missing
      texts, 0 for a missing balance, and the market price and 24h change, 0 without a row. */
  function Cw20Asset(h: Cw20Holding, rows: seq<MarketRow>, nums: Numbers): (a: Asset)
    ensures Defaulted(a.contractAddress, h.contractAddress, JStr("-"))
    ensures Defaulted(a.image, h.image, NoText) && Defaulted(a.name, h.name, NoText)
    ensures Defaulted(a.symbol, h.symbol, NoText) && Defaulted(a.balance, h.balance, Zero)
    ensures MarketFor(rows, h).None? ==> a.price == Zero && a.priceChange24h == Zero
    ensures MarketFor(rows, h).Some? ==>
      && Defaulted(a.price, MarketFor(rows, h).value.currentPrice, Zero)
      && Defaulted(a.priceChange24h, MarketFor(rows, h).value.priceChange24h, Zero)
    ensures a.denom == JUndefined && a.value == nums.value(a.balance, a.price)
  {
    var m := MarketFor(rows, h);
    var balance := Or(h.balance, Zero);
    var price := Or(if m.Some? then m.value.currentPrice else JUndefined, Zero);
    Unset.(
      contractAddress := Or(h.contractAddress, JStr("-")),
      image := Or(h.image, NoText),
      name := Or(h.name, NoText),
      symbol := Or(h.symbol, NoText),
      balance := balance,
      price := price,
      priceChange24h := Or(if m.Some? then m.value.priceChange24h else JUndefined, Zero),
      value := nums.value(balance, price))
  }

  function Cw20Assets(hs: seq<Cw20Holding>, rows: seq<MarketRow>, nums: Numbers): (r: seq<Asset>)
    ensures |r| == |hs|
    ensures forall i :: 0 <= i < |hs| ==> r[i] == Cw20Asset(hs[i], rows, nums)
  {
    seq(|hs|, i requires 0 <= i < |hs| => Cw20Asset(hs[i], rows, nums))
  }

  function Addresses(hs: seq<Cw20Holding>): (r: seq<JsValue>)
    ensures |r| == |hs| && forall i :: 0 <= i < |hs| ==> r[i] == hs[i].contractAddress
  {
    seq(|hs|, i requires 0 <= i < |hs| => hs[i].contractAddress)
  }

  /** A market row whose contract address is stored: SQL `IN` never matches a NULL column. */
  predicate HasStoredAddress(m: MarketRow) {
    m.contractAddress.JStr?
  }

  /** The market rows an `In(...)` query on the contract address can return at all. */
  function Priceable(markets: seq<MarketRow>): seq<MarketRow> {
    Filter(markets, HasStoredAddress)
  }

  /** The rows such a query can return are exactly the rows with a text contract address. */
  lemma PriceableRows(markets: seq<MarketRow>)
    ensures forall m :: m in Priceable(markets) <==> m in markets && m.contractAddress.JStr?
  {
    forall m | m in markets && m.contractAddress.JStr?
      ensures m in Priceable(markets)
    {
      var i :| 0 <= i < |markets| && markets[i] == m;
    }
  }

  /** The entries of a CW20 page, priced from the market rows whose stored contract address
      occurs on the page (`In(listContract_address)`); no rows are read for an empty page. */
  function PageAssets(page: Cw20Page, markets: seq<MarketRow>, nums: Numbers): (r: seq<Asset>)
    ensures |r| == |page.assets|
  {
    if |page.assets| > 0 then
      var addresses := Addresses(page.assets);
      Cw20Assets(page.assets, Filter(markets, (m: MarketRow) => HasStoredAddress(m) && m.contractAddress in addresses), nums)
    else []
  }

  /** Reading only the rows of the page's contracts prices every holding as the table of rows
      with a stored address would; a holding with a text address is priced as the whole table
      would price it, and one without (such as `null`) finds no row. */
  lemma PageAssetsUseStoredRows(page: Cw20Page, markets: seq<MarketRow>, nums: Numbers)
    ensures PageAssets(page, markets, nums) == Cw20Assets(page.assets, Priceable(markets), nums)
    ensures forall i :: 0 <= i < |page.assets| && page.assets[i].contractAddress.JStr? ==>
      MarketFor(Priceable(markets), page.assets[i]) == MarketFor(markets, page.assets[i])
    ensures forall i :: 0 <= i < |page.assets| && !page.assets[i].contractAddress.JStr? ==>
      MarketFor(Priceable(markets), page.assets[i]).None?
  {
    forall i | 0 <= i < |page.assets| && page.assets[i].contractAddress.JStr?
      ensures MarketFor(Priceable(markets), page.assets[i]) == MarketFor(markets, page.assets[i])
    {
      var h := page.assets[i];
      FirstMatchThroughFilter(markets, HasStoredAddress, (m: MarketRow) => StrictEquals(m.contractAddress, h.contractAddress));
    }
    forall i | 0 <= i < |page.assets| && !page.assets[i].contractAddress.JStr?
      ensures MarketFor(Priceable(markets), page.assets[i]).None?
    {
      var rows := Priceable(markets);
      forall k | 0 <= k < |rows| ensures rows[k].contractAddress.JStr? {
        assert rows[k] in rows;
      }
    }
    if |page.assets| > 0 {
      var addresses := Addresses(page.assets);
      var keep := (m: MarketRow) => HasStoredAddress(m) && m.contractAddress in addresses;
      forall i | 0 <= i < |page.assets|
        ensures Cw20Asset(page.assets[i], Filter(markets, keep), nums) == Cw20Asset(page.assets[i], Priceable(markets), nums)
      {
        var h := page.assets[i];
        assert addresses[i] == h.contractAddress;
        FirstMatchFiltersAgree(markets, keep, HasStoredAddress, (m: MarketRow) => StrictEquals(m.contractAddress, h.contractAddress));
      }
    }
  }

  /** `getCw20TokensByOwner`. A reply without `account_balances` or without a CW20 asset list
      makes the call throw. The listing is the prepended assets followed by the CW20 page on
      the first page and the CW20 page alone on later ones; the count is the indexer's CW20
      count plus the number of prepended assets. */
  function OwnerTokens(req: OwnerRequest, native: NativeCoin, src: Sources, nums: Numbers): (r: Result<OwnerPage>)
    ensures src.balances.None? ==> r.Err?
    ensures src.balances.Some? ==>
      var placed := Prepended(native, src, src.balances.value, nums);
      var w := AdjustWindow(req.limit, req.offset, |placed|);
      && (src.cw20(w.0, w.1).None? <==> r.Err?)
      && (r.Ok? ==>
            var page := src.cw20(w.0, w.1).value;
            && r.value.count == AddCount(page.count, |placed|)
            && (req.offset == 0 ==> r.value.tokens == placed + Cw20Assets(page.assets, Priceable(src.markets), nums))
            && (req.offset != 0 ==> r.value.tokens == Cw20Assets(page.assets, Priceable(src.markets), nums)))
  {
    match src.balances
    case None => Err("account_balances is missing")
    case Some(balances) =>
      var placed := Prepended(native, src, balances, nums);
      var w := AdjustWindow(req.limit, req.offset, |placed|);
      match src.cw20(w.0, w.1)
      case None => Err("the CW20 asset list is missing")
      case Some(page) =>
        var tokens := PageAssets(page, src.markets, nums);
        PageAssetsUseStoredRows(page, src.markets, nums);
        Ok(OwnerPage(if req.offset == 0 then placed + tokens else tokens, AddCount(page.count, |placed|)))
  }

  /** On the first page the native coin comes first, priced as `getPriceById` prices it. */
  lemma NativeAssetLeads(req: OwnerRequest, native: NativeCoin, src: Sources, nums: Numbers)
    requires req.offset == 0
    requires OwnerTokens(req, native, src, nums).Ok?
    ensures var tokens := OwnerTokens(req, native, src, nums).value.tokens;
      && |tokens| > 0
      && tokens[0] == NativeAsset(native, src.total, MarketById(src.markets, native.coinId), nums)
      && (MarketById(src.markets, native.coinId).Some? ==> tokens[0].price == PriceById(src.markets, native.coinId))
  {
    var placed := Prepended(native, src, src.balances.value, nums);
    var w := AdjustWindow(req.limit, req.offset, |placed|);
    var page := src.cw20(w.0, w.1).value;
    assert (placed + Cw20Assets(page.assets, Priceable(src.markets), nums))[0] == placed[0];
  }

  // ---------------------------------------------------------------------------
  // The merged listing pages consistently

  /** The entries `offset .. offset + limit` of a listing, cut at its end. */
  function Window<T>(xs: seq<T>, limit: nat, offset: nat): (r: seq<T>)
    ensures |r| <= limit
    ensures offset + limit <= |xs| ==> r == xs[offset..offset + limit]
  {
    var lo := if offset < |xs| then offset else |xs|;
    var hi := if offset + limit < |xs| then offset + limit else |xs|;
    xs[lo..hi]
  }

  /** An indexer that serves windows of one fixed list of holdings. */
  ghost predicate ServesWindows(src: Sources, holdings: seq<Cw20Holding>) {
    forall limit: nat, offset: nat ::
      src.cw20(limit, offset).Some? && src.cw20(limit, offset).value.assets == Window(holdings, limit, offset)
  }

  /** A window of a listing that starts with `front`: on the first page `front` fills the
      start of the window, past it the window lies inside the rest. */
  lemma WindowAfterFront<T>(front: seq<T>, rest: seq<T>, limit: nat, offset: nat)
    requires offset == 0 ==> limit >= |front|
    requires offset != 0 ==> offset >= |front|
    ensures offset == 0 ==> Window(front + rest, limit, offset) == front + Window(rest, limit - |front|, 0)
    ensures offset != 0 ==> Window(front + rest, limit, offset) == Window(rest, limit, offset - |front|)
  {
    var xs := front + rest;
    if offset == 0 {
      var hi := if limit - |front| < |rest| then limit - |front| else |rest|;
      assert xs[0..|front| + hi] == front + rest[0..hi];
    } else {
      var lo := if offset - |front| < |rest| then offset - |front| else |rest|;
      var hi := if offset - |front| + limit < |rest| then offset - |front| + limit else |rest|;
      assert xs[|front| + lo..|front| + hi] == rest[lo..hi];
    }
  }

  /** Pricing a window of holdings gives the same window of the priced holdings. */
  lemma Cw20AssetsOfWindow(hs: seq<Cw20Holding>, rows: seq<MarketRow>, nums: Numbers, limit: nat, offset: nat)
    ensures Cw20Assets(Window(hs, limit, offset), rows, nums) == Window(Cw20Assets(hs, rows, nums), limit, offset)
  {
    var all := Cw20Assets(hs, rows, nums);
    var lo := if offset < |hs| then offset else |hs|;
    var hi := if offset + limit < |hs| then offset + limit else |hs|;
    assert Window(hs, limit, offset) == hs[lo..hi];
    assert Window(all, limit, offset) == all[lo..hi];
  }

  /** When the indexer serves windows of the account's CW20 holdings, every page the
      listing returns is the matching window of one list: the prepended assets followed by
      all CW20 holdings. This holds on the first page when the limit leaves room for the
      prepended assets and on later pages when the offset lies past them; elsewhere the
      indexer receives a negative limit or offset. */
  lemma PagesAreWindowsOfOneListing(req: OwnerRequest, native: NativeCoin, src: Sources, nums: Numbers,
                                    holdings: seq<Cw20Holding>)
    requires src.balances.Some? && ServesWindows(src, holdings)
    requires req.limit >= 0 && req.offset >= 0
    requires var placed := |Prepended(native, src, src.balances.value, nums)|;
      (req.offset == 0 ==> req.limit >= placed) && (req.offset != 0 ==> req.offset >= placed)
    ensures var r := OwnerTokens(req, native, src, nums);
      var listing := Prepended(native, src, src.balances.value, nums) + Cw20Assets(holdings, Priceable(src.markets), nums);
      r.Ok? && r.value.tokens == Window(listing, req.limit, req.offset)
  {
    var w := AdjustWindow(req.limit, req.offset, |Prepended(native, src, src.balances.value, nums)|);
    var limit, offset: nat := w.0, w.1;
    assert src.cw20(limit, offset).Some? && src.cw20(limit, offset).value.assets == Window(holdings, limit, offset);
    PageIsWindow(req, native, src, nums, holdings);
  }

  /** The page for one served window is the matching window of the whole listing. */
  lemma PageIsWindow(req: OwnerRequest, native: NativeCoin, src: Sources, nums: Numbers, holdings: seq<Cw20Holding>)
    requires src.balances.Some?
    requires req.limit >= 0 && req.offset >= 0
    requires var placed := |Prepended(native, src, src.balances.value, nums)|;
      (req.offset == 0 ==> req.limit >= placed) && (req.offset != 0 ==> req.offset >= placed)
    requires var w := AdjustWindow(req.limit, req.offset, |Prepended(native, src, src.balances.value, nums)|);
      && w.0 >= 0 && w.1 >= 0
      && src.cw20(w.0, w.1).Some? && src.cw20(w.0, w.1).value.assets == Window(holdings, w.0, w.1)
    ensures var r := OwnerTokens(req, native, src, nums);
      var listing := Prepended(native, src, src.balances.value, nums) + Cw20Assets(holdings, Priceable(src.markets), nums);
      r.Ok? && r.value.tokens == Window(listing, req.limit, req.offset)
  {
    var placed := Prepended(native, src, src.balances.value, nums);
    var w := AdjustWindow(req.limit, req.offset, |placed|);
    var r := OwnerTokens(req, native, src, nums);
    ListingWindow(placed, holdings, Priceable(src.markets), nums, req.limit, req.offset,
                  src.cw20(w.0, w.1).value.assets, r.value.tokens);
  }

  /** The tokens built from a window of the holdings, shifted by the assets placed in front,
      are the window of the whole listing. */
  lemma ListingWindow(placed: seq<Asset>, holdings: seq<Cw20Holding>, rows: seq<MarketRow>, nums: Numbers,
                      limit: nat, offset: nat, assets: seq<Cw20Holding>, tokens: seq<Asset>)
    requires offset == 0 ==> limit >= |placed|
    requires offset != 0 ==> offset >= |placed|
    requires var w := AdjustWindow(limit, offset, |placed|);
      w.0 >= 0 && w.1 >= 0 && assets == Window(holdings, w.0, w.1)
    requires offset == 0 ==> tokens == placed + Cw20Assets(assets, rows, nums)
    requires offset != 0 ==> tokens == Cw20Assets(assets, rows, nums)
    ensures tokens == Window(placed + Cw20Assets(holdings, rows, nums), limit, offset)
  {
    var w := AdjustWindow(limit, offset, |placed|);
    var all := Cw20Assets(holdings, rows, nums);
    Cw20AssetsOfWindow(holdings, rows, nums, w.0, w.1);
    WindowAfterFront(placed, all, limit, offset);
  }

  /** With a numeric CW20 count, the reported count adds one for the native coin and one
      per IBC balance, whatever page is asked for. */
  lemma CountIncludesPrepended(req: OwnerRequest, native: NativeCoin, src: Sources, nums: Numbers, n: int)
    requires OwnerTokens(req, native, src, nums).Ok?
    requires var placed := Prepended(native, src, src.balances.value, nums);
      var w := AdjustWindow(req.limit, req.offset, |placed|);
      src.cw20(w.0, w.1).value.count == JNum(n as real)
    ensures OwnerTokens(req, native, src, nums).value.count
      == JNum((n + 1 + |Filter(src.balances.value, IsIbc)|) as real)
  {
  }
}

=== FILE: js_values.dfy ===
/** The JavaScript values a stored row and a freshly built row hold, with the comparison,
    truthiness and `parseInt` coercion the validator diff applies to them. */
module JsValues {
  import opened Results
  import Text

  /** A JavaScript value as far as the diff can observe it; `JNum` is a finite number. */
  datatype JsValue =
    | JUndefined
    | JNull
    | JBool(b: bool)
    | JNum(x: real)
    | JNaN
    | JStr(s: string)

  /** `a === b`: same type and same value, and `NaN` equals nothing, itself included. */
  function StrictEquals(a: JsValue, b: JsValue): (r: bool)
    ensures r <==> a == b && !a.JNaN?
  {
    match (a, b)
    case (JUndefined, JUndefined) => true
    case (JNull, JNull) => true
    case (JBool(p), JBool(q)) => p == q
    case (JNum(x), JNum(y)) => x == y
    case (JStr(s), JStr(t)) => s == t
    case _ => false
  }

  /** What an `if (v)` test sees. */
  predicate Truthy(v: JsValue) {
    match v
    case JUndefined => false
    case JNull => false
    case JBool(b) => b
    case JNum(x) => x != 0.0
    case JNaN => false
    case JStr(s) => |s| > 0
  }

  /** The integer part of a number, rounded toward zero. */
  function Truncate(x: real): (r: int)
    ensures 0.0 <= x ==> r as real <= x < r as real + 1.0
    ensures x < 0.0 ==> r as real - 1.0 < x <= r as real
  {
    if x >= 0.0 then x.Floor else 0 - (-x).Floor
  }

  /** `parseInt(v)`: the argument is first turned into its text, so only a string with a
      leading integer (or a number) yields a number; `undefined`, `null` and booleans
      yield `NaN`. A number is truncated toward zero, which is what its text gives unless
      that text has an exponent (magnitudes from 10^21 up, or below 10^-6). */
  function ParseIntValue(v: JsValue): (r: JsValue)
    ensures r.JNum? || r.JNaN?
    ensures r.JNum? ==> r.x == r.x.Floor as real
    ensures v.JStr? ==> (r.JNum? <==> Text.ParseInt(v.s).Some?)
    ensures v.JStr? && r.JNum? ==> r.x == Text.ParseInt(v.s).value as real
    ensures v.JUndefined? || v.JNull? || v.JBool? || v.JNaN? ==> r == JNaN
  {
    match v
    case JStr(s) =>
      (match Text.ParseInt(s)
       case Some(n) => JNum(n as real)
       case None => JNaN)
    case JNum(x) => JNum(Truncate(x) as real)
    case _ => JNaN
  }

  /** A string is never strictly equal to what `parseInt` returns, so comparing a stored
      string with a parsed value always reports a difference. */
  lemma StringNeverEqualsParsed(stored: string, v: JsValue)
    ensures !StrictEquals(JStr(stored), ParseIntValue(v))
  {
  }

  /** The text `parseInt` reads back from a rendered integer is that integer. */
  lemma ParseIntValueOfRendered(n: int)
    ensures ParseIntValue(JStr(Text.IntToString(n))) == JNum(n as real)
  {
    assert Text.IntToString(n) + [] == Text.IntToString(n);
    Text.ParseIntOfRendered(n, []);
  }

  /** `v + n` for a count `n`: numbers add, a string gets the digits of `n` appended, `null`
      and booleans count as 0 and 1, and `undefined` gives `NaN`. */
  function AddCount(v: JsValue, n: nat): (r: JsValue)
    ensures v.JNum? ==> r == JNum(v.x + n as real)
    ensures v.JStr? ==> r == JStr(v.s + Text.NatToString(n))
    ensures v.JUndefined? || v.JNaN? ==> r == JNaN
    ensures v.JNull? ==> r == JNum(n as real)
  {
    match v
    case JUndefined => JNaN
    case JNull => JNum(n as real)
    case JBool(b) => JNum((if b then 1.0 else 0.0) + n as real)
    case JNum(x) => JNum(x + n as real)
    case JNaN => JNaN
    case JStr(s) => JStr(s + Text.NatToString(n))
  }
}

=== FILE: lists.dfy ===
/** The array searches the services use: `Array.prototype.find`, `Array.prototype.filter`
    and a "last one wins" scan written as a `for … in` loop that keeps overwriting. */
module Lists {
  import opened Results

  /** Index of the first element satisfying `p` at or after `from` (what `find` returns). */
  function FindFrom<T>(xs: seq<T>, p: T -> bool, from: nat): (r: Option<nat>)
    requires from <= |xs|
    ensures r.Some? ==> from <= r.value < |xs| && p(xs[r.value])
    ensures r.Some? ==> forall j :: from <= j < r.value ==> !p(xs[j])
    ensures r.None? ==> forall j :: from <= j < |xs| ==> !p(xs[j])
    decreases |xs| - from
  {
    if from == |xs| then None
    else if p(xs[from]) then Some(from)
    else FindFrom(xs, p, from + 1)
  }

  /** Index of the first element satisfying `p`. */
  function Find<T>(xs: seq<T>, p: T -> bool): (r: Option<nat>)
    ensures r.Some? ==> r.value < |xs| && p(xs[r.value])
    ensures r.Some? ==> forall j :: 0 <= j < r.value ==> !p(xs[j])
    ensures r.None? <==> forall j :: 0 <= j < |xs| ==> !p(xs[j])
  {
    FindFrom(xs, p, 0)
  }

  /** `i` is the index of the first element of `xs` satisfying `p`. */
  predicate IsFirst<T>(xs: seq<T>, p: T -> bool, i: int) {
    0 <= i < |xs| && p(xs[i]) && forall k :: 0 <= k < i ==> !p(xs[k])
  }

  /** `Find` answers the first index, and only that one. */
  lemma FindIsFirst<T>(xs: seq<T>, p: T -> bool, i: int)
    requires IsFirst(xs, p, i)
    ensures Find(xs, p) == Some(i)
  {
    assert Find(xs, p).Some? by { assert p(xs[i]); }
  }

  /** Index of the last element satisfying `p`: a scan that overwrites its answer on every match. */
  function FindLast<T>(xs: seq<T>, p: T -> bool): (r: Option<nat>)
    ensures r.Some? ==> r.value < |xs| && p(xs[r.value])
    ensures r.Some? ==> forall j :: r.value < j < |xs| ==> !p(xs[j])
    ensures r.None? <==> forall j :: 0 <= j < |xs| ==> !p(xs[j])
    decreases |xs|
  {
    if |xs| == 0 then None
    else if p(xs[|xs| - 1]) then Some(|xs| - 1)
    else FindLast(xs[..|xs| - 1], p)
  }

  /** `Array.prototype.filter`: the elements satisfying `p`, in order. */
  function Filter<T>(xs: seq<T>, p: T -> bool): (r: seq<T>)
    ensures |r| <= |xs|
    ensures forall y :: y in r ==> y in xs && p(y)
    ensures forall i :: 0 <= i < |xs| && p(xs[i]) ==> xs[i] in r
    ensures |xs| == 1 ==> r == (if p(xs[0]) then xs else [])
    decreases |xs|
  {
    if |xs| == 0 then []
    else (if p(xs[0]) then [xs[0]] else []) + Filter(xs[1..], p)
  }

  /** Filtering distributes over concatenation, so the kept elements keep their order and
      their repetitions. */
  lemma {:induction false} FilterAppend<T>(xs: seq<T>, ys: seq<T>, p: T -> bool)
    ensures Filter(xs + ys, p) == Filter(xs, p) + Filter(ys, p)
    decreases |xs|
  {
    if |xs| == 0 {
      assert xs + ys == ys;
    } else {
      assert (xs + ys)[1..] == xs[1..] + ys;
      FilterAppend(xs[1..], ys, p);
    }
  }

  /** The filter keeps something exactly when some element satisfies the predicate. */
  lemma FilterEmpty<T>(xs: seq<T>, p: T -> bool)
    ensures |Filter(xs, p)| == 0 <==> forall i :: 0 <= i < |xs| ==> !p(xs[i])
  {
    if |Filter(xs, p)| > 0 {
      assert Filter(xs, p)[0] in Filter(xs, p);
    }
  }

  /** No element occurs twice. */
  predicate Distinct<T(==)>(xs: seq<T>) {
    forall i, j :: 0 <= i < j < |xs| ==> xs[i] != xs[j]
  }

  /** `filter(p)[0]` is the element `find(p)` selects, and the filter is empty exactly when
      `find` finds nothing: the services use both idioms for "first match". */
  lemma {:induction false} FilterHeadIsFind<T>(xs: seq<T>, p: T -> bool)
    ensures |Filter(xs, p)| == 0 <==> Find(xs, p).None?
    ensures Find(xs, p).Some? ==> Filter(xs, p)[0] == xs[Find(xs, p).value]
    decreases |xs|
  {
    if |xs| == 0 {
    } else if p(xs[0]) {
      assert Filter(xs, p)[0] == xs[0];
    } else {
      FilterHeadIsFind(xs[1..], p);
      assert Filter(xs, p) == Filter(xs[1..], p);
      var f := Find(xs[1..], p);
      if f.Some? {
        assert p(xs[f.value + 1]);
        assert Find(xs, p).Some?;
      } else {
        forall j | 0 <= j < |xs| ensures !p(xs[j]) {
          if j > 0 { assert xs[j] == xs[1..][j - 1]; }
        }
      }
    }
  }

  /** The element `find(p)` returns, `None` for `undefined`. */
  function FirstMatch<T>(xs: seq<T>, p: T -> bool): (r: Option<T>)
    ensures r.None? <==> forall i :: 0 <= i < |xs| ==> !p(xs[i])
    ensures r.Some? ==> Find(xs, p).Some? && r.value == xs[Find(xs, p).value]
  {
    match Find(xs, p)
    case None => None
    case Some(i) => Some(xs[i])
  }

  /** `find` looks at the head first and otherwise searches the tail. */
  lemma FirstMatchStep<T>(xs: seq<T>, p: T -> bool)
    requires |xs| > 0
    ensures FirstMatch(xs, p) == if p(xs[0]) then Some(xs[0]) else FirstMatch(xs[1..], p)
  {
    if !p(xs[0]) {
      var f, t := Find(xs, p), Find(xs[1..], p);
      if t.Some? {
        assert xs[t.value + 1] == xs[1..][t.value];
        assert f.Some?;
        assert f.value == t.value + 1;
      } else {
        forall j | 0 <= j < |xs| ensures !p(xs[j]) {
          if j > 0 { assert xs[j] == xs[1..][j - 1]; }
        }
      }
    }
  }

  /** Searching what a coarser filter kept finds the same element as searching everything:
      whatever the search accepts, the filter keeps. */
  lemma {:induction false} FirstMatchThroughFilter<T>(xs: seq<T>, keep: T -> bool, p: T -> bool)
    requires forall x :: p(x) ==> keep(x)
    ensures FirstMatch(Filter(xs, keep), p) == FirstMatch(xs, p)
    decreases |xs|
  {
    if |xs| > 0 {
      var rest := Filter(xs[1..], keep);
      FirstMatchThroughFilter(xs[1..], keep, p);
      FirstMatchStep(xs, p);
      if keep(xs[0]) {
        assert Filter(xs, keep) == [xs[0]] + rest;
        FirstMatchStep([xs[0]] + rest, p);
        assert ([xs[0]] + rest)[1..] == rest;
      } else {
        assert Filter(xs, keep) == rest;
      }
    }
  }

  /** Two filters that agree on every element the search accepts leave the search the same
      result. */
  lemma {:induction false} FirstMatchFiltersAgree<T>(xs: seq<T>, keep: T -> bool, keep': T -> bool, p: T -> bool)
    requires forall x :: p(x) ==> (keep(x) <==> keep'(x))
    ensures FirstMatch(Filter(xs, keep), p) == FirstMatch(Filter(xs, keep'), p)
    decreases |xs|
  {
    if |xs| > 0 {
      FirstMatchFiltersAgree(xs[1..], keep, keep', p);
      FirstMatchFilterStep(xs, keep, p);
      FirstMatchFilterStep(xs, keep', p);
    }
  }

  /** Searching a filtered sequence either stops at its head, when the filter keeps it and
      the search accepts it, or goes on in the filtered tail. */
  lemma FirstMatchFilterStep<T>(xs: seq<T>, keep: T -> bool, p: T -> bool)
    requires |xs| > 0
    ensures FirstMatch(Filter(xs, keep), p) ==
      if keep(xs[0]) && p(xs[0]) then Some(xs[0]) else FirstMatch(Filter(xs[1..], keep), p)
  {
    var rest := Filter(xs[1..], keep);
    if keep(xs[0]) {
      assert Filter(xs, keep) == [xs[0]] + rest;
      FirstMatchStep([xs[0]] + rest, p);
      assert ([xs[0]] + rest)[1..] == rest;
    } else {
      assert Filter(xs, keep) == rest;
    }
  }

  /** The first match is the element at the first matching index. */
  lemma FirstMatchAt<T>(xs: seq<T>, p: T -> bool)
    ensures forall i :: 0 <= i < |xs| && p(xs[i]) && (forall j :: 0 <= j < i ==> !p(xs[j])) ==>
      FirstMatch(xs, p) == Some(xs[i])
  {
    forall i | 0 <= i < |xs| && p(xs[i]) && (forall j :: 0 <= j < i ==> !p(xs[j]))
      ensures FirstMatch(xs, p) == Some(xs[i])
    {
      var f := Find(xs, p);
      assert f.Some?;
      assert f.value == i;
    }
  }
}

=== FILE: proposal_votes.dfy ===
/** The vote queries of src/components/proposal/repositories/proposal-vote.repository.ts.
    Each query is built as the source builds it: literal SQL text appended piece by piece,
    and one value pushed onto the parameter list for every `?` placeholder appended. */
module ProposalVotes {
  import opened Results
  import opened Text

  /** A value bound to a placeholder. */
  datatype SqlParam = PNum(n: int) | PText(s: string)

  /** The text handed to the driver and the values for its placeholders, in order. */
  datatype Query = Query(sql: string, params: seq<SqlParam>)

  /** The request of both queries: a proposal, a vote option filter (`''` for none), a page
      size and a page index. */
  datatype VoteRequest = VoteRequest(proposalId: int, option: string, limit: int, offset: int)

  function Placeholders(sql: string): nat {
    CountChar(sql, '?')
  }

  /** Literal text with no placeholder in it. */
  predicate Plain(text: string) {
    '?' !in text
  }

  // ---------------------------------------------------------------------------
  // Binding: the reference meaning of a query and its parameters

  /** What the driver runs: every placeholder replaced, left to right, by the rendering of
      the next value; `None` when the number of placeholders and values differ. */
  function Bind(sql: string, params: seq<SqlParam>, render: SqlParam -> string): Option<string>
    decreases |sql|
  {
    if |sql| == 0 then (if |params| == 0 then Some("") else None)
    else if sql[0] == '?' then
      if |params| == 0 then None
      else
        match Bind(sql[1..], params[1..], render)
        case None => None
        case Some(rest) => Some(render(params[0]) + rest)
    else
      match Bind(sql[1..], params, render)
      case None => None
      case Some(rest) => Some([sql[0]] + rest)
  }

  /** Text without placeholders binds to itself. */
  lemma {:induction false} BindPlain(text: string, render: SqlParam -> string)
    requires Plain(text)
    ensures Bind(text, [], render) == Some(text)
    decreases |text|
  {
    if |text| > 0 {
      BindPlain(text[1..], render);
      assert [text[0]] + text[1..] == text;
    }
  }

  /** Binding distributes over concatenation when the first part takes exactly its own
      values. */
  lemma {:induction false} BindAppend(a: string, b: string, p: seq<SqlParam>, q: seq<SqlParam>, render: SqlParam -> string)
    requires Bind(a, p, render).Some? && Bind(b, q, render).Some?
    ensures Bind(a + b, p + q, render) == Some(Bind(a, p, render).value + Bind(b, q, render).value)
    decreases |a|
  {
    var y := Bind(b, q, render).value;
    if |a| == 0 {
      assert |p| == 0 && Bind(a, p, render).value == [];
      assert a + b == b && p + q == q && [] + y == y;
    } else if a[0] == '?' {
      var a1, p1 := a[1..], p[1..];
      BindAppend(a1, b, p1, q, render);
      var x := Bind(a1, p1, render).value;
      assert (a + b)[0] == '?' && (a + b)[1..] == a1 + b;
      assert (p + q)[0] == p[0] && (p + q)[1..] == p1 + q;
      assert Bind(a, p, render) == Some(render(p[0]) + x);
      assert Bind(a + b, p + q, render) == Some(render(p[0]) + (x + y));
      assert render(p[0]) + (x + y) == (render(p[0]) + x) + y;
    } else {
      var a1 := a[1..];
      BindAppend(a1, b, p, q, render);
      var x := Bind(a1, p, render).value;
      assert (a + b)[0] == a[0] && (a + b)[1..] == a1 + b;
      assert Bind(a, p, render) == Some([a[0]] + x);
      assert Bind(a + b, p + q, render) == Some([a[0]] + (x + y));
      assert [a[0]] + (x + y) == ([a[0]] + x) + y;
    }
  }

  // ---------------------------------------------------------------------------
  // Building a query piece by piece

  /** One `sql += text` step, followed by a placeholder and a pushed value when `value` is
      present. */
  datatype Piece = Piece(text: string, value: Option<SqlParam>)

  function Mark(p: Piece): string {
    if p.value.Some? then "?" else ""
  }

  function Pushed(p: Piece): seq<SqlParam> {
    if p.value.Some? then [p.value.value] else []
  }

  ghost predicate AllPlain(ps: seq<Piece>) {
    forall i :: 0 <= i < |ps| ==> Plain(ps[i].text)
  }

  /** The query the steps build. */
  function Assemble(ps: seq<Piece>): (q: Query)
    ensures |q.params| <= |ps|
    decreases |ps|
  {
    if |ps| == 0 then Query("", [])
    else
      var rest := Assemble(ps[1..]);
      Query(ps[0].text + (Mark(ps[0]) + rest.sql), Pushed(ps[0]) + rest.params)
  }

  /** Each step appends as many placeholders as values, so the counts agree whenever the
      literal texts hold no placeholder of their own. */
  lemma {:induction false} AssembleCounts(ps: seq<Piece>)
    requires AllPlain(ps)
    ensures Placeholders(Assemble(ps).sql) == |Assemble(ps).params|
    decreases |ps|
  {
    if |ps| > 0 {
      var p, rest := ps[0], Assemble(ps[1..]);
      AllPlainTail(ps);
      AssembleCons(ps);
      AssembleCounts(ps[1..]);
      CountCharAppend(p.text, Mark(p) + rest.sql, '?');
      CountCharAppend(Mark(p), rest.sql, '?');
    }
  }

  /** The text the driver runs for the steps: each literal followed by its value. */
  function Bound(ps: seq<Piece>, render: SqlParam -> string): string
    decreases |ps|
  {
    if |ps| == 0 then ""
    else ps[0].text + Slot(ps[0], render) + Bound(ps[1..], render)
  }

  /** Every value lands in the placeholder appended with it. */
  lemma {:induction false} AssembleBinds(ps: seq<Piece>, render: SqlParam -> string)
    requires AllPlain(ps)
    ensures Bind(Assemble(ps).sql, Assemble(ps).params, render) == Some(Bound(ps, render))
    decreases |ps|
  {
    if |ps| == 0 {
    } else {
      var p := ps[0];
      var rest := Assemble(ps[1..]);
      var tail := Slot(p, render) + Bound(ps[1..], render);
      var params := Pushed(p) + rest.params;
      AllPlainTail(ps);
      assert Bind(Mark(p) + rest.sql, params, render) == Some(tail) by {
        AssembleBinds(ps[1..], render);
        BindMark(p, render);
        BindAppend(Mark(p), rest.sql, Pushed(p), rest.params, render);
      }
      assert Bind(p.text + (Mark(p) + rest.sql), [] + params, render) == Some(p.text + tail) by {
        BindPlain(p.text, render);
        BindAppend(p.text, Mark(p) + rest.sql, [], params, render);
      }
      assert [] + params == params;
      AssembleCons(ps);
      assert p.text + tail == p.text + Slot(p, render) + Bound(ps[1..], render);
    }
  }

  /** What a step's value renders to: nothing when it pushes no value. */
  function Slot(p: Piece, render: SqlParam -> string): string {
    if p.value.Some? then render(p.value.value) else ""
  }

  /** A step's own placeholder binds to its own value. */
  lemma BindMark(p: Piece, render: SqlParam -> string)
    ensures Bind(Mark(p), Pushed(p), render) == Some(Slot(p, render))
  {
    assert Bind("", [], render) == Some("");
    assert Slot(p, render) + "" == Slot(p, render);
  }

  lemma AllPlainTail(ps: seq<Piece>)
    requires |ps| > 0 && AllPlain(ps)
    ensures Plain(ps[0].text) && AllPlain(ps[1..])
  {
    assert forall i :: 1 <= i < |ps| ==> ps[i] == ps[1..][i - 1];
  }

  /** A non-empty run of steps builds its first text and placeholder ahead of the rest. */
  lemma AssembleCons(ps: seq<Piece>)
    requires |ps| > 0
    ensures Assemble(ps) == Query(ps[0].text + (Mark(ps[0]) + Assemble(ps[1..]).sql), Pushed(ps[0]) + Assemble(ps[1..]).params)
  {
  }

  lemma ConsAppend<T>(xs: seq<T>, ys: seq<T>)
    requires |xs| > 0
    ensures |xs + ys| > 0 && (xs + ys)[0] == xs[0] && (xs + ys)[1..] == xs[1..] + ys
  {
  }

  lemma Associate<T>(x: seq<T>, y: seq<T>, z: seq<T>, w: seq<T>)
    ensures x + (y + (z + w)) == (x + (y + z)) + w
  {
  }

  /** Appending a step appends its text and its value. */
  lemma {:induction false} AssembleAppend(ps: seq<Piece>, qs: seq<Piece>)
    ensures Assemble(ps + qs) == Query(Assemble(ps).sql + Assemble(qs).sql, Assemble(ps).params + Assemble(qs).params)
    decreases |ps|
  {
    if |ps| == 0 {
      assert ps + qs == qs;
    } else {
      var p, a, b := ps[0], Assemble(ps[1..]), Assemble(qs);
      ConsAppend(ps, qs);
      AssembleCons(ps + qs);
      AssembleCons(ps);
      AssembleAppend(ps[1..], qs);
      Associate(p.text, Mark(p), a.sql, b.sql);
      Associate([], Pushed(p), a.params, b.params);
      assert [] + (Pushed(p) + a.params) == Pushed(p) + a.params;
      assert [] + (Pushed(p) + (a.params + b.params)) == Pushed(p) + (a.params + b.params);
    }
  }

  /** One step binds to its text followed by its rendered value. */
  lemma BoundOne(p: Piece, render: SqlParam -> string)
    ensures p.value.None? ==> Bound([p], render) == p.text
    ensures p.value.Some? ==> Bound([p], render) == p.text + render(p.value.value)
  {
    assert [p][1..] == [];
    assert p.text + "" + "" == p.text;
  }

  lemma BoundThree(a: seq<Piece>, b: seq<Piece>, c: seq<Piece>, render: SqlParam -> string)
    ensures Bound(a + b + c, render) == Bound(a, render) + Bound(b, render) + Bound(c, render)
  {
    BoundAppend(a + b, c, render);
    BoundAppend(a, b, render);
  }

  /** The grouping `Bound` produces for the by-option steps, written left to right. */
  lemma Regroup(a: string, b: string, c: string, d: string, e: string, f: string, g: string, h: string)
    ensures (a + b) + c + (d + (e + f + g + h)) == a + b + c + d + e + f + g + h
  {
  }

  lemma {:induction false} BoundAppend(ps: seq<Piece>, qs: seq<Piece>, render: SqlParam -> string)
    ensures Bound(ps + qs, render) == Bound(ps, render) + Bound(qs, render)
    decreases |ps|
  {
    if |ps| == 0 {
      assert ps + qs == qs;
    } else {
      assert (ps + qs)[1..] == ps[1..] + qs;
      BoundAppend(ps[1..], qs, render);
    }
  }

  lemma AllPlainAppend(ps: seq<Piece>, qs: seq<Piece>)
    requires AllPlain(ps) && AllPlain(qs)
    ensures AllPlain(ps + qs)
  {
    assert forall i :: |ps| <= i < |ps + qs| ==> (ps + qs)[i] == qs[i - |ps|];
  }

  /** One step builds its text and its placeholder. */
  lemma AssembleOne(p: Piece)
    ensures p.value.None? ==> Assemble([p]) == Query(p.text, [])
    ensures p.value.Some? ==> Assemble([p]) == Query(p.text + "?", [p.value.value])
  {
    assert [p][1..] == [];
    assert p.text + "" == p.text;
  }

  /** Three runs of steps build their three texts and value lists one after another. */
  lemma AssembleThree(a: seq<Piece>, b: seq<Piece>, c: seq<Piece>)
    ensures Assemble(a + b + c) == Query(Assemble(a).sql + Assemble(b).sql + Assemble(c).sql,
                                         Assemble(a).params + Assemble(b).params + Assemble(c).params)
  {
    AssembleAppend(a + b, c);
    AssembleAppend(a, b);
  }

  // ---------------------------------------------------------------------------
  // The two builders, over the literal texts they append

  /** The literal texts the builders append: each query's text up to its proposal
      placeholder, the by-validator line after it, and the optional clauses. */
  datatype Texts = Texts(
    optionHead: string,
    validatorHead: string,
    validatorWhere: string,
    optionEquals: string,
    optionIsNull: string,
    orderBy: string,
    limitWord: string,
    offsetWord: string)

  ghost predicate TextsArePlain(t: Texts) {
    && Plain(t.optionHead) && Plain(t.validatorHead) && Plain(t.validatorWhere)
    && Plain(t.optionEquals) && Plain(t.optionIsNull) && Plain(t.orderBy)
    && Plain(t.limitWord) && Plain(t.offsetWord)
  }

  /** `LIMIT ? OFFSET ?` with the page size and the row offset `offset * limit`. */
  function Paging(t: Texts, req: VoteRequest): seq<Piece> {
    [Piece(t.limitWord, Some(PNum(req.limit))), Piece(t.offsetWord, Some(PNum(req.offset * req.limit)))]
  }

  function LimitClause(t: Texts): string {
    t.limitWord + "?" + t.offsetWord + "?"
  }

  lemma PagingShape(t: Texts, req: VoteRequest)
    ensures Assemble(Paging(t, req)) == Query(LimitClause(t), [PNum(req.limit), PNum(req.offset * req.limit)])
  {
    var l, o := Paging(t, req)[0], Paging(t, req)[1];
    assert Paging(t, req) == [l] + [o];
    AssembleAppend([l], [o]);
    AssembleOne(l);
    AssembleOne(o);
    assert (t.limitWord + "?") + (t.offsetWord + "?") == LimitClause(t);
  }

  /** The by-option filter: an equality with a placeholder unless the option is empty. */
  function OptionFilter(t: Texts, option: string): seq<Piece> {
    if option != "" then [Piece(t.optionEquals, Some(PText(option)))] else []
  }

  function OptionSteps(t: Texts, req: VoteRequest): seq<Piece> {
    [Piece(t.optionHead, Some(PNum(req.proposalId)))] + OptionFilter(t, req.option) + ([Piece(t.orderBy, None)] + Paging(t, req))
  }

  lemma OptionStepsArePlain(t: Texts, req: VoteRequest)
    requires TextsArePlain(t)
    ensures AllPlain(OptionSteps(t, req))
  {
    var head := [Piece(t.optionHead, Some(PNum(req.proposalId)))];
    var order := [Piece(t.orderBy, None)];
    AllPlainAppend(order, Paging(t, req));
    AllPlainAppend(head, OptionFilter(t, req.option));
    AllPlainAppend(head + OptionFilter(t, req.option), order + Paging(t, req));
  }

  lemma OptionStepsShape(t: Texts, req: VoteRequest)
    ensures Assemble(OptionSteps(t, req)) == Query(
      t.optionHead + "?" + (if req.option != "" then t.optionEquals + "?" else "") + t.orderBy + LimitClause(t),
      [PNum(req.proposalId)] + (if req.option != "" then [PText(req.option)] else [])
      + [PNum(req.limit), PNum(req.offset * req.limit)])
  {
    var head := Piece(t.optionHead, Some(PNum(req.proposalId)));
    var order := Piece(t.orderBy, None);
    var filter := OptionFilter(t, req.option);
    var f := if req.option != "" then t.optionEquals + "?" else "";
    var fp := if req.option != "" then [PText(req.option)] else [];
    var pp := [PNum(req.limit), PNum(req.offset * req.limit)];
    PagingShape(t, req);
    AssembleThree([head], filter, [order] + Paging(t, req));
    AssembleAppend([order], Paging(t, req));
    AssembleOne(head);
    AssembleOne(order);
    assert Assemble(filter) == Query(f, fp) by {
      if req.option != "" {
        AssembleOne(filter[0]);
      } else {
        assert filter == [];
      }
    }
    assert Assemble([order] + Paging(t, req)) == Query(t.orderBy + LimitClause(t), [] + pp);
    assert (t.optionHead + "?" + f) + (t.orderBy + LimitClause(t)) == t.optionHead + "?" + f + t.orderBy + LimitClause(t);
    assert [] + pp == pp;
  }

  /** The option filter of the by-validator query: none for `''`, a null test for the text
      `'null'`, an equality with a placeholder otherwise. */
  function ValidatorFilter(t: Texts, option: string): seq<Piece> {
    if option == "" then []
    else if option == "null" then [Piece(t.optionIsNull, None)]
    else [Piece(t.optionEquals, Some(PText(option)))]
  }

  function ValidatorSteps(t: Texts, req: VoteRequest, isLimit: bool): seq<Piece> {
    [Piece(t.validatorHead, Some(PNum(req.proposalId))), Piece(t.validatorWhere, None)]
    + ValidatorFilter(t, req.option)
    + (if isLimit then Paging(t, req) else [])
  }

  lemma ValidatorStepsArePlain(t: Texts, req: VoteRequest, isLimit: bool)
    requires TextsArePlain(t)
    ensures AllPlain(ValidatorSteps(t, req, isLimit))
  {
    var head := [Piece(t.validatorHead, Some(PNum(req.proposalId))), Piece(t.validatorWhere, None)];
    AllPlainAppend(head, ValidatorFilter(t, req.option));
    AllPlainAppend(head + ValidatorFilter(t, req.option), if isLimit then Paging(t, req) else []);
  }

  lemma ValidatorStepsShape(t: Texts, req: VoteRequest, isLimit: bool)
    ensures Assemble(ValidatorSteps(t, req, isLimit)) == Query(
      t.validatorHead + "?" + t.validatorWhere
      + (if req.option == "" then "" else if req.option == "null" then t.optionIsNull else t.optionEquals + "?")
      + (if isLimit then LimitClause(t) else ""),
      [PNum(req.proposalId)]
      + (if req.option != "" && req.option != "null" then [PText(req.option)] else [])
      + (if isLimit then [PNum(req.limit), PNum(req.offset * req.limit)] else []))
  {
    var first, where := Piece(t.validatorHead, Some(PNum(req.proposalId))), Piece(t.validatorWhere, None);
    var filter := ValidatorFilter(t, req.option);
    var paging := if isLimit then Paging(t, req) else [];
    PagingShape(t, req);
    AssembleThree([first, where], filter, paging);
    assert [first, where] == [first] + [where];
    AssembleAppend([first], [where]);
    AssembleOne(first);
    AssembleOne(where);
    if req.option != "" {
      AssembleOne(filter[0]);
    } else {
      assert filter == [];
    }
    if !isLimit {
      assert paging == [];
    }
  }

  lemma OptionStepsBound(t: Texts, req: VoteRequest, render: SqlParam -> string)
    ensures Bound(OptionSteps(t, req), render)
      == (t.optionHead + render(PNum(req.proposalId))
              + (if req.option != "" then t.optionEquals + render(PText(req.option)) else "")
              + t.orderBy + t.limitWord + render(PNum(req.limit)) + t.offsetWord + render(PNum(req.offset * req.limit)))
  {
    var head := Piece(t.optionHead, Some(PNum(req.proposalId)));
    var order := Piece(t.orderBy, None);
    var filter := OptionFilter(t, req.option);
    BoundThree([head], filter, [order] + Paging(t, req), render);
    assert Bound([order] + Paging(t, req), render)
        == t.orderBy + (t.limitWord + render(PNum(req.limit)) + t.offsetWord + render(PNum(req.offset * req.limit))) by {
      BoundAppend([order], Paging(t, req), render);
      BoundOne(order, render);
      PagingBound(t, req, render);
    }
    BoundOne(head, render);
    var f := if req.option != "" then t.optionEquals + render(PText(req.option)) else "";
    assert Bound(filter, render) == f by {
      if req.option != "" {
        BoundOne(filter[0], render);
      } else {
        assert filter == [];
      }
    }
    Regroup(t.optionHead, render(PNum(req.proposalId)), f, t.orderBy,
            t.limitWord, render(PNum(req.limit)), t.offsetWord, render(PNum(req.offset * req.limit)));
  }

  lemma ValidatorStepsBound(t: Texts, req: VoteRequest, isLimit: bool, render: SqlParam -> string)
    ensures Bound(ValidatorSteps(t, req, isLimit), render)
      == (t.validatorHead + render(PNum(req.proposalId)) + t.validatorWhere
              + (if req.option == "" then ""
                 else if req.option == "null" then t.optionIsNull
                 else t.optionEquals + render(PText(req.option)))
              + (if isLimit then t.limitWord + render(PNum(req.limit)) + t.offsetWord + render(PNum(req.offset * req.limit))
                 else ""))
  {
    var first, where := Piece(t.validatorHead, Some(PNum(req.proposalId))), Piece(t.validatorWhere, None);
    var filter := ValidatorFilter(t, req.option);
    var paging := if isLimit then Paging(t, req) else [];
    var h := t.validatorHead + render(PNum(req.proposalId)) + t.validatorWhere;
    var f := if req.option == "" then ""
             else if req.option == "null" then t.optionIsNull
             else t.optionEquals + render(PText(req.option));
    var l := if isLimit then t.limitWord + render(PNum(req.limit)) + t.offsetWord + render(PNum(req.offset * req.limit))
             else "";
    BoundThree([first, where], filter, paging, render);
    assert Bound([first, where], render) == h by {
      assert [first, where] == [first] + [where];
      BoundAppend([first], [where], render);
      BoundOne(first, render);
      BoundOne(where, render);
    }
    assert Bound(filter, render) == f by {
      if req.option != "" {
        BoundOne(filter[0], render);
      } else {
        assert filter == [];
      }
    }
    assert Bound(paging, render) == l by {
      if isLimit {
        PagingBound(t, req, render);
      } else {
        assert paging == [];
      }
    }
  }

  lemma PagingBound(t: Texts, req: VoteRequest, render: SqlParam -> string)
    ensures Bound(Paging(t, req), render)
      == t.limitWord + render(PNum(req.limit)) + t.offsetWord + render(PNum(req.offset * req.limit))
  {
    var paging := Paging(t, req);
    assert paging == [paging[0]] + [paging[1]];
    BoundAppend([paging[0]], [paging[1]], render);
    BoundOne(paging[0], render);
    BoundOne(paging[1], render);
    var l, o := render(PNum(req.limit)), render(PNum(req.offset * req.limit));
    assert (t.limitWord + l) + (t.offsetWord + o) == t.limitWord + l + t.offsetWord + o;
  }

  /** A by-option query over texts `t`: the proposal, the option unless it is empty, then
      the page size and the row offset `offset * limit`, one placeholder per value, and the
      ordering ahead of the paging clause. */
  predicate IsOptionQuery(t: Texts, req: VoteRequest, q: Query) {
    && q.params == [PNum(req.proposalId)] + (if req.option != "" then [PText(req.option)] else [])
                   + [PNum(req.limit), PNum(req.offset * req.limit)]
    && Placeholders(q.sql) == |q.params|
    && q.sql == t.optionHead + "?" + (if req.option != "" then t.optionEquals + "?" else "") + t.orderBy + LimitClause(t)
  }

  /** The by-option text the driver runs: each value in its own slot, the proposal after the
      head, the option after the equality, the page size after `LIMIT` and the row offset
      after `OFFSET`. */
  function OptionText(t: Texts, req: VoteRequest, render: SqlParam -> string): string {
    t.optionHead + render(PNum(req.proposalId))
    + (if req.option != "" then t.optionEquals + render(PText(req.option)) else "")
    + t.orderBy + t.limitWord + render(PNum(req.limit)) + t.offsetWord + render(PNum(req.offset * req.limit))
  }

  lemma OptionStepsMeet(t: Texts, req: VoteRequest)
    requires TextsArePlain(t)
    ensures IsOptionQuery(t, req, Assemble(OptionSteps(t, req)))
  {
    OptionStepsShape(t, req);
    OptionStepsArePlain(t, req);
    AssembleCounts(OptionSteps(t, req));
  }

  lemma OptionStepsBind(t: Texts, req: VoteRequest, render: SqlParam -> string)
    requires TextsArePlain(t)
    ensures Bind(Assemble(OptionSteps(t, req)).sql, Assemble(OptionSteps(t, req)).params, render)
            == Some(OptionText(t, req, render))
  {
    OptionStepsArePlain(t, req);
    AssembleBinds(OptionSteps(t, req), render);
    OptionStepsBound(t, req, render);
  }

  /** A by-validator query over texts `t`: the proposal, the option unless it is empty or the
      text `'null'` (which becomes a null test), and the page size and row offset exactly when
      `isLimit`; one placeholder per value. */
  predicate IsValidatorQuery(t: Texts, req: VoteRequest, isLimit: bool, q: Query) {
    && q.params == [PNum(req.proposalId)]
                   + (if req.option != "" && req.option != "null" then [PText(req.option)] else [])
                   + (if isLimit then [PNum(req.limit), PNum(req.offset * req.limit)] else [])
    && Placeholders(q.sql) == |q.params|
    && q.sql == t.validatorHead + "?" + t.validatorWhere
                + (if req.option == "" then "" else if req.option == "null" then t.optionIsNull else t.optionEquals + "?")
                + (if isLimit then LimitClause(t) else "")
  }

  /** The by-validator text the driver runs. */
  function ValidatorText(t: Texts, req: VoteRequest, isLimit: bool, render: SqlParam -> string): string {
    t.validatorHead + render(PNum(req.proposalId)) + t.validatorWhere
    + (if req.option == "" then ""
       else if req.option == "null" then t.optionIsNull
       else t.optionEquals + render(PText(req.option)))
    + (if isLimit then t.limitWord + render(PNum(req.limit)) + t.offsetWord + render(PNum(req.offset * req.limit))
       else "")
  }

  lemma ValidatorStepsMeet(t: Texts, req: VoteRequest, isLimit: bool)
    requires TextsArePlain(t)
    ensures IsValidatorQuery(t, req, isLimit, Assemble(ValidatorSteps(t, req, isLimit)))
  {
    ValidatorStepsShape(t, req, isLimit);
    ValidatorStepsArePlain(t, req, isLimit);
    AssembleCounts(ValidatorSteps(t, req, isLimit));
  }

  lemma ValidatorStepsBind(t: Texts, req: VoteRequest, isLimit: bool, render: SqlParam -> string)
    requires TextsArePlain(t)
    ensures Bind(Assemble(ValidatorSteps(t, req, isLimit)).sql, Assemble(ValidatorSteps(t, req, isLimit)).params, render)
            == Some(ValidatorText(t, req, isLimit, render))
  {
    ValidatorStepsArePlain(t, req, isLimit);
    AssembleBinds(ValidatorSteps(t, req, isLimit), render);
    ValidatorStepsBound(t, req, isLimit, render);
  }

  // ---------------------------------------------------------------------------
  // The literal SQL of the repository, line by line, in short pieces. Each line is cut into
  // literals of a dozen or so characters because proving `'?' !in` a literal costs the
  // verifier more the longer the literal is; the concatenation is the line as written.

  /** The indentation of the continuation lines, and of the nested ones. */
  function Indent(): string {
    "            "
  }
  function Nested(): string {
    Indent() + "    "
  }

  function OptionColumns(): string {
    "SELECT pv.*, " + "v.identity " + "AS " + "validator_identity\n"
  }
  function OptionFrom(): string {
    Indent() + "FROM " + "proposal_votes " + "pv\n"
  }
  function OptionJoin(): string {
    Nested() + "LEFT JOIN " + "validators v " + "ON pv.voter " + "= " + "v.acc_address\n"
  }
  function OptionWhere(): string {
    Indent() + "WHERE " + "pv.proposal_id " + "= "
  }

  /** The votes-by-option query up to its proposal placeholder. */
  function OptionHead(): string {
    OptionColumns() + OptionFrom() + OptionJoin() + OptionWhere()
  }

  /** The first line of the by-validator query holds the validator columns and then the
      vote columns. */
  function ValidatorColumns(): string {
    "SELECT " + "v.title AS " + "validator_name, " + "v.acc_address " + "AS "
    + "validator_address, " + "pv.tx_hash, " + "pv.option, "
  }
  function VoteColumns(): string {
    "pv.created_at, " + "pv.updated_at, " + "v.operator_address,\n"
  }
  function ValidatorRankColumns(): string {
    Nested() + "vv.rank, " + "v.identity " + "AS " + "validator_identity\n"
  }
  function ValidatorFrom(): string {
    Indent() + "FROM " + "validators v\n"
  }
  function ValidatorInnerJoin(): string {
    Indent() + "INNER JOIN (\n"
  }
  function ValidatorSubselect(): string {
    Nested() + "SELECT *,\n"
  }

  /** The validator ordering the rank is computed by and the subquery is sorted by. */
  function RankOrdering(): string {
    "FIELD(status, " + "3, 2, 1), " + "jailed ASC, " + "power DESC, " + "updated_at " + "DESC"
  }
  function ValidatorRank(): string {
    Nested() + "RANK() " + "OVER(ORDER BY " + RankOrdering() + ") as " + "'rank'\n"
  }
  function ValidatorRankOrder(): string {
    Nested() + "FROM " + "validators " + "ORDER BY " + RankOrdering() + "\n"
  }
  function ValidatorOn(): string {
    Indent() + ")  vv ON " + "v.operator_address " + "= " + "vv.operator_address\n"
  }
  function ValidatorVotesJoin(): string {
    Nested() + "LEFT JOIN " + "proposal_votes " + "pv ON " + "v.acc_address " + "= "
    + "pv.voter AND " + "pv.proposal_id " + "= "
  }

  /** The votes-by-validator query up to its proposal placeholder, and the line after it. */
  function ValidatorHead(): string {
    ValidatorColumns() + VoteColumns() + ValidatorRankColumns() + ValidatorFrom()
    + ValidatorInnerJoin() + ValidatorSubselect() + ValidatorRank() + ValidatorRankOrder()
    + ValidatorOn() + ValidatorVotesJoin()
  }
  function ValidatorWhere(): string {
    "\n" + Nested() + "WHERE " + "v.status = 3"
  }

  function OptionEquals(): string {
    " AND " + "pv.option = "
  }
  function OptionIsNull(): string {
    " AND " + "pv.option " + "IS null"
  }
  function OrderBy(): string {
    " ORDER BY " + "pv.updated_at " + "DESC"
  }
  function LimitWord(): string {
    " LIMIT "
  }
  function OffsetWord(): string {
    " OFFSET "
  }

  /** The texts the repository appends. */
  function RepositoryTexts(): Texts {
    Texts(OptionHead(), ValidatorHead(), ValidatorWhere(), OptionEquals(), OptionIsNull(), OrderBy(),
          LimitWord(), OffsetWord())
  }

  lemma PlainAppend(a: string, b: string)
    requires Plain(a) && Plain(b)
    ensures Plain(a + b)
  {
  }

  lemma IndentIsPlain()
    ensures Plain(Indent()) && Plain(Nested())
  {
  }

  lemma OptionColumnsArePlain()
    ensures Plain(OptionColumns()) && Plain(OptionFrom())
  {
    IndentIsPlain();
  }

  lemma OptionJoinIsPlain()
    ensures Plain(OptionJoin())
  {
    IndentIsPlain();
  }

  lemma OptionClausesArePlain()
    ensures Plain(OptionWhere()) && Plain(OptionEquals()) && Plain(OrderBy())
  {
    IndentIsPlain();
  }

  lemma ShortClausesArePlain()
    ensures Plain(LimitWord()) && Plain(OffsetWord()) && Plain(OptionIsNull())
  {
  }

  lemma ValidatorColumnsArePlain()
    ensures Plain(ValidatorColumns())
  {
  }

  lemma VoteColumnsArePlain()
    ensures Plain(VoteColumns()) && Plain(ValidatorFrom())
  {
    IndentIsPlain();
  }

  lemma ValidatorRankColumnsArePlain()
    ensures Plain(ValidatorRankColumns()) && Plain(ValidatorInnerJoin())
  {
    IndentIsPlain();
  }

  lemma RankOrderingIsPlain()
    ensures Plain(RankOrdering()) && Plain(ValidatorSubselect())
  {
    IndentIsPlain();
  }

  lemma ValidatorRankIsPlain()
    ensures Plain(ValidatorRank())
  {
    IndentIsPlain();
    RankOrderingIsPlain();
  }

  lemma ValidatorRankOrderIsPlain()
    ensures Plain(ValidatorRankOrder())
  {
    IndentIsPlain();
    RankOrderingIsPlain();
  }

  lemma ValidatorOnIsPlain()
    ensures Plain(ValidatorOn()) && Plain(ValidatorWhere())
  {
    IndentIsPlain();
  }

  lemma ValidatorVotesJoinIsPlain()
    ensures Plain(ValidatorVotesJoin())
  {
    IndentIsPlain();
  }

  lemma OptionHeadIsPlain()
    ensures Plain(OptionHead())
  {
    OptionColumnsArePlain();
    OptionJoinIsPlain();
    OptionClausesArePlain();
  }

  lemma ValidatorHeadIsPlain()
    ensures Plain(ValidatorHead())
  {
    ValidatorColumnsArePlain();
    VoteColumnsArePlain();
    ValidatorRankColumnsArePlain();
    RankOrderingIsPlain();
    ValidatorRankIsPlain();
    ValidatorRankOrderIsPlain();
    ValidatorOnIsPlain();
    ValidatorVotesJoinIsPlain();
  }

  /** None of the repository's literal texts holds a placeholder of its own. */
  lemma RepositoryTextsArePlain()
    ensures TextsArePlain(RepositoryTexts())
  {
    OptionHeadIsPlain();
    ValidatorHeadIsPlain();
    OptionClausesArePlain();
    ShortClausesArePlain();
    ValidatorOnIsPlain();
  }

  // ---------------------------------------------------------------------------
  // The two queries

  /** `getProposalVotesByOption` with the repository's texts. */
  function VotesByOption(req: VoteRequest): (q: Query)
    ensures IsOptionQuery(RepositoryTexts(), req, q)
  {
    RepositoryTextsArePlain();
    OptionStepsMeet(RepositoryTexts(), req);
    Assemble(OptionSteps(RepositoryTexts(), req))
  }

  /** Bound by the driver, each by-option value sits in its own slot. */
  lemma VotesByOptionBinds(req: VoteRequest, render: SqlParam -> string)
    ensures Bind(VotesByOption(req).sql, VotesByOption(req).params, render) == Some(OptionText(RepositoryTexts(), req, render))
  {
    RepositoryTextsArePlain();
    OptionStepsBind(RepositoryTexts(), req, render);
  }

  /** `getProposalVotesByValidator` with the repository's texts. */
  function VotesByValidator(req: VoteRequest, isLimit: bool): (q: Query)
    ensures IsValidatorQuery(RepositoryTexts(), req, isLimit, q)
  {
    RepositoryTextsArePlain();
    ValidatorStepsMeet(RepositoryTexts(), req, isLimit);
    Assemble(ValidatorSteps(RepositoryTexts(), req, isLimit))
  }

  /** Bound by the driver, the by-validator query filters on the proposal and the option as
      requested and pages by `offset * limit` only when `isLimit`. */
  lemma VotesByValidatorBinds(req: VoteRequest, isLimit: bool, render: SqlParam -> string)
    ensures Bind(VotesByValidator(req, isLimit).sql, VotesByValidator(req, isLimit).params, render)
            == Some(ValidatorText(RepositoryTexts(), req, isLimit, render))
  {
    RepositoryTextsArePlain();
    ValidatorStepsBind(RepositoryTexts(), req, isLimit, render);
  }
}

=== FILE: results.dfy ===
/** Failure-carrying wrappers shared by every module of the model. */
module Results {

  /** A value that may be absent (JavaScript `undefined`, a missing row, a failed lookup). */
  datatype Option<+T> = None | Some(value: T) {

    /** The wrapped value, or `default` when absent. */
    function GetOr(default: T): T {
      match this
      case Some(v) => v
      case None => default
    }
  }

  /** The outcome of an operation that may throw: `Err` carries a short reason. */
  datatype Result<+T> = Ok(value: T) | Err(reason: string)
}

=== FILE: staking_txs.dfy ===
/** The staking listing of src/components/transaction/services/transaction.service.ts
    (`getTransactionsByAddress`): each successful transaction whose first log entry holds a
    staking event takes that event's type, and its `amount` attribute is shown in display
    units with six decimals. */
module StakingTxs {
  import opened Results
  import opened Lists
  import opened Text
  import opened Chain
  import Constants

  /** A transaction row as the repository returns it. `log` is `JSON.parse(raw_log)`, `None`
      when the text is not JSON; `kind` is the `type` property, `None` for `undefined`;
      `amount` is the `amount` property, `None` while it is not set. */
  datatype TxRow = TxRow(txHash: string, code: int, log: Option<seq<LogEntry>>, kind: Option<string>, amount: Option<string>)

  /** The event types the listing re-labels by. The fourth alternative of the source,
      `CONST_CHAR.CREATE_VALIDATOR`, is not declared among the constants and reads as
      `undefined`, so it matches an event without a type. */
  predicate IsStakingKind(kind: Option<string>) {
    kind == Some(Constants.DELEGATE) || kind == Some(Constants.UNBOND)
    || kind == Some(Constants.REDELEGATE) || kind.None?
  }

  predicate IsStakingEvent(e: Event) {
    IsStakingKind(e.kind)
  }

  predicate IsAmount(a: Attribute) {
    a.key == Constants.AMOUNT
  }

  /** The amount text `parseInt` reads: every `_` turned into a space, then the first
      occurrence of the denom removed. */
  function Cleaned(value: string, denom: string): (r: string)
    ensures '_' !in r && |r| <= |value|
    ensures var t := ReplaceChar(value, '_', ' ');
      (forall j :: 0 <= j <= |t| ==> !OccursAt(t, denom, j)) ==> r == t
    ensures var t := ReplaceChar(value, '_', ' ');
      forall i: nat :: FirstOccurrence(t, denom, i) ==> r == t[..i] + t[i + |denom|..]
  {
    RemoveFirst(ReplaceChar(value, '_', ' '), denom)
  }

  /** Only the first occurrence of the denom goes: `<denom><n><denom>`, such as `uaura5uaura`,
      is cleaned to `<n><denom>`, which `parseInt` reads as `n`; removing the last occurrence
      instead would leave `<denom><n>`, which reads as `NaN`. */
  lemma CleanedRemovesFirstDenom(n: nat, denom: string)
    requires |denom| > 0 && '_' !in denom
    requires !IsDigitIn(denom[0], 10) && denom[0] != 'x' && denom[0] != 'X'
    requires !IsJsSpace(denom[0]) && denom[0] != '-' && denom[0] != '+'
    ensures Cleaned(denom + NatToString(n) + denom, denom) == NatToString(n) + denom
    ensures ParseInt(Cleaned(denom + NatToString(n) + denom, denom)) == Some(n)
    ensures ParseInt(denom + NatToString(n)) == None
  {
    CleanedDenomAround(NatToString(n), denom);
    ParseIntOfRendered(n, denom);
    ParseIntOfNonNumeric(denom + NatToString(n));
  }

  /** Cleaning `<denom><digits><denom>` leaves `<digits><denom>`. */
  lemma CleanedDenomAround(d: string, denom: string)
    requires |denom| > 0 && '_' !in denom && '_' !in d
    ensures Cleaned(denom + d + denom, denom) == d + denom
  {
    var rest := d + denom;
    var v := denom + d + denom;
    assert v == denom + rest;
    assert '_' !in v;
    var t := ReplaceChar(v, '_', ' ');
    assert t == v;
    assert OccursAt(t, denom, 0) by { assert t[..|denom|] == denom; }
    assert FirstOccurrence(t, denom, 0);
    assert t[|denom|..] == rest;
  }

  /** Text that starts with neither white space, a sign nor a digit reads as `NaN`. */
  lemma ParseIntOfNonNumeric(w: string)
    requires |w| > 0 && !IsJsSpace(w[0]) && w[0] != '-' && w[0] != '+' && !IsDigitIn(w[0], 10)
    ensures ParseInt(w) == None
  {
    assert TrimStart(w) == w;
    assert !HasHexPrefix(w);
  }

  /** `(parseInt(cleaned) / PRECISION_DIV).toFixed(6)`: the displayed text denotes exactly the
      micro-units `parseInt` reads, and is `NaN` when it reads none. */
  function DisplayAmount(value: string, denom: string): (r: string)
    ensures MicroValue(r) == ParseInt(Cleaned(value, denom))
    ensures ParseInt(Cleaned(value, denom)).None? <==> r == "NaN"
  {
    match ParseInt(Cleaned(value, denom))
    case None => "NaN"
    case Some(n) =>
      MicroRoundTrip(n);
      FormatMicro(n)
  }

  /** One transaction of the listing. A failed transaction (`code !== 0`) and one without a
      staking event are passed through. For the others the type becomes the event's type and
      the amount is set from its `amount` attribute. A `raw_log` that is not a JSON array with
      a first entry, or a staking event without an `amount` attribute, makes the call throw. */
  function Relabel(tx: TxRow, denom: string): (r: Result<TxRow>)
    ensures tx.code != 0 ==> r == Ok(tx)
    ensures tx.code == 0 && (tx.log.None? || |tx.log.value| == 0) ==> r.Err?
    ensures tx.code == 0 && tx.log.Some? && |tx.log.value| > 0 ==>
      var events := tx.log.value[0].events;
      && ((forall i :: 0 <= i < |events| ==> !IsStakingEvent(events[i])) ==> r == Ok(tx))
      && forall i :: 0 <= i < |events| && IsStakingEvent(events[i])
                       && (forall j :: 0 <= j < i ==> !IsStakingEvent(events[j])) ==>
           var e := events[i];
           && ((forall k :: 0 <= k < |e.attributes| ==> !IsAmount(e.attributes[k])) <==> r.Err?)
           && (r.Ok? ==> r.value == tx.(kind := e.kind,
                                        amount := Some(DisplayAmount(FirstMatch(e.attributes, IsAmount).value.value, denom))))
  {
    if tx.code != 0 then Ok(tx)
    else if tx.log.None? || |tx.log.value| == 0 then Err("raw_log has no first entry")
    else
      var events := tx.log.value[0].events;
      var found := FirstMatch(events, IsStakingEvent);
      match found
      case None => Ok(tx)
      case Some(e) =>
        FirstMatchAt(events, IsStakingEvent);
        match FirstMatch(e.attributes, IsAmount)
        case None => Err("the staking event has no amount")
        case Some(a) => Ok(tx.(kind := e.kind, amount := Some(DisplayAmount(a.value, denom))))
  }

  datatype Listing = Listing(transactions: seq<TxRow>, count: int)

  /** `getTransactionsByAddress` over one repository page: every row re-labelled in order,
      the repository's total passed through, and the whole call failing when one row throws. */
  function ByAddress(transactions: seq<TxRow>, total: int, denom: string): (r: Result<Listing>)
    ensures r.Err? <==> exists i :: 0 <= i < |transactions| && Relabel(transactions[i], denom).Err?
    ensures r.Ok? ==>
      && r.value.count == total
      && |r.value.transactions| == |transactions|
      && forall i :: 0 <= i < |transactions| ==> r.value.transactions[i] == Relabel(transactions[i], denom).value
    decreases |transactions|
  {
    if |transactions| == 0 then Ok(Listing([], total))
    else
      match Relabel(transactions[0], denom)
      case Err(e) => Err(e)
      case Ok(first) =>
        match ByAddress(transactions[1..], total, denom)
        case Err(e) =>
          assert forall i :: 1 <= i < |transactions| ==> transactions[i] == transactions[1..][i - 1];
          Err(e)
        case Ok(rest) =>
          assert forall i :: 1 <= i < |transactions| ==> transactions[i] == transactions[1..][i - 1];
          Ok(Listing([first] + rest.transactions, total))
  }

  /** Re-labelling reads only the code and the log, so a re-labelled row is left as it is. */
  lemma RelabelIsIdempotent(tx: TxRow, denom: string)
    requires Relabel(tx, denom).Ok?
    ensures Relabel(Relabel(tx, denom).value, denom) == Relabel(tx, denom)
  {
  }

  /** A row the listing changes gets the type delegate, unbond, redelegate or `undefined`,
      never another event type such as `create_validator`. */
  lemma RelabelledKindIsStaking(tx: TxRow, denom: string)
    requires Relabel(tx, denom).Ok?
    ensures var r := Relabel(tx, denom).value;
      r == tx || (IsStakingKind(r.kind) && r.kind != Some("create_validator"))
  {
  }

  /** An amount written as the decimal micro-units followed by the denom is shown as those
      micro-units in display units: `1000000uaura` reads as `1.000000`. */
  lemma CoinAmountDisplay(n: nat, denom: string)
    requires |denom| > 0 && '_' !in denom
    requires !IsDigitIn(denom[0], 10) && denom[0] != 'x' && denom[0] != 'X'
    ensures DisplayAmount(NatToString(n) + denom, denom) == FormatMicro(n)
  {
    var digits := NatToString(n);
    assert '_' !in digits;
    ReplaceCharAppend(digits, denom, '_', ' ');
    assert denom[0] !in digits;
    RemoveFirstOfSuffix(digits, denom);
    assert IntToString(n) + [] == digits;
    ParseIntOfRendered(n, []);
  }
}

=== FILE: text.dfy ===
/** The JavaScript string operations the services rely on, over `seq<char>`:
    counting a character, `replace(/c/g, d)`, `replace(str, '')`, decimal rendering,
    `parseInt` and `(x / 1e6).toFixed(6)` on integer micro-units. */
module Text {
  import opened Results
  import Constants

  /** Number of occurrences of `c` in `s`. */
  function CountChar(s: string, c: char): (n: nat)
    ensures n <= |s|
    ensures n == 0 <==> c !in s
    decreases |s|
  {
    if |s| == 0 then 0
    else (if s[0] == c then 1 else 0) + CountChar(s[1..], c)
  }

  /** Counting distributes over concatenation. */
  lemma {:induction false} CountCharAppend(a: string, b: string, c: char)
    ensures CountChar(a + b, c) == CountChar(a, c) + CountChar(b, c)
    decreases |a|
  {
    if |a| == 0 {
      assert a + b == b;
    } else {
      assert (a + b)[1..] == a[1..] + b;
      CountCharAppend(a[1..], b, c);
    }
  }

  /** `s.replace(/from/g, to)` for a one-character pattern. */
  function ReplaceChar(s: string, from: char, to: char): (r: string)
    ensures |r| == |s|
    ensures forall i :: 0 <= i < |s| ==> r[i] == (if s[i] == from then to else s[i])
    ensures from != to ==> from !in r
    ensures from !in s ==> r == s
    decreases |s|
  {
    if |s| == 0 then []
    else [if s[0] == from then to else s[0]] + ReplaceChar(s[1..], from, to)
  }

  /** Replacing characters distributes over concatenation. */
  lemma ReplaceCharAppend(a: string, b: string, from: char, to: char)
    ensures ReplaceChar(a + b, from, to) == ReplaceChar(a, from, to) + ReplaceChar(b, from, to)
  {
    var l, r := ReplaceChar(a + b, from, to), ReplaceChar(a, from, to) + ReplaceChar(b, from, to);
    assert |l| == |r|;
    forall k | 0 <= k < |l| ensures l[k] == r[k] {
      if k >= |a| { assert (a + b)[k] == b[k - |a|]; }
    }
  }

  /** `pat` occurs in `s` starting at index `i`. */
  predicate OccursAt(s: string, pat: string, i: nat) {
    i + |pat| <= |s| && s[i..i + |pat|] == pat
  }

  /** `i` is the first index of `s` where `pat` occurs. */
  predicate FirstOccurrence(s: string, pat: string, i: nat) {
    OccursAt(s, pat, i) && forall j :: 0 <= j < i ==> !OccursAt(s, pat, j)
  }

  /** `s.indexOf(pat, from)`: the first index at or after `from` where `pat` occurs. */
  function IndexOf(s: string, pat: string, from: nat): (r: Option<nat>)
    requires from <= |s|
    ensures r.Some? ==> from <= r.value && OccursAt(s, pat, r.value)
    ensures r.Some? ==> forall j :: from <= j < r.value ==> !OccursAt(s, pat, j)
    ensures r.None? ==> forall j :: from <= j <= |s| ==> !OccursAt(s, pat, j)
    decreases |s| - from
  {
    if OccursAt(s, pat, from) then Some(from)
    else if from == |s| then None
    else IndexOf(s, pat, from + 1)
  }

  /** `s.replace(pat, '')` with a string pattern: only the first occurrence is removed. */
  function RemoveFirst(s: string, pat: string): (r: string)
    ensures (forall j :: 0 <= j <= |s| ==> !OccursAt(s, pat, j)) ==> r == s
    ensures IndexOf(s, pat, 0).Some? ==> |r| + |pat| == |s|
    ensures |r| <= |s| && forall c :: c in r ==> c in s
    ensures forall i: nat :: FirstOccurrence(s, pat, i) ==> r == s[..i] + s[i + |pat|..]
  {
    match IndexOf(s, pat, 0)
    case None => s
    case Some(i) => s[..i] + s[i + |pat|..]
  }

  /** A pattern appended to a text in which its first character never appears is removed
      exactly: `(d + pat).replace(pat, '') == d`. */
  lemma RemoveFirstOfSuffix(d: string, pat: string)
    requires |pat| == 0 || pat[0] !in d
    ensures RemoveFirst(d + pat, pat) == d
  {
    var s := d + pat;
    assert OccursAt(s, pat, |d|);
    if |pat| == 0 {
      assert OccursAt(s, pat, 0);
      assert IndexOf(s, pat, 0) == Some(0);
    } else {
      forall j | 0 <= j < |d| ensures !OccursAt(s, pat, j) {
        assert s[j] == d[j] != pat[0];
        if j + |pat| <= |s| { assert s[j..j + |pat|][0] == s[j]; }
      }
      var k := IndexOf(s, pat, 0);
      assert k.Some?;
      assert k.value == |d|;
      assert s[..|d|] == d;
      assert s[|d| + |pat|..] == [];
    }
  }

  // ---------------------------------------------------------------------------
  // Digits

  /** The value of `c` as a digit in a radix up to 36, or -1 when it is not one. */
  function DigitValue(c: char): int {
    if '0' <= c <= '9' then c as int - '0' as int
    else if 'a' <= c <= 'z' then c as int - 'a' as int + 10
    else if 'A' <= c <= 'Z' then c as int - 'A' as int + 10
    else -1
  }

  predicate IsDigitIn(c: char, radix: nat) {
    0 <= DigitValue(c) < radix
  }

  predicate AllDigitsIn(s: string, radix: nat) {
    forall i :: 0 <= i < |s| ==> IsDigitIn(s[i], radix)
  }

  /** The number a string of digits denotes in `radix`, most significant digit first. */
  function DigitsValue(s: string, radix: nat): nat
    requires AllDigitsIn(s, radix)
    decreases |s|
  {
    if |s| == 0 then 0
    else DigitsValue(s[..|s| - 1], radix) * radix + DigitValue(s[|s| - 1])
  }

  /** `Number(s)` for a text of decimal digits, the empty text counting as 0; `None` (NaN)
      when some character is not a decimal digit. */
  function DecimalValue(s: string): Option<nat>
    decreases |s|
  {
    if |s| == 0 then Some(0)
    else if !IsDigitIn(s[|s| - 1], 10) then None
    else
      match DecimalValue(s[..|s| - 1])
      case None => None
      case Some(v) => Some(v * 10 + DigitValue(s[|s| - 1]))
  }

  /** The coercion succeeds exactly on digit texts, with their decimal value. */
  lemma {:induction false} DecimalValueDigits(s: string)
    ensures DecimalValue(s).Some? <==> AllDigitsIn(s, 10)
    ensures DecimalValue(s).Some? ==> DecimalValue(s).value == DigitsValue(s, 10)
    decreases |s|
  {
    if |s| > 0 {
      var init := s[..|s| - 1];
      DecimalValueDigits(init);
      assert forall i :: 0 <= i < |init| ==> init[i] == s[i];
    }
  }

  /** Length of the longest prefix of `s` made of digits in `radix`. */
  function DigitPrefixLen(s: string, radix: nat): (k: nat)
    ensures k <= |s| && AllDigitsIn(s[..k], radix)
    ensures k < |s| ==> !IsDigitIn(s[k], radix)
    decreases |s|
  {
    if |s| == 0 || !IsDigitIn(s[0], radix) then 0
    else
      var k := 1 + DigitPrefixLen(s[1..], radix);
      assert s[..k] == [s[0]] + s[1..][..k - 1];
      k
  }

  /** The decimal digit character for `d`. */
  function DigitChar(d: nat): (c: char)
    requires d < 10
    ensures IsDigitIn(c, 10) && DigitValue(c) == d
  {
    ('0' as int + d) as char
  }

  /** `String(n)` for a non-negative integer. */
  function NatToString(n: nat): (s: string)
    ensures |s| >= 1 && AllDigitsIn(s, 10)
    ensures n >= 10 <==> |s| >= 2
    ensures s[0] == '0' <==> n == 0
    decreases n
  {
    if n < 10 then [DigitChar(n)]
    else NatToString(n / 10) + [DigitChar(n % 10)]
  }

  /** `String(i)` for any integer. */
  function IntToString(i: int): (s: string)
    ensures |s| >= 1
    ensures s[0] == '-' <==> i < 0
  {
    if i < 0 then "-" + NatToString(-i) else NatToString(i)
  }

  /** Reading back a rendered natural gives the natural. */
  lemma {:induction false} NatToStringValue(n: nat)
    ensures DigitsValue(NatToString(n), 10) == n
    decreases n
  {
    if n >= 10 {
      var s := NatToString(n);
      assert s[..|s| - 1] == NatToString(n / 10);
      NatToStringValue(n / 10);
    }
  }

  function Pow10(k: nat): (p: nat)
    ensures p >= 1
  {
    if k == 0 then 1 else 10 * Pow10(k - 1)
  }

  /** A natural below 10^k has at most k digits. */
  lemma {:induction false} NatToStringLength(n: nat, k: nat)
    requires 1 <= k && n < Pow10(k)
    ensures |NatToString(n)| <= k
    decreases k
  {
    if n >= 10 {
      assert n / 10 < Pow10(k - 1);
      NatToStringLength(n / 10, k - 1);
    }
  }

  /** `k` zero characters. */
  function Zeros(k: nat): (z: string)
    ensures |z| == k && AllDigitsIn(z, 10)
    ensures forall i :: 0 <= i < k ==> z[i] == '0'
  {
    seq(k, _ => '0')
  }

  /** Leading zeros do not change the value of a digit string. */
  lemma {:induction false} LeadingZerosValue(k: nat, t: string, radix: nat)
    requires AllDigitsIn(t, radix) && radix >= 1
    ensures AllDigitsIn(Zeros(k) + t, radix)
    ensures DigitsValue(Zeros(k) + t, radix) == DigitsValue(t, radix)
    decreases |t|, k
  {
    var s := Zeros(k) + t;
    assert AllDigitsIn(s, radix) by {
      forall i | 0 <= i < |s| ensures IsDigitIn(s[i], radix) {
        if i >= k { assert s[i] == t[i - k]; }
      }
    }
    if |t| == 0 {
      assert s == Zeros(k);
      if k > 0 {
        assert s[..|s| - 1] == Zeros(k - 1) + t;
        LeadingZerosValue(k - 1, t, radix);
      }
    } else {
      assert s[..|s| - 1] == Zeros(k) + t[..|t| - 1];
      LeadingZerosValue(k, t[..|t| - 1], radix);
    }
  }

  // ---------------------------------------------------------------------------
  // parseInt

  /** The ECMAScript white-space and line-terminator characters `parseInt` skips. */
  predicate IsJsSpace(c: char) {
    c in {'\t', '\n', '\U{000B}', '\U{000C}', '\r', ' ', '\U{00A0}', '\U{1680}',
          '\U{2028}', '\U{2029}', '\U{202F}', '\U{205F}', '\U{3000}', '\U{FEFF}'}
    || ('\U{2000}' <= c <= '\U{200A}')
  }

  /** `s` without its leading white space. */
  function TrimStart(s: string): (t: string)
    ensures |t| <= |s| && t == s[|s| - |t|..]
    ensures |t| > 0 ==> !IsJsSpace(t[0])
    ensures forall i :: 0 <= i < |s| - |t| ==> IsJsSpace(s[i])
    decreases |s|
  {
    if |s| > 0 && IsJsSpace(s[0]) then TrimStart(s[1..]) else s
  }

  /** `parseInt(s)` with no radix: skip white space, read an optional sign, then an
      unsigned number; `None` stands for NaN. */
  function ParseInt(s: string): (r: Option<int>)
    ensures r.Some? && r.value < 0 ==> |TrimStart(s)| > 0 && TrimStart(s)[0] == '-'
  {
    var t := TrimStart(s);
    var negative := |t| > 0 && t[0] == '-';
    var u := if |t| > 0 && (t[0] == '-' || t[0] == '+') then t[1..] else t;
    match ParseUnsigned(u)
    case None => None
    case Some(m) => Some(if negative then 0 - m else m)
  }

  /** The unsigned part of `parseInt`: an optional `0x`/`0X` prefix selects radix 16, else
      radix 10; then the longest run of digits, of which there must be at least one. */
  function ParseUnsigned(u: string): (r: Option<nat>)
    ensures r.None? <==> DigitPrefixLen(HexBody(u), Radix(u)) == 0
  {
    var w := HexBody(u);
    var k := DigitPrefixLen(w, Radix(u));
    if k == 0 then None else Some(DigitsValue(w[..k], Radix(u)))
  }

  predicate HasHexPrefix(u: string) {
    |u| >= 2 && u[0] == '0' && (u[1] == 'x' || u[1] == 'X')
  }

  function Radix(u: string): nat {
    if HasHexPrefix(u) then 16 else 10
  }

  function HexBody(u: string): string {
    if HasHexPrefix(u) then u[2..] else u
  }

  /** The unsigned reader reads back a rendered natural followed by a character that cannot
      continue the number. */
  lemma ParseUnsignedOfRendered(n: nat, tail: string)
    requires |tail| == 0 || (!IsDigitIn(tail[0], 10) && tail[0] != 'x' && tail[0] != 'X')
    ensures ParseUnsigned(NatToString(n) + tail) == Some(n)
  {
    var d := NatToString(n);
    var u := d + tail;
    assert !HasHexPrefix(u) by {
      if |u| >= 2 && u[0] == '0' {
        assert n == 0 && |d| == 1;
        assert u[1] == tail[0];
      }
    }
    DigitPrefixOfDigits(d, tail, 10);
    assert u[..|d|] == d;
    NatToStringValue(n);
  }

  /** `parseInt` reads back what `String` renders, and stops at a following character that
      cannot continue the number. */
  lemma ParseIntOfRendered(i: int, tail: string)
    requires |tail| == 0 || (!IsDigitIn(tail[0], 10) && tail[0] != 'x' && tail[0] != 'X')
    ensures ParseInt(IntToString(i) + tail) == Some(i)
  {
    if i < 0 {
      var n: nat := -i;
      var d := NatToString(n);
      assert IntToString(i) + tail == "-" + (d + tail);
      assert ParseUnsigned(d + tail) == Some(n) by { ParseUnsignedOfRendered(n, tail); }
      assert ParseInt("-" + (d + tail)) == Some(i) by { ParseIntNegative(d + tail, n); }
    } else {
      var d := NatToString(i);
      assert IntToString(i) + tail == d + tail;
      assert ParseUnsigned(d + tail) == Some(i) by { ParseUnsignedOfRendered(i, tail); }
      assert ParseInt(d + tail) == Some(i) by { ParseIntDigitFirst(d + tail, i); }
    }
  }

  /** A minus sign negates what follows it. */
  lemma ParseIntNegative(u: string, m: nat)
    requires ParseUnsigned(u) == Some(m)
    ensures ParseInt("-" + u) == Some(0 - m)
  {
    var s := "-" + u;
    NoSpaceTrim(s);
    assert s[1..] == u;
  }

  /** A text starting with a digit is read by the unsigned reader alone. */
  lemma ParseIntDigitFirst(u: string, m: nat)
    requires |u| > 0 && IsDigitIn(u[0], 10) && ParseUnsigned(u) == Some(m)
    ensures ParseInt(u) == Some(m)
  {
    NoSpaceTrim(u);
  }

  /** A text that starts with something other than white space is not trimmed. */
  lemma NoSpaceTrim(s: string)
    requires |s| > 0 && (s[0] == '-' || IsDigitIn(s[0], 10))
    ensures TrimStart(s) == s
  {
    assert !IsJsSpace(s[0]);
  }

  /** A run of digits followed by a non-digit is read exactly. */
  lemma {:induction false} DigitPrefixOfDigits(d: string, tail: string, radix: nat)
    requires AllDigitsIn(d, radix)
    requires |tail| == 0 || !IsDigitIn(tail[0], radix)
    ensures DigitPrefixLen(d + tail, radix) == |d|
    decreases |d|
  {
    if |d| == 0 {
      assert d + tail == tail;
    } else {
      assert (d + tail)[1..] == d[1..] + tail;
      DigitPrefixOfDigits(d[1..], tail, radix);
    }
  }

  // ---------------------------------------------------------------------------
  // Micro-units rendered with six decimals

  /** `(x / PRECISION_DIV).toFixed(6)` for an integer amount `x` of micro-units, computed
      exactly: a sign for negative amounts, then the unsigned rendering. */
  function FormatMicro(x: int): (s: string)
    ensures |s| >= 8 && s[|s| - 7] == '.'
    ensures s[0] == '-' <==> x < 0
  {
    var body := MicroBody(if x < 0 then -x else x);
    assert IsDigitIn(body[0], 10);
    if x < 0 then "-" + body else body
  }

  /** Whole units, a point, and the remainder padded to six digits (`padStart(6, '0')`). */
  function MicroBody(m: nat): (s: string)
    ensures |s| >= 8 && s[|s| - 7] == '.' && IsDigitIn(s[0], 10)
  {
    var frac := NatToString(m % Constants.PRECISION_DIV);
    NatToStringLength(m % Constants.PRECISION_DIV, 6);
    NatToString(m / Constants.PRECISION_DIV) + "." + Zeros(6 - |frac|) + frac
  }

  /** Reads a `[-]digits.dddddd` text back as micro-units; `None` for any other shape. */
  function MicroValue(s: string): (r: Option<int>)
  {
    if |s| > 0 && s[0] == '-' then
      match UnsignedMicroValue(s[1..])
      case Some(v) => Some(-v)
      case None => None
    else UnsignedMicroValue(s)
  }

  function UnsignedMicroValue(s: string): Option<int> {
    if |s| >= 8 && s[|s| - 7] == '.' && AllDigitsIn(s[..|s| - 7], 10) && AllDigitsIn(s[|s| - 6..], 10)
    then Some(DigitsValue(s[..|s| - 7], 10) * Constants.PRECISION_DIV + DigitsValue(s[|s| - 6..], 10))
    else None
  }

  /** The unsigned rendering denotes exactly the amount it renders. */
  lemma MicroBodyValue(m: nat)
    ensures UnsignedMicroValue(MicroBody(m)) == Some(m)
  {
    MicroBodyWhole(m);
    MicroBodyFraction(m);
    assert (m / Constants.PRECISION_DIV) * Constants.PRECISION_DIV + m % Constants.PRECISION_DIV == m;
  }

  /** The text ahead of the point is the decimal of the whole units. */
  lemma MicroBodyWhole(m: nat)
    ensures var body := MicroBody(m);
      && AllDigitsIn(body[..|body| - 7], 10)
      && DigitsValue(body[..|body| - 7], 10) == m / Constants.PRECISION_DIV
  {
    var q := m / Constants.PRECISION_DIV;
    var frac := NatToString(m % Constants.PRECISION_DIV);
    NatToStringLength(m % Constants.PRECISION_DIV, 6);
    var padded := Zeros(6 - |frac|) + frac;
    var body := MicroBody(m);
    assert body == NatToString(q) + "." + padded;
    assert body[..|body| - 7] == NatToString(q);
    NatToStringValue(q);
  }

  /** The six digits after the point are the remainder, padded with zeros. */
  lemma MicroBodyFraction(m: nat)
    ensures var body := MicroBody(m);
      && AllDigitsIn(body[|body| - 6..], 10)
      && DigitsValue(body[|body| - 6..], 10) == m % Constants.PRECISION_DIV
  {
    var rem := m % Constants.PRECISION_DIV;
    var frac := NatToString(rem);
    NatToStringLength(rem, 6);
    var padded := Zeros(6 - |frac|) + frac;
    var body := MicroBody(m);
    assert body == NatToString(m / Constants.PRECISION_DIV) + "." + padded;
    assert body[|body| - 6..] == padded;
    LeadingZerosValue(6 - |frac|, frac, 10);
    NatToStringValue(rem);
  }

  /** The six-decimal rendering of a signed amount reads back as that amount. */
  lemma MicroRoundTrip(x: int)
    ensures MicroValue(FormatMicro(x)) == Some(x)
  {
    var body := MicroBody(if x < 0 then -x else x);
    MicroBodyValue(if x < 0 then -x else x);
    if x < 0 {
      assert ("-" + body)[1..] == body;
    }
  }
}

=== FILE: validator_sync.dfy ===
/** The validator reconciliation loop of the schedule task service: it builds a fresh
    validator row per entry of the validator set, inserts it unless one exists, reconciles the
    stored row field by field, and inserts the validator's delegations. */
module ValidatorSync {
  import opened Results
  import opened Lists
  import opened JsValues
  import opened Chain
  import Constants

  // ---------------------------------------------------------------------------
  // Node records

  datatype Pool = Pool(bondedTokens: string)

  datatype SlashingParams = SlashingParams(signedBlocksWindow: string)

  /** One entry of the slashing signing infos; `address` is a consensus bech32 address. */
  datatype SigningInfo = SigningInfo(address: string, missedBlocksCounter: string)

  /** One entry of a validator's `delegation_responses`. */
  datatype DelegationResponse = DelegationResponse(
    delegatorAddress: string,
    validatorAddress: string,
    shares: string,
    amount: string)

  /** The REST answers of one cycle; `None` is a rejected request. `delegations` answers per
      operator address. */
  datatype StakingApi = StakingApi(
    validators: Option<seq<ValidatorData>>,
    pool: Option<Pool>,
    slashing: Option<SlashingParams>,
    signingInfos: Option<seq<SigningInfo>>,
    delegations: string -> Option<seq<DelegationResponse>>)

  /** The address codec: the account address re-encoded from an operator address under the
      account prefix (`None` when bech32 decoding throws), the upper-case hex consensus
      address of a base64 consensus key, and a hex address encoded under the
      consensus-validator prefix. */
  datatype Codec = Codec(
    accAddress: string -> Option<string>,
    consAddress: string -> string,
    valconsAddress: string -> string)

  /** The floating-point texts: `Number(rate).toFixed(2)`, the percent of pool power, the
      uptime number `(window - missed) / window * 100`, the self-bonded percent
      `toFixed(2)`, and `parseInt((amount / 1e6).toFixed(5))` for a delegation. */
  datatype Formats = Formats(
    commission: string -> string,
    percentPower: (string, string) -> string,
    upTime: (string, string) -> string,
    percentSelfBonded: (string, string) -> string,
    delegationAmount: string -> JsValue)

  // ---------------------------------------------------------------------------
  // Rows

  /** A validator row, as built from node data or as read back from the store. */
  datatype ValidatorRow = ValidatorRow(
    operatorAddress: JsValue,
    accAddress: JsValue,
    consAddress: JsValue,
    consPubKey: JsValue,
    title: JsValue,
    jailed: JsValue,
    commission: JsValue,
    maxCommission: JsValue,
    maxChangeRate: JsValue,
    minSelfDelegation: JsValue,
    delegatorShares: JsValue,
    power: JsValue,
    percentPower: JsValue,
    selfBonded: JsValue,
    percentSelfBonded: JsValue,
    website: JsValue,
    details: JsValue,
    identity: JsValue,
    unbondingHeight: JsValue,
    unbondingTime: JsValue,
    updateTime: JsValue,
    upTime: JsValue)

  datatype DelegationRow = DelegationRow(
    delegatorAddress: string,
    validatorAddress: string,
    shares: string,
    amount: JsValue)

  /** The validator table keyed by operator address, the delegation table keyed by the
      (delegator, validator) pair. */
  datatype Store = Store(
    validators: map<string, ValidatorRow>,
    delegations: map<(string, string), DelegationRow>)

  // ---------------------------------------------------------------------------
  // Building a fresh row

  predicate SignsFor(address: string, info: SigningInfo) {
    info.address == address
  }

  predicate BondedBy(account: string, d: DelegationResponse) {
    d.delegatorAddress == account
  }

  /** The consensus-validator bech32 address the signing infos are keyed by. */
  function ValconsAddress(data: ValidatorData, codec: Codec): string {
    codec.valconsAddress(codec.consAddress(data.consensusKey))
  }

  /** The fresh row for one validator entry, or the error thrown when the operator address
      does not decode. Uptime comes from the first signing info under the validator's
      consensus address and the self bond from the first delegation by its own account;
      either is left `undefined` when there is none. */
  function BuildValidator(data: ValidatorData, pool: Pool, slashing: SlashingParams, infos: seq<SigningInfo>,
                          delegations: seq<DelegationResponse>, codec: Codec, formats: Formats): (r: Result<ValidatorRow>)
    ensures r.Err? <==> codec.accAddress(data.operatorAddress).None?
    ensures r.Ok? ==> r.value.jailed == JBool(data.jailed) && r.value.operatorAddress == JStr(data.operatorAddress)
  {
    match codec.accAddress(data.operatorAddress)
    case None => Err("invalid bech32 operator address")
    case Some(account) =>
      var address := ValconsAddress(data, codec);
      var signing := Filter(infos, s => SignsFor(address, s));
      var selfBonded := Filter(delegations, d => BondedBy(account, d));
      Ok(ValidatorRow(
        JStr(data.operatorAddress),
        JStr(account),
        JStr(codec.consAddress(data.consensusKey)),
        JStr(data.consensusKey),
        JStr(data.moniker),
        JBool(data.jailed),
        JStr(formats.commission(data.rate)),
        JStr(data.maxRate),
        JStr(data.maxChangeRate),
        JStr(data.minSelfDelegation),
        JStr(data.delegatorShares),
        JStr(data.tokens),
        JStr(formats.percentPower(data.tokens, pool.bondedTokens)),
        if |selfBonded| > 0 then JStr(selfBonded[0].amount) else JUndefined,
        if |selfBonded| > 0 then JStr(formats.percentSelfBonded(selfBonded[0].amount, data.tokens) + Constants.PERCENT)
        else JUndefined,
        JStr(data.website),
        JStr(data.details),
        JStr(data.identity),
        JStr(data.unbondingHeight),
        JStr(data.unbondingTime),
        JStr(data.updateTime),
        if |signing| > 0 then JStr(formats.upTime(slashing.signedBlocksWindow, signing[0].missedBlocksCounter) + Constants.PERCENT)
        else JUndefined))
  }

  /** Building fails exactly when the operator address does not decode. A built row holds
      the node's addresses, jailing and tokens; its uptime comes from the first signing info
      under the validator's consensus address and its self bond from the first delegation by
      its own account, each `undefined` exactly when there is no such entry. */
  lemma BuildValidatorFields(data: ValidatorData, pool: Pool, slashing: SlashingParams, infos: seq<SigningInfo>,
                             delegations: seq<DelegationResponse>, codec: Codec, formats: Formats)
    ensures var r := BuildValidator(data, pool, slashing, infos, delegations, codec, formats);
      r.Err? <==> codec.accAddress(data.operatorAddress).None?
    ensures var r := BuildValidator(data, pool, slashing, infos, delegations, codec, formats);
      r.Ok? ==>
      && r.value.operatorAddress == JStr(data.operatorAddress)
      && r.value.accAddress == JStr(codec.accAddress(data.operatorAddress).value)
      && r.value.consAddress == JStr(codec.consAddress(data.consensusKey))
      && r.value.jailed == JBool(data.jailed) && r.value.power == JStr(data.tokens)
    ensures var r := BuildValidator(data, pool, slashing, infos, delegations, codec, formats);
      r.Ok? ==> var i := Find(infos, s => SignsFor(ValconsAddress(data, codec), s));
      && (i.None? <==> r.value.upTime == JUndefined)
      && (i.Some? ==>
            r.value.upTime
            == JStr(formats.upTime(slashing.signedBlocksWindow, infos[i.value].missedBlocksCounter) + Constants.PERCENT))
    ensures var r := BuildValidator(data, pool, slashing, infos, delegations, codec, formats);
      r.Ok? ==> var i := Find(delegations, d => BondedBy(codec.accAddress(data.operatorAddress).value, d));
      && (i.None? <==> r.value.selfBonded == JUndefined && r.value.percentSelfBonded == JUndefined)
      && (i.Some? ==>
            && r.value.selfBonded == JStr(delegations[i.value].amount)
            && r.value.percentSelfBonded
               == JStr(formats.percentSelfBonded(delegations[i.value].amount, data.tokens) + Constants.PERCENT))
  {
    if codec.accAddress(data.operatorAddress).Some? {
      var account := codec.accAddress(data.operatorAddress).value;
      FilterHeadIsFind(infos, s => SignsFor(ValconsAddress(data, codec), s));
      FilterHeadIsFind(delegations, d => BondedBy(account, d));
    }
  }

  // ---------------------------------------------------------------------------
  // Reconciling a stored row

  /** The twelve fields the reconciliation compares, in the order it compares them. */
  datatype Field =
    | Title | Jailed | Commission | Power | PercentPower | SelfBonded
    | PercentSelfBonded | Website | Details | Identity | UnbondingHeight | UpTime

  const ListedFields: seq<Field> :=
    [Title, Jailed, Commission, Power, PercentPower, SelfBonded,
     PercentSelfBonded, Website, Details, Identity, UnbondingHeight, UpTime]

  /** Power and self bond are compared against `parseInt` of the fresh value. */
  predicate Parsed(f: Field) {
    f == Power || f == SelfBonded
  }

  function Get(row: ValidatorRow, f: Field): JsValue {
    match f
    case Title => row.title
    case Jailed => row.jailed
    case Commission => row.commission
    case Power => row.power
    case PercentPower => row.percentPower
    case SelfBonded => row.selfBonded
    case PercentSelfBonded => row.percentSelfBonded
    case Website => row.website
    case Details => row.details
    case Identity => row.identity
    case UnbondingHeight => row.unbondingHeight
    case UpTime => row.upTime
  }

  function Set(row: ValidatorRow, f: Field, v: JsValue): (r: ValidatorRow)
    ensures Get(r, f) == v
    ensures forall g :: g != f ==> Get(r, g) == Get(row, g)
    ensures SameUnlisted(r, row)
  {
    match f
    case Title => row.(title := v)
    case Jailed => row.(jailed := v)
    case Commission => row.(commission := v)
    case Power => row.(power := v)
    case PercentPower => row.(percentPower := v)
    case SelfBonded => row.(selfBonded := v)
    case PercentSelfBonded => row.(percentSelfBonded := v)
    case Website => row.(website := v)
    case Details => row.(details := v)
    case Identity => row.(identity := v)
    case UnbondingHeight => row.(unbondingHeight := v)
    case UpTime => row.(upTime := v)
  }

  /** `a` and `b` agree on every field outside the twelve compared ones. */
  predicate SameUnlisted(a: ValidatorRow, b: ValidatorRow) {
    && a.operatorAddress == b.operatorAddress && a.accAddress == b.accAddress
    && a.consAddress == b.consAddress && a.consPubKey == b.consPubKey
    && a.maxCommission == b.maxCommission && a.maxChangeRate == b.maxChangeRate
    && a.minSelfDelegation == b.minSelfDelegation && a.delegatorShares == b.delegatorShares
    && a.unbondingTime == b.unbondingTime && a.updateTime == b.updateTime
  }

  /** The value the stored field is compared against. */
  function Compared(f: Field, built: JsValue): JsValue {
    if Parsed(f) then ParseIntValue(built) else built
  }

  /** The comparison of field `f` reports a difference, so the field is copied and saved. */
  predicate Differs(stored: ValidatorRow, built: ValidatorRow, f: Field) {
    !StrictEquals(Get(stored, f), Compared(f, Get(built, f)))
  }

  /** After reconciliation field `f` keeps its stored value when that compared equal and
      holds the fresh value otherwise. */
  predicate Settled(f: Field, now: JsValue, stored: JsValue, built: JsValue) {
    now == (if StrictEquals(stored, Compared(f, built)) then stored else built)
  }

  /** `now` holds the values of `built` in the ten fields compared without parsing. */
  predicate CopiesDirectFields(now: ValidatorRow, built: ValidatorRow) {
    && now.title == built.title && now.jailed == built.jailed && now.commission == built.commission
    && now.percentPower == built.percentPower && now.percentSelfBonded == built.percentSelfBonded
    && now.website == built.website && now.details == built.details && now.identity == built.identity
    && now.unbondingHeight == built.unbondingHeight && now.upTime == built.upTime
  }

  /** The reconciled row and the number of saves issued. */
  datatype Diff = Diff(row: ValidatorRow, writes: nat)

  /** The conditional copies for `fields`, in order, each one counted as a save. */
  function Apply(row: ValidatorRow, built: ValidatorRow, fields: seq<Field>): (d: Diff)
    ensures d.writes <= |fields|
    decreases |fields|
  {
    if |fields| == 0 then Diff(row, 0)
    else
      var f := fields[0];
      var step := if StrictEquals(Get(row, f), Compared(f, Get(built, f))) then Diff(row, 0)
                  else Diff(Set(row, f, Get(built, f)), 1);
      var rest := Apply(step.row, built, fields[1..]);
      Diff(rest.row, step.writes + rest.writes)
  }

  /** The copies touch only the listed fields; over distinct fields each one ends up settled
      and the saves are exactly the fields that compared unequal. */
  lemma {:induction false} ApplyFacts(row: ValidatorRow, built: ValidatorRow, fields: seq<Field>)
    ensures var d := Apply(row, built, fields);
      forall g :: g !in fields ==> Get(d.row, g) == Get(row, g)
    ensures SameUnlisted(Apply(row, built, fields).row, row)
    ensures var d := Apply(row, built, fields);
      d.writes == 0 ==> d.row == row
    ensures var d := Apply(row, built, fields);
      Distinct(fields) ==> forall g :: g in fields ==> Settled(g, Get(d.row, g), Get(row, g), Get(built, g))
    ensures var d := Apply(row, built, fields);
      Distinct(fields) ==> d.writes == |Filter(fields, g => Differs(row, built, g))|
    decreases |fields|
  {
    if |fields| > 0 {
      var f := fields[0];
      var step := if StrictEquals(Get(row, f), Compared(f, Get(built, f))) then Diff(row, 0)
                  else Diff(Set(row, f, Get(built, f)), 1);
      ApplyFacts(step.row, built, fields[1..]);
      ApplyDistinctStep(row, step.row, built, fields);
    }
  }

  /** Once the head is settled, the tail's comparisons see the stored values untouched. */
  lemma ApplyDistinctStep(row: ValidatorRow, next: ValidatorRow, built: ValidatorRow, fields: seq<Field>)
    requires |fields| > 0
    requires forall g :: g != fields[0] ==> Get(next, g) == Get(row, g)
    ensures Distinct(fields) ==> Distinct(fields[1..]) && fields[0] !in fields[1..]
    ensures Distinct(fields) ==>
      Filter(fields[1..], g => Differs(next, built, g)) == Filter(fields[1..], g => Differs(row, built, g))
  {
    if Distinct(fields) {
      FilterAgrees(fields[1..], g => Differs(next, built, g), g => Differs(row, built, g));
    }
  }

  /** Filtering with two predicates that agree on the sequence gives the same result. */
  lemma {:induction false} FilterAgrees<T>(xs: seq<T>, p: T -> bool, q: T -> bool)
    requires forall x :: x in xs ==> p(x) == q(x)
    ensures Filter(xs, p) == Filter(xs, q)
    decreases |xs|
  {
    if |xs| > 0 {
      FilterAgrees(xs[1..], p, q);
    }
  }

  /** `jailed` as the reconciliation rewrites it on the fresh row before comparing. */
  function NormalizeJailed(built: ValidatorRow): (r: ValidatorRow)
    ensures r.jailed == JStr("1") || r.jailed == JStr("0")
    ensures r.jailed == JStr("1") <==> Truthy(built.jailed)
    ensures r == built.(jailed := r.jailed)
  {
    built.(jailed := if Truthy(built.jailed) then JStr("1") else JStr("0"))
  }

  /** The field-by-field reconciliation of a stored row with a fresh one. Afterwards the ten
      directly compared fields hold the fresh values (`jailed` as `'1'`/`'0'`), power and self
      bond hold the fresh value unless the stored one already equals its parsed integer,
      nothing else changes, and one save is issued per field that compared unequal. */
  function UpdateValidator(built: ValidatorRow, stored: ValidatorRow): (d: Diff)
    ensures CopiesDirectFields(d.row, NormalizeJailed(built))
    ensures StrictEquals(stored.power, ParseIntValue(built.power)) ==> d.row.power == stored.power
    ensures !StrictEquals(stored.power, ParseIntValue(built.power)) ==> d.row.power == built.power
    ensures StrictEquals(stored.selfBonded, ParseIntValue(built.selfBonded)) ==> d.row.selfBonded == stored.selfBonded
    ensures !StrictEquals(stored.selfBonded, ParseIntValue(built.selfBonded)) ==> d.row.selfBonded == built.selfBonded
    ensures SameUnlisted(d.row, stored)
    ensures d.writes == |Filter(ListedFields, f => Differs(stored, NormalizeJailed(built), f))|
    ensures d.writes == 0 ==> d.row == stored
  {
    var norm := NormalizeJailed(built);
    var d := Apply(stored, norm, ListedFields);
    ApplyFacts(stored, norm, ListedFields);
    assert Distinct(ListedFields) by { AllFieldsListed(); }
    SettledFields(d.row, stored, norm);
    SettledParsed(d.row, stored, norm);
    d
  }

  /** The compared fields are twelve distinct fields, and every field is one of them. */
  lemma AllFieldsListed()
    ensures Distinct(ListedFields)
    ensures forall f :: f in ListedFields
  {
    forall f ensures f in ListedFields {
      match f
      case Title => assert ListedFields[0] == f;
      case Jailed => assert ListedFields[1] == f;
      case Commission => assert ListedFields[2] == f;
      case Power => assert ListedFields[3] == f;
      case PercentPower => assert ListedFields[4] == f;
      case SelfBonded => assert ListedFields[5] == f;
      case PercentSelfBonded => assert ListedFields[6] == f;
      case Website => assert ListedFields[7] == f;
      case Details => assert ListedFields[8] == f;
      case Identity => assert ListedFields[9] == f;
      case UnbondingHeight => assert ListedFields[10] == f;
      case UpTime => assert ListedFields[11] == f;
    }
  }

  /** Settled listed fields away from power and self bond hold the built value. */
  lemma SettledFields(now: ValidatorRow, stored: ValidatorRow, built: ValidatorRow)
    requires forall g :: g in ListedFields ==> Settled(g, Get(now, g), Get(stored, g), Get(built, g))
    ensures CopiesDirectFields(now, built)
  {
    SettledDisplayFields(now, stored, built);
    SettledProfileFields(now, stored, built);
  }

  /** The five display fields of a settled row. */
  lemma SettledDisplayFields(now: ValidatorRow, stored: ValidatorRow, built: ValidatorRow)
    requires forall g :: g in ListedFields ==> Settled(g, Get(now, g), Get(stored, g), Get(built, g))
    ensures now.title == built.title && now.jailed == built.jailed && now.commission == built.commission
    ensures now.percentPower == built.percentPower && now.percentSelfBonded == built.percentSelfBonded
  {
    SettledAt(now, stored, built, Title);
    SettledAt(now, stored, built, Jailed);
    SettledAt(now, stored, built, Commission);
    SettledAt(now, stored, built, PercentPower);
    SettledAt(now, stored, built, PercentSelfBonded);
  }

  /** The five profile fields of a settled row. */
  lemma SettledProfileFields(now: ValidatorRow, stored: ValidatorRow, built: ValidatorRow)
    requires forall g :: g in ListedFields ==> Settled(g, Get(now, g), Get(stored, g), Get(built, g))
    ensures now.website == built.website && now.details == built.details && now.identity == built.identity
    ensures now.unbondingHeight == built.unbondingHeight && now.upTime == built.upTime
  {
    SettledAt(now, stored, built, Website);
    SettledAt(now, stored, built, Details);
    SettledAt(now, stored, built, Identity);
    SettledAt(now, stored, built, UnbondingHeight);
    SettledAt(now, stored, built, UpTime);
  }

  /** Settled power and self bond keep the stored value exactly when it equals the parsed
      built value. */
  lemma SettledParsed(now: ValidatorRow, stored: ValidatorRow, built: ValidatorRow)
    requires forall g :: g in ListedFields ==> Settled(g, Get(now, g), Get(stored, g), Get(built, g))
    ensures StrictEquals(stored.power, ParseIntValue(built.power)) ==> now.power == stored.power
    ensures !StrictEquals(stored.power, ParseIntValue(built.power)) ==> now.power == built.power
    ensures StrictEquals(stored.selfBonded, ParseIntValue(built.selfBonded)) ==> now.selfBonded == stored.selfBonded
    ensures !StrictEquals(stored.selfBonded, ParseIntValue(built.selfBonded)) ==> now.selfBonded == built.selfBonded
  {
    SettledAt(now, stored, built, Power);
    SettledAt(now, stored, built, SelfBonded);
  }

  /** Each listed field of a settled row is settled. */
  lemma SettledAt(now: ValidatorRow, stored: ValidatorRow, built: ValidatorRow, f: Field)
    requires forall g :: g in ListedFields ==> Settled(g, Get(now, g), Get(stored, g), Get(built, g))
    ensures Settled(f, Get(now, f), Get(stored, f), Get(built, f))
  {
    AllFieldsListed();
  }

  /** Reconciling a reconciled row with the same fresh row leaves it as it is. */
  lemma UpdateIsIdempotent(built: ValidatorRow, stored: ValidatorRow)
    ensures var once := UpdateValidator(built, stored).row;
      UpdateValidator(built, once).row == once
  {
    var once := UpdateValidator(built, stored).row;
    var twice := UpdateValidator(built, once).row;
    assert once.power == twice.power by {
      if StrictEquals(stored.power, ParseIntValue(built.power)) {
        assert StrictEquals(once.power, ParseIntValue(built.power));
      }
    }
    assert once.selfBonded == twice.selfBonded by {
      if StrictEquals(stored.selfBonded, ParseIntValue(built.selfBonded)) {
        assert StrictEquals(once.selfBonded, ParseIntValue(built.selfBonded));
      }
    }
  }

  /** A power stored as text is saved again on every reconciliation: a string is never
      strictly equal to a parsed number. The same holds for a fresh row without self bond,
      whose `parseInt(undefined)` is `NaN`. */
  lemma TextPowerAlwaysSaved(built: ValidatorRow, stored: ValidatorRow)
    requires stored.power.JStr? || built.selfBonded.JUndefined?
    ensures UpdateValidator(built, stored).writes > 0
  {
    var norm := NormalizeJailed(built);
    if stored.power.JStr? {
      assert Differs(stored, norm, ListedFields[3]) by {
        StringNeverEqualsParsed(stored.power.s, norm.power);
      }
    } else {
      assert Differs(stored, norm, ListedFields[5]);
    }
    FilterEmpty(ListedFields, f => Differs(stored, NormalizeJailed(built), f));
  }

  /** A stored row that already holds the fresh values, with power and self bond as the
      numbers `parseInt` reads from the fresh texts, issues no save. */
  lemma NumericRowIsQuiet(built: ValidatorRow, stored: ValidatorRow)
    requires CopiesDirectFields(stored, NormalizeJailed(built))
    requires forall f :: !Parsed(f) ==> !Get(stored, f).JNaN?
    requires ParseIntValue(built.power).JNum? && stored.power == ParseIntValue(built.power)
    requires ParseIntValue(built.selfBonded).JNum? && stored.selfBonded == ParseIntValue(built.selfBonded)
    ensures UpdateValidator(built, stored).writes == 0
  {
    var norm := NormalizeJailed(built);
    forall i | 0 <= i < |ListedFields| ensures !Differs(stored, norm, ListedFields[i]) {
      var f := ListedFields[i];
      if !Parsed(f) {
        assert Get(stored, f) == Get(norm, f) by {
          assert f in {Title, Jailed, Commission, PercentPower, PercentSelfBonded, Website, Details,
                       Identity, UnbondingHeight, UpTime};
        }
      }
    }
    FilterEmpty(ListedFields, f => Differs(stored, NormalizeJailed(built), f));
  }

  // ---------------------------------------------------------------------------
  // The cycle

  /** What one cycle reads before its per-validator loop. */
  datatype Context = Context(
    pool: Pool,
    slashing: SlashingParams,
    infos: seq<SigningInfo>,
    delegations: string -> Option<seq<DelegationResponse>>,
    codec: Codec,
    formats: Formats)

  /** The row stored under `key` after the built row is inserted unless one is already
      there (a conflict is only logged) and the stored row is then reconciled with it. */
  function Stored(store: Store, key: string, row: ValidatorRow): (r: ValidatorRow)
    ensures key !in store.validators ==> r == NormalizeJailed(row)
    ensures key in store.validators ==> r == UpdateValidator(row, store.validators[key]).row
  {
    if key in store.validators then UpdateValidator(row, store.validators[key]).row
    else
      InsertedRowIsNormalized(row);
      UpdateValidator(row, row).row
  }

  /** A freshly inserted row reconciled with itself changes only in `jailed`, which becomes
      `'1'` or `'0'`. */
  lemma InsertedRowIsNormalized(row: ValidatorRow)
    ensures UpdateValidator(row, row).row == NormalizeJailed(row)
  {
    var now := UpdateValidator(row, row).row;
    assert now.power == row.power;
    assert now.selfBonded == row.selfBonded;
  }

  /** The store with `value` written under `key`: only that key changes. */
  function Reconcile(store: Store, key: string, value: ValidatorRow): (r: Store)
    ensures r.delegations == store.delegations
    ensures key in r.validators && r.validators[key] == value
    ensures forall k :: k in r.validators ==> k == key || k in store.validators
    ensures forall k :: k in store.validators ==>
      k in r.validators && (k != key ==> r.validators[k] == store.validators[k])
  {
    store.(validators := store.validators[key := value])
  }

  /** The delegation row stored for one delegation response. */
  function DelegationOf(d: DelegationResponse, formats: Formats): DelegationRow {
    DelegationRow(d.delegatorAddress, d.validatorAddress, d.shares, formats.delegationAmount(d.amount))
  }

  function DelegationKey(d: DelegationResponse): (string, string) {
    (d.delegatorAddress, d.validatorAddress)
  }

  /** Inserts each delegation in order; a pair already stored is left as it is. */
  function SaveDelegations(store: Store, ds: seq<DelegationResponse>, formats: Formats): (r: Store)
    ensures r.validators == store.validators
    ensures forall k :: k in store.delegations ==> k in r.delegations && r.delegations[k] == store.delegations[k]
    ensures forall i :: 0 <= i < |ds| ==> DelegationKey(ds[i]) in r.delegations
    ensures forall k :: k in r.delegations ==> k in store.delegations || exists i :: 0 <= i < |ds| && DelegationKey(ds[i]) == k
    decreases |ds|
  {
    if |ds| == 0 then store
    else
      var key := DelegationKey(ds[0]);
      var next := if key in store.delegations then store
                  else store.(delegations := store.delegations[key := DelegationOf(ds[0], formats)]);
      var r := SaveDelegations(next, ds[1..], formats);
      assert forall i :: 1 <= i < |ds| ==> ds[i] == ds[1..][i - 1];
      r
  }

  /** `i` is the first response in `ds` for the (delegator, validator) pair `k`. */
  ghost predicate FirstFor(ds: seq<DelegationResponse>, k: (string, string), i: int) {
    0 <= i < |ds| && DelegationKey(ds[i]) == k && forall j :: 0 <= j < i ==> DelegationKey(ds[j]) != k
  }

  /** A delegation row the loop inserts is the row of the first response for its pair: later
      responses for a pair already saved hit the unique key and are dropped. */
  lemma {:induction false} SaveDelegationsValues(store: Store, ds: seq<DelegationResponse>, formats: Formats)
    ensures var r := SaveDelegations(store, ds, formats);
      forall k :: k in r.delegations && k !in store.delegations ==>
        exists i :: FirstFor(ds, k, i) && r.delegations[k] == DelegationOf(ds[i], formats)
    decreases |ds|
  {
    if |ds| > 0 {
      var key := DelegationKey(ds[0]);
      var next := if key in store.delegations then store
                  else store.(delegations := store.delegations[key := DelegationOf(ds[0], formats)]);
      var r := SaveDelegations(store, ds, formats);
      assert r == SaveDelegations(next, ds[1..], formats);
      SaveDelegationsValues(next, ds[1..], formats);
      forall k | k in r.delegations && k !in store.delegations
        ensures exists i :: FirstFor(ds, k, i) && r.delegations[k] == DelegationOf(ds[i], formats)
      {
        if k == key {
          assert FirstFor(ds, k, 0);
        } else {
          var i :| FirstFor(ds[1..], k, i) && r.delegations[k] == DelegationOf(ds[1..][i], formats);
          forall j | 0 <= j < i + 1
            ensures DelegationKey(ds[j]) != k
          {
            if j > 0 {
              assert ds[j] == ds[1..][j - 1];
            }
          }
          assert FirstFor(ds, k, i + 1);
        }
      }
    }
  }

  /** The guarded body for one validator: build the row, insert it unless present, reconcile
      the stored row, insert the delegations. Stored rows and delegations are never removed
      and a delegation already stored is never rewritten; no other validator's row changes. */
  function SyncValidator(data: ValidatorData, delegations: seq<DelegationResponse>, ctx: Context, store: Store): (r: Store)
    ensures forall k :: k in store.validators ==> k in r.validators
    ensures forall k :: k in store.delegations ==> k in r.delegations && r.delegations[k] == store.delegations[k]
    ensures forall k :: k in r.validators && k != data.operatorAddress ==> k in store.validators && r.validators[k] == store.validators[k]
  {
    match BuildValidator(data, ctx.pool, ctx.slashing, ctx.infos, delegations, ctx.codec, ctx.formats)
    case Err(_) => store
    case Ok(row) =>
      var op := data.operatorAddress;
      SaveDelegations(Reconcile(store, op, Stored(store, op, row)), delegations, ctx.formats)
  }

  /** A row that cannot be built leaves the store as it was; a row that can is stored,
      reconciled, under its operator address, together with every one of its delegations. */
  lemma SyncValidatorStores(data: ValidatorData, delegations: seq<DelegationResponse>, ctx: Context, store: Store)
    ensures var b := BuildValidator(data, ctx.pool, ctx.slashing, ctx.infos, delegations, ctx.codec, ctx.formats);
      b.Err? ==> SyncValidator(data, delegations, ctx, store) == store
    ensures var b := BuildValidator(data, ctx.pool, ctx.slashing, ctx.infos, delegations, ctx.codec, ctx.formats);
      var r := SyncValidator(data, delegations, ctx, store);
      b.Ok? ==>
      && data.operatorAddress in r.validators
      && r.validators[data.operatorAddress] == Stored(store, data.operatorAddress, b.value)
      && forall i :: 0 <= i < |delegations| ==> DelegationKey(delegations[i]) in r.delegations
  {
  }

  datatype CycleOutcome =
    | Skipped      // a block tick is in flight
    | Aborted      // a request before the loop was rejected
    | Interrupted  // a delegation request inside the loop was rejected
    | Completed

  datatype CycleResult = CycleResult(store: Store, outcome: CycleOutcome)

  /** The loop from validator `i` on. The delegation request of each validator sits outside
      the guarded body, so its rejection ends the whole cycle. */
  function SyncFrom(vals: seq<ValidatorData>, i: nat, ctx: Context, store: Store): (r: CycleResult)
    requires i <= |vals|
    ensures r.outcome == Completed || r.outcome == Interrupted
    ensures forall k :: k in store.validators ==> k in r.store.validators
    ensures forall k :: k in store.delegations ==> k in r.store.delegations && r.store.delegations[k] == store.delegations[k]
    ensures r.outcome == Completed <==> forall j :: i <= j < |vals| ==> ctx.delegations(vals[j].operatorAddress).Some?
    decreases |vals| - i
  {
    if i == |vals| then CycleResult(store, Completed)
    else
      match ctx.delegations(vals[i].operatorAddress)
      case None => CycleResult(store, Interrupted)
      case Some(ds) => SyncFrom(vals, i + 1, ctx, SyncValidator(vals[i], ds, ctx, store))
  }

  /** Every validator before the first rejected delegation request whose row can be built is
      stored with all its delegations, whatever happened to the validators around it. */
  lemma {:induction false} SyncFromKeepsGoodValidators(vals: seq<ValidatorData>, i: nat, ctx: Context, store: Store, k: nat)
    requires i <= k < |vals|
    requires forall j :: i <= j <= k ==> ctx.delegations(vals[j].operatorAddress).Some?
    requires var ds := ctx.delegations(vals[k].operatorAddress).value;
      BuildValidator(vals[k], ctx.pool, ctx.slashing, ctx.infos, ds, ctx.codec, ctx.formats).Ok?
    ensures var r := SyncFrom(vals, i, ctx, store);
      && vals[k].operatorAddress in r.store.validators
      && var ds := ctx.delegations(vals[k].operatorAddress).value;
         forall d :: d in ds ==> DelegationKey(d) in r.store.delegations
    decreases k - i
  {
    var ds := ctx.delegations(vals[i].operatorAddress).value;
    var next := SyncValidator(vals[i], ds, ctx, store);
    assert SyncFrom(vals, i, ctx, store) == SyncFrom(vals, i + 1, ctx, next);
    if i < k {
      SyncFromKeepsGoodValidators(vals, i + 1, ctx, next, k);
    } else {
      assert vals[k].operatorAddress in next.validators
          && forall d :: d in ds ==> DelegationKey(d) in next.delegations by {
        SyncValidatorStores(vals[i], ds, ctx, store);
      }
    }
  }

  /** One `syncValidator` cycle. It is a no-op while a block tick is in flight; a rejected
      request for the validator set, the pool, the slashing parameters or the signing
      infos ends it before anything is written. */
  function SyncValidators(isSyncing: bool, store: Store, api: StakingApi, codec: Codec, formats: Formats): (r: CycleResult)
    ensures isSyncing ==> r == CycleResult(store, Skipped)
    ensures !isSyncing && (api.validators.None? || api.pool.None? || api.slashing.None? || api.signingInfos.None?)
      ==> r == CycleResult(store, Aborted)
    ensures forall k :: k in store.validators ==> k in r.store.validators
    ensures forall k :: k in store.delegations ==> k in r.store.delegations && r.store.delegations[k] == store.delegations[k]
    ensures r.outcome == Completed <==>
      && !isSyncing && api.validators.Some? && api.pool.Some? && api.slashing.Some? && api.signingInfos.Some?
      && forall j :: 0 <= j < |api.validators.value| ==> api.delegations(api.validators.value[j].operatorAddress).Some?
  {
    if isSyncing then CycleResult(store, Skipped)
    else if api.validators.None? || api.pool.None? || api.slashing.None? || api.signingInfos.None? then
      CycleResult(store, Aborted)
    else
      var ctx := Context(api.pool.value, api.slashing.value, api.signingInfos.value, api.delegations, codec, formats);
      SyncFrom(api.validators.value, 0, ctx, store)
  }
}
